=== FILE: README.md ===
# TogetherUs — a Dafny model of the relay and the grid world

TogetherUs is a shared apartment for two people. Each couple has a room. The
partners walk avatars through a 26 × 18 tile map, enter zones (kitchen,
lounge, garden, bedroom, office), open and close doors, sit on chairs and
sleep in the bed. They also share a video, a focus countdown, chat and a
video call.

The model covers two sides of the system:

- **The backend relay.** The Socket.IO handler groups read and write
  per-room state in a key-value store under four keys per room, then
  broadcast events. The model treats the relay as an immutable value.
  `RelayState.Relay` maps each room to its positions, active zones, watch
  state, focus countdown and chat history. It also records which rooms
  have a running focus interval (`timers`) and the intervals still
  scheduled for each room (`loops`).
  - Every handler is a pure function from a relay state and a connection to
    a `Step`: the new state, the connection (its room and Socket.IO groups),
    the emitted events and the acknowledgement reply.
  - Each emitted event is tagged with its audience: the whole room
    (`io.to(room)`) or everyone but the sender (`socket.to(room)`).
  - Key expiry is an explicit step (`Relay.Expire`). So is one firing of a
    focus interval (`Relay.FireLoop`).
  - The socket handshake gate and the three couple routes (`/create`,
    `/join`, `/my`) work over an in-memory table model of the couples,
    members and rooms tables.
- **The frontend grid world.**
  - The static configuration: map, furniture, passable furniture and zones.
  - The collision manager's wall segments and door states.
  - The `Door` objects and the object registry of doors, seats and the bed.
  - The interaction manager's per-frame update.
  - The room scene: collision map, spawn search, movement, zone detection
    and remote avatars.
  - The pixel-character sprite helpers.

Tiles are `Grid.Tile(x, y)`. The source's `"x,y"` string sets are `set<Tile>`
(`Grid.TileKey` is injective, so nothing is lost). Pixel coordinates are
integers.

## Model

| member | source | states |
|---|---|---|
| StoreKeys.RoomKey | backend/src/db/redis.js:19-22 | every room key parses back to its purpose and room id, whatever the room id contains |
| StoreKeys.RoomPositionsKey | backend/src/db/redis.js:19 | the positions key parses back to (positions, roomId) |
| StoreKeys.ActiveZoneKey | backend/src/db/redis.js:20 | the active-zone key parses back to (active zone, roomId) |
| StoreKeys.WatchStateKey | backend/src/db/redis.js:21 | the watch key parses back to (watch, roomId) |
| StoreKeys.FocusStateKey | backend/src/db/redis.js:22 | the focus key parses back to (focus, roomId) |
| StoreKeys.SuffixesDistinct | backend/src/db/redis.js:19-22 | a key built for one purpose never ends in another purpose's suffix |
| StoreKeys.KeysCollideOnlyWhenEqual | backend/src/db/redis.js:19-22 | two room keys are equal exactly when purpose and room id are equal, so no two rooms or purposes share a key |
| SocketAuth.Token | backend/src/modules/auth/socket-auth.js:8 | the handshake auth token wins when it is non-empty; otherwise the query token is used |
| SocketAuth.Authenticate | backend/src/modules/auth/socket-auth.js:7-18 | no token: "Authentication required"; a token that fails verification or whose lookup throws: "Invalid token"; an unknown id: "User not found"; otherwise admitted with the stored user, in no room |
| SocketAuth.AdmittedIffVerifiedAndFound | backend/src/modules/auth/socket-auth.js:8-15 | a socket is admitted iff a non-empty token verifies to an id with a stored user; the connection then carries that record, its own socket id, no room and no group |
| SocketAuth.AuthTokenTakesPrecedence | backend/src/modules/auth/socket-auth.js:8 | with a non-empty auth token the query token makes no difference |
| Couples.RequireAuth | backend/src/modules/auth/couple-routes.js:12-28 | a session user passes; a missing or non-"Bearer " header gives 401 "Not authenticated"; otherwise the token decides between pass with its id and 401 "Invalid token" |
| Couples.BearerTokenIsSecondField | backend/src/modules/auth/couple-routes.js:20 | the token read from "Bearer " + token + rest is exactly the token iff rest is empty or starts with a space |
| Couples.FindCouple | backend/src/modules/auth/couple-routes.js:36 | returns a stored couple with the id, and None exactly when no row has it |
| Couples.FindByCode | backend/src/modules/auth/couple-routes.js:76-77 | returns a couple with the code, and None exactly when no row has it |
| Couples.FindRoom | backend/src/modules/auth/couple-routes.js:85-86 | returns a room of the couple, and None exactly when the couple has none |
| Couples.FirstMembership | backend/src/modules/auth/couple-routes.js:35-40 | a found couple is stored and lists the user; None means no membership of the user names a stored couple |
| Couples.CoupleMembers | backend/src/modules/auth/couple-routes.js:78-79 | lists exactly the users with a membership row for the couple |
| Couples.UserRows | backend/src/modules/auth/couple-routes.js:83 | positive exactly when some membership row belongs to the user |
| Couples.RemoveUser | backend/src/modules/auth/couple-routes.js:83 | keeps exactly the rows of other users |
| Couples.RemoveUserCounts | backend/src/modules/auth/couple-routes.js:83 | after the delete the user has no rows, other users keep their counts, and a couple's member list only shrinks (unchanged if the user was not in it) |
| Couples.RemoveDashes | backend/src/modules/auth/couple-routes.js:48 | removes every dash and keeps every other character |
| Couples.InviteCode | backend/src/modules/auth/couple-routes.js:48 | the code is the first 12 characters of the dash-free UUID (fewer if it is shorter) and has no dash |
| Couples.Create | backend/src/modules/auth/couple-routes.js:32-69 | a user already in a couple gets 200 with that couple, its link and its room, and nothing is written; otherwise one couple, one membership and one room are inserted and 201 reports them; a store failure gives 500; the model takes the rollback as undoing every insert |
| Couples.Join | backend/src/modules/auth/couple-routes.js:71-90 | missing code: 400; unknown code: 404; already a member: 200 "Already in couple"; two members: 400 "Couple is full"; else the user leaves every couple and joins this one; a failing insert leaves the user in no couple; a failing or empty room read answers 500 after the membership has moved |
| Couples.My | backend/src/modules/auth/couple-routes.js:92-112 | never writes; with no membership answers nulls, otherwise a couple the user belongs to and that couple's room |
| Couples.MyAfterCreate | backend/src/modules/auth/couple-routes.js:32-112 | after `/create` answers 200 or 201, `/my` answers the same couple and room, given fresh ids |
| Couples.MyAfterJoin | backend/src/modules/auth/couple-routes.js:71-112 | after a successful `/join`, `/my` answers the joined couple and the room the join reported |
| Couples.NoMembershipMeansNoRows | backend/src/modules/auth/couple-routes.js:35-40 | in a valid store, a user without a found membership has no membership rows |
| Couples.NoMembersOfUnknownCouple | backend/src/modules/auth/couple-routes.js:78-79 | in a valid store, an unknown couple id has no members |
| Couples.CreateKeepsValid | backend/src/modules/auth/couple-routes.js:32-69 | `/create` keeps the store valid: memberships name stored couples, one couple per user, at most two members per couple |
| Couples.JoinKeepsValid | backend/src/modules/auth/couple-routes.js:71-90 | `/join` keeps the store valid, the failing-insert path included and the failing room read after the move |
| Couples.JoinedCoupleIsTheOnlyOne | backend/src/modules/auth/couple-routes.js:83-86 | after a successful join, the couple named by the code is the user's only couple |
| Couples.RefusedJoinChangesNothing | backend/src/modules/auth/couple-routes.js:75-81 | a join refused with 400 or 404, or as already a member, writes nothing |
| Rooms.RoomById | backend/src/modules/socket/room-handlers.js:7-9 | the couple owning a room with the id, and None exactly when no room has it |
| Rooms.Join | backend/src/modules/socket/room-handlers.js:5-19 | an unknown room: "Room not found"; a room of a couple the user is not in: "Not a member of this couple"; otherwise the socket joins the room's group and gets the stored positions; a store failure is answered with its message |
| Rooms.JoinGranted | backend/src/modules/socket/room-handlers.js:8-15 | the join succeeds iff the user is a member of the room's couple and nothing fails; a refused join leaves the connection unchanged |
| Rooms.RejoinKeepsEarlierGroup | backend/src/modules/socket/room-handlers.js:11-12 | a second join switches the current room but keeps the first room's group, so room-wide broadcasts there still arrive |
| Rooms.Disconnect | backend/src/modules/socket/room-handlers.js:21-27 | drops the user's presence entry and tells the others "avatar:left"; every other component of the room and every other room stay as they were |
| Rooms.JoinSeesPresence | backend/src/modules/socket/room-handlers.js:14-15 | a joiner sees another member's last stored position, and no longer sees it after that member disconnects |
| Movement.Facing | backend/src/modules/socket/movement-handlers.js:15 | a missing direction defaults to "down" |
| Movement.Move | backend/src/modules/socket/movement-handlers.js:6-29 | outside a room or with non-numeric x/y nothing happens; otherwise the user's position is overwritten, the key TTL is refreshed, and the move goes to the others only; every other component of the room and every other room stay as they were |
| Movement.MoveIsNotEchoed | backend/src/modules/socket/movement-handlers.js:22 | the mover never receives its own move |
| Movement.LastMoveWins | backend/src/modules/socket/movement-handlers.js:20 | two moves leave the positions of the second move alone |
| Zones.Enter | backend/src/modules/socket/zone-handlers.js:6-23 | outside a room: "Not in a room"; an unknown zone: "Invalid zone"; otherwise the user's zone is recorded with the TTL and the zone state goes to the whole room; every other component of the room and every other room stay as they were |
| Zones.EnterActiveIffCompany | backend/src/modules/socket/zone-handlers.js:15 | the zone is reported active iff some other user was already in it |
| Zones.Leave | backend/src/modules/socket/zone-handlers.js:25-31 | deletes the user's zone entry and tells the others; every other component of the room and every other room stay as they were |
| Zones.LeaveUndoesEnter | backend/src/modules/socket/zone-handlers.js:12-27 | entering then leaving removes the user's zone entry and leaves every other entry as it was |
| Watch.Apply | backend/src/modules/socket/watch-handlers.js:13-47 | a control keeps the URL and sets the time; play starts playback, pause stops it, seek keeps the playing flag |
| Watch.Load | backend/src/modules/socket/watch-handlers.js:4-11 | stores the URL paused at time 0 and tells the whole room; every other component of the room and every other room stay as they were |
| Watch.Update | backend/src/modules/socket/watch-handlers.js:13-47 | with no loaded video a control does nothing; otherwise the state is updated and the control goes to the others only; every other component of the room and every other room stay as they were |
| Watch.Play | backend/src/modules/socket/watch-handlers.js:13-23 | with a video loaded, it plays from the given time and the others are told; the expiry is refreshed, and every other component of the room and every other room stay as they were |
| Watch.Pause | backend/src/modules/socket/watch-handlers.js:25-35 | with a video loaded, it pauses at the given time and the others are told; the expiry is refreshed, and every other component of the room and every other room stay as they were |
| Watch.Seek | backend/src/modules/socket/watch-handlers.js:37-47 | with a video loaded, it moves to the given time keeping the playing flag; the expiry is refreshed, and every other component of the room and every other room stay as they were |
| Watch.Sync | backend/src/modules/socket/watch-handlers.js:49-54 | answers the stored watch state, or "Not in a room" exactly when the socket is in none |
| Watch.End | backend/src/modules/socket/watch-handlers.js:56-61 | deletes the watch state and tells the whole room; every other component of the room and every other room stay as they were |
| Watch.SyncAfterLoadOrEnd | backend/src/modules/socket/watch-handlers.js:4-61 | a sync after load sees the URL paused at 0; a sync after end sees nothing |
| Watch.NoControlWithoutLoad | backend/src/modules/socket/watch-handlers.js:15-16 | without a load, controls create no state and emit nothing |
| Watch.LastControlWins | backend/src/modules/socket/watch-handlers.js:13-47 | after load and a run of controls, the time is the last control's time |
| Watch.ControlsKeepUrl | backend/src/modules/socket/watch-handlers.js:13-47 | no control changes the loaded URL |
| Focus.ClampDuration | backend/src/modules/socket/focus-handlers.js:10 | the duration lies in 60..7200 seconds; a missing or zero duration gives 1500 |
| Focus.StopLoop | backend/src/modules/socket/focus-handlers.js:12 | clears the room's interval and changes no other room |
| Focus.Start | backend/src/modules/socket/focus-handlers.js:7-44 | outside a room nothing happens; otherwise a running countdown of the clamped duration is stored, the old interval is replaced, and the start goes to the whole room; every other component of the room and every other room stay as they were |
| Focus.Tick | backend/src/modules/socket/focus-handlers.js:20-41 | no state: the interval stops; paused: nothing; else one second less is stored and ticked, or at the last second the state and interval go, completion is broadcast and a session is recorded; every other component of the room and every other room stay as they were |
| Focus.SetRunning | backend/src/modules/socket/focus-handlers.js:46-66 | changes only the countdown and its expiry in the current room and never touches the intervals or other rooms |
| Focus.Pause | backend/src/modules/socket/focus-handlers.js:46-55 | with a countdown, stops it where it is and tells the whole room; every other component of the room and every other room stay as they were |
| Focus.Resume | backend/src/modules/socket/focus-handlers.js:57-66 | with a countdown, restarts it where it is and tells the whole room; every other component of the room and every other room stay as they were |
| Focus.Cancel | backend/src/modules/socket/focus-handlers.js:68-74 | deletes the countdown, stops the interval and tells the whole room; every other component of the room and every other room stay as they were |
| Focus.Sync | backend/src/modules/socket/focus-handlers.js:76-80 | answers the stored countdown, or "Not in a room" exactly when the socket is in none |
| Focus.StartKeepsInv | backend/src/modules/socket/focus-handlers.js:7-44 | start keeps the invariant: at most one interval per room, and every countdown has one |
| Focus.TickKeepsInv | backend/src/modules/socket/focus-handlers.js:20-41 | a firing keeps the invariant |
| Focus.PauseKeepsInv | backend/src/modules/socket/focus-handlers.js:46-55 | pause keeps the invariant |
| Focus.ResumeKeepsInv | backend/src/modules/socket/focus-handlers.js:57-66 | resume keeps the invariant |
| Focus.CancelKeepsInv | backend/src/modules/socket/focus-handlers.js:68-74 | cancel keeps the invariant |
| Focus.RestartLeavesOneLoop | backend/src/modules/socket/focus-handlers.js:12-16 | two starts in a row leave one interval and the second countdown |
| Focus.TickOfRunning | backend/src/modules/socket/focus-handlers.js:25-40 | a firing with more than one second left stores and broadcasts one second less |
| Focus.CountsDown | backend/src/modules/socket/focus-handlers.js:20-41 | n firings of a running countdown with more than n seconds left count it down by n and emit n ticks |
| Focus.CompletesAfterRemaining | backend/src/modules/socket/focus-handlers.js:26-38 | a running countdown of k seconds completes on the k-th firing, after k - 1 ticks |
| Focus.PausedIsFrozen | backend/src/modules/socket/focus-handlers.js:24 | firings of a paused countdown change nothing and emit nothing |
| Chat.TakeLast | backend/src/modules/socket/chat-handlers.js:17-19 | the last min(n, length) elements, as a suffix |
| Chat.AppendCapped | backend/src/modules/socket/chat-handlers.js:16-19 | appends the message; when the history was full, the oldest message goes |
| Chat.HistoryIsNewestWindow | backend/src/modules/socket/chat-handlers.js:16-19 | posting any run of messages leaves exactly the newest 100 of the old history followed by the run |
| Chat.TakeLastOfTakeLast | backend/src/modules/socket/chat-handlers.js:16-19 | trimming before appending changes nothing about the newest window |
| Chat.DisplayName | backend/src/modules/socket/chat-handlers.js:11 | the user's name if set, else the part of the email before '@', else "Anon"; never empty |
| Chat.Post | backend/src/modules/socket/chat-handlers.js:5-22 | ignored outside a room or for blank text; otherwise the trimmed text, cut to 500 code points, is appended to the room's capped history and sent to the whole room; every other component of the room and every other room stay as they were |
| Chat.History | backend/src/modules/socket/chat-handlers.js:24-28 | answers the newest 50 messages of the room, or nothing outside a room |
| Chat.React | backend/src/modules/socket/chat-handlers.js:30-36 | a non-empty emoji cut to 4 code points goes to the whole room; nothing is stored |
| Chat.ReactKeepsHistory | backend/src/modules/socket/chat-handlers.js:5-36 | a reaction between a post and a history request leaves the page as the post left it |
| Chat.ScreenSignal | backend/src/modules/socket/chat-handlers.js:39-54 | screen-share signals go to the others only |
| Chat.PostKeepsBound | backend/src/modules/socket/chat-handlers.js:16-19 | the history never grows beyond 100 messages |
| Chat.PostedMessageIsInHistory | backend/src/modules/socket/chat-handlers.js:16-28 | a posted message is the last one of the next history page |
| Signaling.Forward | backend/src/modules/socket/webrtc-handlers.js:2-29 | offers, answers, ICE candidates and hang-ups go, tagged with the sender, to the others in the room |
| Signaling.ForwardReachesExactlyPeers | backend/src/modules/socket/webrtc-handlers.js:2-29 | a forwarded signal reaches a socket iff it is in the room's group and is not the sender |
| Signaling.ForwardOutsideRoomIsSilent | backend/src/modules/socket/webrtc-handlers.js:2-29 | outside a room nothing is forwarded |
| RelayState.WithRoom | backend/src/modules/socket/focus-handlers.js:16 | replaces one room's state and leaves every other room and the intervals alone |
| RelayState.OthersNeverEcho | backend/src/modules/socket/movement-handlers.js:22 | an event for "the others" never reaches its sender |
| RelayState.AllIncludesSender | backend/src/modules/socket/focus-handlers.js:18 | a room-wide event reaches the sender when it is in the room |
| Relay.FireLoop | backend/src/modules/socket/focus-handlers.js:20-41 | a room with no scheduled interval (never started, or already cleared) does nothing; a scheduled one runs one tick |
| Relay.Expire | backend/src/db/redis.js:19-22 | an expiring key deletes exactly the state under its purpose and room; any other key changes nothing |
| Relay.ExpiredFocusStopsLoop | backend/src/modules/socket/focus-handlers.js:22 | once the focus key has expired, the next firing stops the interval |
| Relay.EmptyRelayIsValid | backend/src/socket.js:21-28 | the initial relay satisfies the invariant |
| Relay.Handle | backend/src/socket.js:21-28 | the socket keeps its id and user, and only `room:join` changes its room; only the focus commands touch the room intervals, only zone enter and leave touch zone presence, and join, the two sync requests and WebRTC signalling leave the relay unchanged |
| Relay.HandleKeepsInv | backend/src/socket.js:21-28 | every registered command keeps the invariant: one interval per room and only accepted zone names |
| Relay.FireLoopKeepsInv | backend/src/modules/socket/focus-handlers.js:20-41 | a firing keeps the invariant |
| Relay.ExpireKeepsInv | backend/src/db/redis.js:19-22 | expiry keeps the invariant |
| Relay.AtMostOneLoop | backend/src/modules/socket/focus-handlers.js:12-20 | in any valid state a room has at most one interval |
| Relay.OutsideRoomIsInert | backend/src/socket.js:21-28 | before a join no command changes state or reaches anyone; watch sync, focus sync and zone entry answer "Not in a room" |
| Relay.AudienceOfCommands | backend/src/socket.js:21-28 | the events of load, end, zone entry and focus start/pause/resume/cancel go to the whole room; the events of every other command go to the others only |
| Decimal.NatToString | backend/src/db/redis.js:19-22 | the decimal rendering is non-empty digits and parses back to the number |
| Decimal.IntToString | frontend/src/game/RoomCollisionManager.js:29-32 | signed rendering parses back to the integer |
| Decimal.IntToStringInjective | frontend/src/game/RoomCollisionManager.js:29-32 | two integers render equal iff they are equal |
| Decimal.NotInRendering | frontend/src/game/RoomCollisionManager.js:29-32 | no separator character occurs in a rendered integer |
| Common.Clamp | frontend/src/game/scenes/RoomScene.js:738-739 | the result lies within the bounds and is the input when the input does |
| Common.Trim | backend/src/modules/socket/chat-handlers.js:12 | strips exactly the leading and trailing whitespace; empty iff the text is all whitespace |
| Common.Take | backend/src/modules/socket/chat-handlers.js:12 | the first min(n, length) code points of the string |
| Common.BeforeFirst | backend/src/modules/socket/chat-handlers.js:11 | the longest prefix without the separator |
| Common.SplitUnique | frontend/src/game/RoomCollisionManager.js:29-32 | two strings joined by a separator absent from the first parts split back uniquely |
| Grid.TileKey | frontend/src/game/InteractionManager.js:35 | the tile key contains the comma |
| Grid.TileKeyInjective | frontend/src/game/InteractionManager.js:35 | two tiles have the same key iff they are the same tile |
| Grid.Chebyshev | frontend/src/game/scenes/RoomScene.js:617-619 | the ring distance: zero iff equal, and the larger of the coordinate differences |
| Grid.Run | frontend/src/game/RoomCollisionManager.js:54-57 | the tiles of a wall run along one line between its bounds |
| Grid.Rect | frontend/src/game/ObjectRegistry.js:91-97 | the tiles of a w × h rectangle from its corner |
| GameConfig.OrOne | frontend/src/game/ObjectRegistry.js:88 | a zero size counts as one tile |
| GameConfig.FloorMapShape | frontend/src/game/config.js:154-175 | the floor map is 18 rows of 26 known floor types |
| GameConfig.ZoneIdsAreRelayZones | frontend/src/game/config.js:235-244 | the scene's zone ids are exactly the relay's accepted zones, in order |
| GameConfig.ZonesInsideAndDisjoint | frontend/src/game/config.js:235-244 | every zone lies on the map and no tile is in two zones |
| GameConfig.FurnitureInsideMap | frontend/src/game/config.js:178-224 | every furniture footprint lies on the map |
| GameConfig.PassableCount | frontend/src/game/config.js:227-232 | thirteen furniture types are passable |
| Walls.FieldsInjective | frontend/src/game/RoomCollisionManager.js:29-32 | three underscore-joined integers determine the integers |
| Walls.DoorKeyInjective | frontend/src/game/RoomCollisionManager.js:29-32 | two doors share a state key iff they have the same axis, line and span |
| Walls.IsDoorOpen | frontend/src/game/RoomCollisionManager.js:34-38 | a door with no recorded state is open; only a recorded false closes it; a doorless segment has no answer |
| Walls.ToggleDoor | frontend/src/game/RoomCollisionManager.js:40-45 | records and returns the negation of the door's openness and leaves every other door alone |
| Walls.Flip | frontend/src/game/RoomCollisionManager.js:41-44 | negates the openness under one key only |
| Walls.ToggleTwiceRestores | frontend/src/game/RoomCollisionManager.js:40-45 | two toggles of the same door restore the openness of every door |
| Walls.Standing | frontend/src/game/RoomCollisionManager.js:52-59 | the tiles of a segment that stand as wall: all but the door's when it is open |
| Walls.WallTiles | frontend/src/game/RoomCollisionManager.js:48-71 | a tile is a wall tile iff it lies on some segment and not in an open door of that segment |
| Walls.AllTiles | frontend/src/game/RoomCollisionManager.js:73-87 | a tile is listed iff it lies on some segment |
| Walls.BuildWallSets | frontend/src/game/RoomCollisionManager.js:48-71 | the wall sets lie within the segments' tiles; membership is stated exactly by `Walls.WallTiles` |
| Walls.DoorlessSegmentBreaksBuild | frontend/src/game/RoomCollisionManager.js:35-38 | as written, a segment without a door makes the wall-set build fail, where the intended build walls all of its tiles |
| Walls.ShippedSegmentsHaveDoors | frontend/src/game/RoomCollisionManager.js:8-21 | every segment of the shipped table has a door |
| Walls.AsWrittenAgreesOnShippedTable | frontend/src/game/RoomCollisionManager.js:48-71 | on the shipped table the code as written and the corrected build agree |
| Walls.AppendStanding | frontend/src/game/RoomCollisionManager.js:92-98 | appends a segment's standing tiles and keeps the list built so far |
| Walls.CollectWalls | frontend/src/game/RoomCollisionManager.js:89-109 | the collected list holds exactly the wall tiles of the segments (or all their tiles when doors are ignored) |
| Walls.PrefixStep | frontend/src/game/RoomCollisionManager.js:52-59 | extending the segment prefix by one adds exactly that segment's standing tiles |
| Walls.WallBlockedTiles | frontend/src/game/RoomCollisionManager.js:89-109 | lists exactly the tiles of the two wall sets, on the corrected doorless-segment path |
| Walls.WallBlockedTilesAsWritten | frontend/src/game/RoomCollisionManager.js:89-109 | fails exactly when some segment has no door; otherwise lists the tiles of the two wall sets |
| Walls.AllWallTileCoords | frontend/src/game/RoomCollisionManager.js:73-87 | lists exactly the tiles of every segment |
| Walls.BlockedWithinAll | frontend/src/game/RoomCollisionManager.js:73-109 | every blocked tile is among all wall tiles |
| Walls.CloseAddsOnlyDoorTiles | frontend/src/game/RoomCollisionManager.js:48-71 | closing a door only adds wall tiles, and only on its own line within its span |
| Walls.CloseLeavesOtherAxis | frontend/src/game/RoomCollisionManager.js:48-71 | closing a door leaves the other axis' walls alone |
| Doors.DoorIdInjective | frontend/src/game/Door.js:138-151 | door ids are equal iff axis and number are |
| Doors.DoorTiles | frontend/src/game/Door.js:55-69 | the tiles on the door line within the door's span |
| Doors.Zone | frontend/src/game/Door.js:36-52 | the tiles on either side of the door across its span, where a vertical door on x ≤ 0 has no left side; empty iff the span is |
| Doors.ZoneAvoidsDoorTiles | frontend/src/game/Door.js:36-69 | no interaction tile is a door tile |
| Doors.IsOpen | frontend/src/game/Door.js:31-33 | a door is open as the collision manager says |
| Doors.ClosingAddsTheDoorTiles | frontend/src/game/Door.js:90-96 | closing a door adds exactly its door tiles to its segment's walls |
| Doors.Open | frontend/src/game/Door.js:81-87 | afterwards the door is open; the callback fires iff it was closed; other doors are unchanged |
| Doors.Close | frontend/src/game/Door.js:90-96 | afterwards the door is closed; the callback fires iff it was open; other doors are unchanged |
| Doors.Toggle | frontend/src/game/Door.js:104-114 | refused with "Step away to close door" exactly when the door is open and the player stands in it; otherwise the openness flips |
| Doors.ToggleNeverTraps | frontend/src/game/Door.js:104-114 | a toggle never leaves the door shut with the player on a door tile |
| Doors.SafeTile | frontend/src/game/Door.js:120-129 | the safe tile is beside the first door tile, off the door line, so closing is allowed there |
| Doors.SafeTileInZone | frontend/src/game/Door.js:120-129 | the safe tile is one of the door's interaction tiles |
| Doors.WithDoor | frontend/src/game/Door.js:142-148 | keeps only segments with a door |
| Doors.WithDoorFilters | frontend/src/game/Door.js:142-148 | a segment is kept iff it is in the table and has a door |
| Doors.DoorsOf | frontend/src/game/Door.js:142-148 | one door per segment with a door |
| Doors.BuildDoors | frontend/src/game/Door.js:138-151 | one door per segment with a door, vertical ones first |
| Doors.BuildDoorsAt | frontend/src/game/Door.js:138-151 | the i-th door is numbered i, vertical exactly for the first vertical-count entries, and built on the matching segment |
| Doors.DoorIdsUnique | frontend/src/game/Door.js:138-151 | no two built doors share an id |
| Doors.AllWithDoor | frontend/src/game/Door.js:142-148 | filtering a table whose segments all have doors keeps it whole |
| Doors.ShippedDoors | frontend/src/game/Door.js:138-151 | the shipped table gives eight doors |
| Registry.Operable | frontend/src/game/ObjectRegistry.js:25-31 | a segment registers a door iff it has one and its interaction zone is non-empty |
| Registry.OperableSegments | frontend/src/game/ObjectRegistry.js:24-45 | keeps exactly the operable segments |
| Registry.DoorEntry | frontend/src/game/ObjectRegistry.js:32-43 | a door entry has the door id, its door data, its interaction zone and the "Press X to Open" hint |
| Registry.DoorEntries | frontend/src/game/ObjectRegistry.js:24-45 | one entry per operable segment, numbered from the start |
| Registry.DoorRegistry | frontend/src/game/ObjectRegistry.js:21-69 | vertical doors then horizontal ones, numbered on one counter |
| Registry.Interactive | frontend/src/game/ObjectRegistry.js:79-86 | keeps exactly the seat and bed furniture |
| Registry.FurnitureEntry | frontend/src/game/ObjectRegistry.js:88-121 | a furniture entry is "sit" for seats, "sleep" otherwise, numbered `obj_n`, and has a snap position |
| Registry.FurnitureEntryShape | frontend/src/game/ObjectRegistry.js:88-121 | the zone and positions are the footprint; the snap is the bed's fixed tile or the corner |
| Registry.FurnitureEntries | frontend/src/game/ObjectRegistry.js:76-122 | one entry per seat or bed, in furniture order |
| Registry.BuildObjectRegistry | frontend/src/game/ObjectRegistry.js:71-124 | doors first, then seats and beds |
| Registry.DoorsFirst | frontend/src/game/ObjectRegistry.js:71-124 | an entry is a door iff it comes before the furniture |
| Registry.RegistryIdsUnique | frontend/src/game/ObjectRegistry.js:33-105 | no two registry entries share an id |
| Registry.NumberedIdInjective | frontend/src/game/ObjectRegistry.js:33-105 | door ids and object ids are never equal, and distinct numbers give distinct ids |
| Registry.DoorIdIsNotObjId | frontend/src/game/ObjectRegistry.js:33-105 | a door id is never an object id |
| Registry.ObjIdInjective | frontend/src/game/ObjectRegistry.js:105 | object ids are equal iff their numbers are |
| Interaction.FirstAt | frontend/src/game/InteractionManager.js:34-40 | the first registry entry whose zone holds the tile; None iff there is none |
| Interaction.ObjectAt | frontend/src/game/InteractionManager.js:34-40 | the object returned is an entry whose zone holds the tile and no earlier entry's zone does; none is returned iff no zone holds the tile |
| Interaction.HintText | frontend/src/game/InteractionManager.js:23-29 | a managed door offers "Press X to Close" iff it is open; any other object shows its own hint |
| Interaction.Update | frontend/src/game/InteractionManager.js:92-128 | while sitting or sleeping the avatar stays locked; otherwise the object at the tile decides the hint; a key press toggles a managed door or seats the avatar |
| Interaction.HintFlipsAfterToggle | frontend/src/game/InteractionManager.js:102-109 | after a press toggles a door, its hint offers the opposite action |
| Interaction.PressTwiceRestores | frontend/src/game/InteractionManager.js:105-109 | two presses on the same tile restore every door |
| Interaction.NoKeyNoChange | frontend/src/game/InteractionManager.js:92-127 | without the key nothing changes, and the avatar is locked iff it is already interacting |
| Interaction.FoundInRegistry | frontend/src/game/InteractionManager.js:34-40 | the object found at a tile is a registry entry whose zone holds the tile |
| Interaction.DoorFoundBesideIt | frontend/src/game/ObjectRegistry.js:24-30 | the player at a door's interaction tile stands beside the door line, never on it |
| Interaction.PressNeverWallsInPlayer | frontend/src/game/InteractionManager.js:106-109 | a key press at a door never turns the player's own tile into wall, though it skips the door's canClose check |
| Interaction.ToggleBesideLine | frontend/src/game/RoomCollisionManager.js:40-71 | a toggle leaves the wall status of tiles off the door line alone |
| Interaction.WallsAfterClose | frontend/src/game/RoomCollisionManager.js:48-71 | closing only grows the door's axis, keeps tiles off its line, and leaves the other axis |
| Interaction.FurniturePress | frontend/src/game/InteractionManager.js:111-121 | a press on a seat or bed locks the avatar at the bed's snap tile or the seat tile it stands on, and starts sitting or sleeping |
| Interaction.UnmanagedDoorIsInert | frontend/src/game/InteractionManager.js:102-127 | without a collision manager a door only shows "Press X to Open" and does nothing |
| Characters.Zeros | frontend/src/game/characters.js:155 | a row of n zero cells |
| Characters.Row | frontend/src/game/characters.js:23-27 | pads with zeros, or cuts, to 16 cells keeping the given cells |
| Characters.EnsureGrid | frontend/src/game/characters.js:151-158 | 24 rows of 16; a long enough row keeps its first 16 cells, anything else becomes zeros |
| Characters.EnsureGridKeepsWellFormed | frontend/src/game/characters.js:151-158 | a well-formed grid comes back unchanged |
| Characters.RowsSurviveEnsureGrid | frontend/src/game/characters.js:23-27 | grids written with the row helper survive as written |
| Characters.EnsureGridIdempotent | frontend/src/game/characters.js:151-158 | normalising twice is normalising once |
| Characters.BuildSprites | frontend/src/game/characters.js:160-165 | all four sprites are well-formed |
| Characters.SpriteFor | frontend/src/game/characters.js:238 | the four facings draw their own grid, any other own-key miss draws the down grid, and an inherited property name such as "constructor" finds no grid |
| Characters.CharacterPalettesListPalettes | frontend/src/game/characters.js:259 | the palette key list names each palette once, amber first |
| Characters.PaletteFor | frontend/src/game/characters.js:222 | an unknown palette key falls back to amber; an inherited property name finds no colours |
| Characters.ColorOf | frontend/src/game/characters.js:225-249 | cells 1 to 10 take, in order, the palette's hair, skin, shirt, pants, shoes, eye, hair highlight, shirt shadow, skin shadow and shirt highlight; 0 and anything else are skipped |
| Characters.PaintRowMembers | frontend/src/game/characters.js:245-252 | a square is drawn on a row iff it is the scaled square of a coloured cell |
| Characters.PaintMembers | frontend/src/game/characters.js:244-253 | a square is drawn iff it is the scaled square of some coloured cell |
| Characters.DrawPixelCharacter | frontend/src/game/characters.js:221-255 | draws exactly the squares of the chosen sprite in the chosen palette; fails for an inherited facing name and draws nothing for an inherited palette name |
| Characters.PaintInsideBox | frontend/src/game/characters.js:257-258 | every drawn square lies inside the 48 × 72 avatar box |
| Scene.SegmentEdges | frontend/src/game/scenes/RoomScene.js:594-599 | a segment's wall edges are its tiles outside its doorways |
| Scene.Edges | frontend/src/game/scenes/RoomScene.js:586-612 | a tile is a wall edge iff some segment has it as an edge |
| Scene.AllAsManaged | frontend/src/game/scenes/RoomScene.js:587-606 | each scene segment read as a collision-manager segment with its one doorway |
| Scene.EdgesAreOpenDoorWalls | frontend/src/game/scenes/RoomScene.js:586-612 | with one doorway per segment, the scene's edges are the manager's walls with every door open |
| Scene.SegmentEdgesAsManaged | frontend/src/game/scenes/RoomScene.js:594-599 | one segment's edges are its managed walls with the door open |
| Scene.SceneSegmentsHaveOneDoorway | frontend/src/game/scenes/RoomScene.js:587-606 | every scene segment has one doorway |
| Scene.SceneWallsAreOpenDoorWalls | frontend/src/game/scenes/RoomScene.js:586-612 | the scene's walls are its own table's walls with all doors open |
| Scene.SceneWallsDifferFromManager | frontend/src/game/scenes/RoomScene.js:587-593 | the scene has a wall edge at (5, 0) that the manager's table never has, whatever the door states |
| Scene.Blocked | frontend/src/game/scenes/RoomScene.js:565-578 | a tile is blocked iff it is on the map and under impassable furniture |
| Scene.BuildCollisionMap | frontend/src/game/scenes/RoomScene.js:564-613 | blocked tiles from furniture, and wall edges from the scene's own segments |
| Scene.BlockedInMap | frontend/src/game/scenes/RoomScene.js:573 | every blocked tile is on the map |
| Scene.FindSpawnTile | frontend/src/game/scenes/RoomScene.js:615-628 | a free preferred tile is kept; otherwise the first free tile in ring-then-row order within the search radius, or the preferred tile when none is free |
| Scene.GridCoord | frontend/src/game/scenes/RoomScene.js:735-741 | the tile under a pixel, clamped into the map |
| Scene.CentreRoundTrip | frontend/src/game/scenes/RoomScene.js:764-765 | the tile under a tile's centre is that tile |
| Scene.GridPosition | frontend/src/game/scenes/RoomScene.js:735-741 | the player's tile is always on the map |
| Scene.WallBetweenSymmetric | frontend/src/game/scenes/RoomScene.js:634-638 | a wall edge between two tiles blocks both directions, and sits on the larger coordinate |
| Scene.CanMoveTo | frontend/src/game/scenes/RoomScene.js:630-644 | a step is allowed iff the target is on the map, unblocked, not behind a wall edge and not under another avatar |
| Scene.Heading | frontend/src/game/scenes/RoomScene.js:745-750 | one direction at a time, left over right over up over down |
| Scene.FirstZone | frontend/src/game/scenes/RoomScene.js:771-777 | the first zone holding the tile; None iff none does |
| Scene.ZoneAt | frontend/src/game/scenes/RoomScene.js:771-777 | the zone of a tile, always one the relay accepts |
| Scene.CheckZone | frontend/src/game/scenes/RoomScene.js:770-788 | on a zone change, a leave of the old zone then an enter of the new, each only when there is one and a socket |
| Scene.CheckZoneIdempotent | frontend/src/game/scenes/RoomScene.js:778 | a second check at the same tile sends nothing |
| Scene.CheckZoneSendsValidZones | frontend/src/game/scenes/RoomScene.js:779-787 | the leave names the zone it was in and comes first; the enter names an accepted zone and comes last |
| Scene.Update | frontend/src/game/scenes/RoomScene.js:743-768 | turns to the held direction; within 80 ms of the last step nothing moves; otherwise the step time is recorded and the player lands on the neighbouring tile in the held direction exactly when `canMoveTo` allows it, and then the move is sent (with a socket) followed by the zone leave and enter; a frame without a step keeps the current zone |
| Scene.UpdateKeepsPlayerFree | frontend/src/game/scenes/RoomScene.js:763 | a player on a free, unoccupied tile stays on one after any frame |
| Scene.WithoutAmber | frontend/src/game/scenes/RoomScene.js:715 | the palette keys other than amber |
| Scene.RemotePalettesValue | frontend/src/game/scenes/RoomScene.js:715 | other avatars use rose, teal, violet, sage and coral in turn |
| Scene.UpdateOrCreateAvatar | frontend/src/game/scenes/RoomScene.js:709-723 | the player's own id is ignored; otherwise the avatar is placed, created with "Partner" for a missing name, and turned only when a direction is given |
| Scene.NewAvatarPalette | frontend/src/game/scenes/RoomScene.js:714-717 | a new avatar takes the next non-amber palette by the number of avatars shown |
| Scene.RemoveAvatar | frontend/src/game/scenes/RoomScene.js:725-729 | forgets the avatar and its tile and nothing else |
| Scene.RemoveUndoesCreate | frontend/src/game/scenes/RoomScene.js:709-729 | removing a newly created avatar gives back the scene before it |
| Scene.RestorePositions | frontend/src/game/scenes/RoomScene.js:698-707 | every other user with a parsable stored entry gets an avatar on the tile of its last such entry; the player's own entry and users without a parsable entry leave their avatar and tile as they were; nothing of the player changes |
| Scene.LastParsed | frontend/src/game/scenes/RoomScene.js:700-705 | the last parsable entry of a user, none iff the user has no parsable entry |
| Scene.RestoreAppend | frontend/src/game/scenes/RoomScene.js:698-707 | restoring two runs of entries one after the other equals restoring their concatenation |
| Scene.Create | frontend/src/game/scenes/RoomScene.js:20-57 | builds the collision map, spawns facing down at the centre of the free tile (13, 7), and places the stored avatars on an otherwise empty scene exactly as `restorePositions` does, never the player itself |
| Scene.SpawnTileFree | frontend/src/game/scenes/RoomScene.js:42 | the preferred spawn tile (13, 7) is a free tile of the shipped map, so the spawn search keeps it |

## Left out

- Rendering is left out: the Phaser drawing of floors, walls, furniture, labels, name bubbles and the camera. So are the `showHint`/`hideHint` UI and the tween that moves a seated avatar. The sprite pixel tables are parameters of `Characters.BuildSprites`.
- Pixel coordinates and durations are integers; JavaScript floats are not modelled. `Scene.GridCoord` uses Dafny's floor division, which matches `Math.floor` for the non-negative pixels the scene produces.
- JavaScript values that are not numbers enter `Movement.Move` as `Movement.JsValue`. JSON parsing of stored entries is not modelled; a failing parse in `restorePositions` is an entry with no data.
- Clocks, random UUIDs, message ids and timestamps are parameters. JWT verification and the user lookup are parameter functions. Store and SQL failures are explicit fault parameters.
- The store's key TTLs are recorded as numbers. Their expiry is the explicit step `Relay.Expire`, not a clock.
- Concurrency is left out: the relay processes one command at a time. Interleavings between the awaits of one handler (for example two `focus:start` calls racing) are not modelled.
- SQL row order is modelled as insertion order. The `LIMIT 1` lookups take the first matching row.
- Socket.IO's automatic group leave on disconnect is not modelled. A disconnected connection is simply no longer used.
- The zone callback (`socket._zoneCallback`) is a UI hook and is not modelled. The scene model emits only the socket messages.
- The chat handler group is modelled, but `Relay.Handle` does not route to it, because backend/src/socket.js does not register it.
- The room scene does not create a collision manager or an interaction manager in this version of the source. Those classes are therefore modelled on their own, over the manager's wall table. The scene's own wall table is compared with it in `Scene.SceneWallsDifferFromManager`.
- Walls.BuildWallSets: its contract only says the wall sets lie within the segments' tiles. The full membership statement is the contract of `Walls.WallTiles`, from which the sets are built.
- Relay socket-level concerns are left out: CORS, the HTTP session middleware, Passport and OAuth.
- Common.Take: counts Unicode code points, while JavaScript's `slice` counts UTF-16 code units. A character outside the Basic Multilingual Plane is one code point but two units, so the model keeps more of such a string than the source does. The source can also cut a surrogate pair in half; a Dafny string cannot hold the lone surrogate that leaves.
- Chat.Post: the 500 limit is counted in code points, as in `Common.Take`, not in UTF-16 units; a text with emoji keeps more characters in the model than in the source.
- Chat.React: the 4 limit is counted in code points, as in `Common.Take`; for "😀😀😀" the model relays all three emoji, where the source relays two.
- Couples.Create: `BEGIN`, the inserts, `COMMIT` and `ROLLBACK` each go through `pool.query`, which may use a different pooled connection for each statement. The model assumes one connection, so a failure undoes every insert. Inserts that survive a failed request, and interleaving with other requests, are not modelled.
- Couples.Join: the membership read, the delete and the insert are separate statements outside any transaction. Two concurrent joins with the same code can both see one member and both insert, which leaves a couple with three members. `Couples.JoinKeepsValid` holds only when requests are handled one at a time.

Where the prose description and the code disagree, the model follows the code:

- A second `room:join` switches the current room but does not leave the earlier Socket.IO group (`Rooms.RejoinKeepsEarlierGroup`).
- Chat messages and reactions go to the whole room, sender included.

## Findings

| source | as written | input that shows it | evidently intended | confidence | as-written member | corrected member |
|---|---|---|---|---|---|---|
| frontend/src/game/RoomCollisionManager.js:35-38 | `buildWallSets` asks `isDoorOpen` of every segment, and `_doorKey` reads `seg.door.y1`, which throws for a segment without a door, although the loop body guards with `seg.door &&` | `WallSegments([Segment(0, 0, 2, None)], [])` | a doorless segment stands as wall on all its tiles: {(0,0), (0,1), (0,2)} | not executed | Walls.DoorlessSegmentBreaksBuild | Walls.BuildWallSets |
| frontend/src/game/RoomCollisionManager.js:89-109 | `getWallBlockedTiles` asks `isDoorOpen` of every segment (lines 93 and 101), so it throws on a doorless segment in the same way | `WallSegments([Segment(0, 0, 2, None)], [])` | the doorless segment's three tiles are listed as blocked | not executed | Walls.WallBlockedTilesAsWritten | Walls.WallBlockedTiles |

=== FILE: characters.dfy ===
/** Pixel avatars: a sprite is a 24 x 16 grid of cell codes, one grid per
    facing; a palette gives the colour of each code, and drawing fills one
    3 x 3 square per coloured cell. The pixel data of the four sprites is
    not modelled: sprites are built from whatever raw grids are given. */
module Characters {
  import opened Common

  /** Logical width and height of a sprite, and its on-screen scale. */
  const W := 16
  const H := 24
  const PixelScale := 3
  /** The avatar's height and width on screen: 72 and 48 pixels. */
  const AvatarPixelSize := H * PixelScale
  const AvatarWidth := W * PixelScale

  function Zeros(n: nat): (z: seq<int>)
    ensures |z| == n && forall i :: 0 <= i < n ==> z[i] == 0
  {
    seq(n, _ => 0)
  }

  /** `r`: a sprite row of exactly `W` cells; given cells beyond `W` are
      dropped and missing ones are transparent. */
  function Row(cells: seq<int>): (row: seq<int>)
    ensures |row| == W
    ensures forall i :: 0 <= i < W ==> row[i] == (if i < |cells| then cells[i] else 0)
  {
    if |cells| >= W then cells[..W] else cells + Zeros(W - |cells|)
  }

  /** A raw grid row: an array of cells, or some other value. */
  datatype RowValue = Cells(cells: seq<int>) | NotARow

  /** A grid of `H` rows of `W` cells. */
  predicate WellFormed(grid: seq<seq<int>>) {
    |grid| == H && forall i :: 0 <= i < H ==> |grid[i]| == W
  }

  /** `ensureGrid`: row i is the first `W` cells of the given row i when
      that is an array of at least `W` cells; every other row (short, not
      an array, or missing) is all transparent. */
  function EnsureGrid(grid: seq<RowValue>): (out: seq<seq<int>>)
    ensures WellFormed(out)
    ensures forall i :: 0 <= i < H && i < |grid| && grid[i].Cells? && |grid[i].cells| >= W ==>
      out[i] == grid[i].cells[..W]
    ensures forall i :: 0 <= i < H && !(i < |grid| && grid[i].Cells? && |grid[i].cells| >= W) ==>
      forall j :: 0 <= j < W ==> out[i][j] == 0
  {
    seq(H, i requires 0 <= i < H =>
      if i < |grid| && grid[i].Cells? && |grid[i].cells| >= W then grid[i].cells[..W] else Zeros(W))
  }

  /** A well-formed grid passes through `ensureGrid` unchanged. */
  lemma EnsureGridKeepsWellFormed(grid: seq<seq<int>>)
    requires WellFormed(grid)
    ensures EnsureGrid(seq(|grid|, i requires 0 <= i < |grid| => Cells(grid[i]))) == grid
  {
    var out := EnsureGrid(seq(|grid|, i requires 0 <= i < |grid| => Cells(grid[i])));
    forall i | 0 <= i < H ensures out[i] == grid[i] {
      assert grid[i][..W] == grid[i];
    }
  }

  /** A grid written with `r` rows, one per line, is kept as written. */
  lemma RowsSurviveEnsureGrid(rows: seq<seq<int>>)
    requires |rows| == H
    ensures var raw := seq(H, i requires 0 <= i < H => Cells(Row(rows[i])));
      forall i, j :: 0 <= i < H && 0 <= j < W ==>
        EnsureGrid(raw)[i][j] == (if j < |rows[i]| then rows[i][j] else 0)
  {
  }

  /** `ensureGrid` is idempotent. */
  lemma EnsureGridIdempotent(grid: seq<RowValue>)
    ensures var once := EnsureGrid(grid);
      EnsureGrid(seq(H, i requires 0 <= i < H => Cells(once[i]))) == once
  {
    EnsureGridKeepsWellFormed(EnsureGrid(grid));
  }

  datatype Sprites = Sprites(down: seq<seq<int>>, up: seq<seq<int>>, left: seq<seq<int>>, right: seq<seq<int>>)

  predicate SpritesWellFormed(s: Sprites) {
    WellFormed(s.down) && WellFormed(s.up) && WellFormed(s.left) && WellFormed(s.right)
  }

  /** `SPRITES`: each facing's grid passed through `ensureGrid`. */
  function BuildSprites(down: seq<RowValue>, up: seq<RowValue>, left: seq<RowValue>, right: seq<RowValue>): (s: Sprites)
    ensures SpritesWellFormed(s)
  {
    Sprites(EnsureGrid(down), EnsureGrid(up), EnsureGrid(left), EnsureGrid(right))
  }

  /** The property names every plain object inherits from `Object.prototype`.
      Indexing `SPRITES` or `PALETTES` with one of them finds a truthy value
      (a function, or the prototype itself) that is neither a grid nor a
      palette, so the `||` fallback does not apply. */
  const InheritedNames: set<string> := {
    "constructor", "__proto__", "toString", "toLocaleString", "valueOf",
    "hasOwnProperty", "isPrototypeOf", "propertyIsEnumerable",
    "__defineGetter__", "__defineSetter__", "__lookupGetter__", "__lookupSetter__"}

  /** `SPRITES[direction] || SPRITES.down`: the grid of one of the four
      facings, the downward grid for any other own-key miss, and `None` for an
      inherited name, whose value has no rows to draw. The contract lists
      every case of this `obj[key] || default` lookup, because the draw
      depends on the inherited-name case. */
  function SpriteFor(s: Sprites, direction: string): (g: Option<seq<seq<int>>>)
    ensures g.None? <==> direction in InheritedNames
    ensures direction == "up" ==> g == Some(s.up)
    ensures direction == "left" ==> g == Some(s.left)
    ensures direction == "right" ==> g == Some(s.right)
    ensures direction !in {"up", "left", "right"} && direction !in InheritedNames ==> g == Some(s.down)
    ensures SpritesWellFormed(s) && g.Some? ==> WellFormed(g.value)
  {
    if direction in InheritedNames then None
    else if direction == "up" then Some(s.up)
    else if direction == "left" then Some(s.left)
    else if direction == "right" then Some(s.right)
    else Some(s.down)
  }

  datatype Palette = Palette(
    hair: int, hairHL: int, skin: int, skinShadow: int, eye: int,
    shirt: int, shirtShadow: int, shirtHL: int, pants: int, shoes: int)

  const Amber := Palette(0x3d2b1f, 0x6b4226, 0xf5c5a3, 0xe8a882, 0x2c1810, 0x3b82f6, 0x2563eb, 0x60a5fa, 0x1e3a5f, 0x1c1917)

  const Palettes: map<string, Palette> := map[
    "amber" := Amber,
    "rose" := Palette(0x7c1d4e, 0xb45c82, 0xfcd5b8, 0xf0a878, 0x1a0a10, 0xf472b6, 0xdb2777, 0xfca5c0, 0x4c1d35, 0x1a0a10),
    "teal" := Palette(0x1a3340, 0x2d6070, 0xe8d5b8, 0xd4b890, 0x0a1820, 0x14b8a6, 0x0d9488, 0x5eead4, 0x134e4a, 0x0d1a1a),
    "violet" := Palette(0x2d1b69, 0x5b3b9e, 0xf0d8c8, 0xd4b09b, 0x1a0d3d, 0x8b5cf6, 0x7c3aed, 0xc4b5fd, 0x2e1065, 0x1a0d3d),
    "sage" := Palette(0x1a2e1a, 0x3d6b3d, 0xdde8c8, 0xb8cc98, 0x0d1a0d, 0x4ade80, 0x16a34a, 0x86efac, 0x14532d, 0x0d1a0d),
    "coral" := Palette(0x4a1c1c, 0x8b4040, 0xfbd0aa, 0xf0a87a, 0x2c1010, 0xf97316, 0xea580c, 0xfb923c, 0x431407, 0x1c0a0a)]

  /** `CHARACTER_PALETTES`: the palette names in declaration order. */
  const CharacterPalettes: seq<string> := ["amber", "rose", "teal", "violet", "sage", "coral"]

  /** The palette names list every palette once, amber first. */
  lemma CharacterPalettesListPalettes()
    ensures forall k :: k in CharacterPalettes <==> k in Palettes
    ensures forall i, j :: 0 <= i < j < |CharacterPalettes| ==> CharacterPalettes[i] != CharacterPalettes[j]
    ensures CharacterPalettes[0] == "amber"
  {
  }

  /** `PALETTES[paletteKey] || PALETTES.amber`: the named palette, amber
      for an unknown name, and `None` for an inherited name, whose value
      carries none of the colour fields. As for `SpriteFor`, the contract
      lists every case of the `obj[key] || default` lookup. */
  function PaletteFor(key: string): (p: Option<Palette>)
    ensures key in Palettes ==> p == Some(Palettes[key])
    ensures key in InheritedNames ==> p.None?
    ensures key !in Palettes && key !in InheritedNames ==> p == Some(Amber)
  {
    if key in Palettes then Some(Palettes[key])
    else if key in InheritedNames then None
    else Some(Amber)
  }

  /** The colour of a cell code: codes 1 to 10 are coloured, 0 and any
      other code are skipped. */
  function ColorOf(p: Palette, cell: int): (c: Option<int>)
    ensures c.Some? <==> 1 <= cell <= 10
    ensures cell == 1 ==> c == Some(p.hair)
    ensures cell == 2 ==> c == Some(p.skin)
    ensures cell == 3 ==> c == Some(p.shirt)
    ensures cell == 4 ==> c == Some(p.pants)
    ensures cell == 5 ==> c == Some(p.shoes)
    ensures cell == 6 ==> c == Some(p.eye)
    ensures cell == 7 ==> c == Some(p.hairHL)
    ensures cell == 8 ==> c == Some(p.shirtShadow)
    ensures cell == 9 ==> c == Some(p.skinShadow)
    ensures cell == 10 ==> c == Some(p.shirtHL)
  {
    match cell
    case 1 => Some(p.hair)
    case 7 => Some(p.hairHL)
    case 2 => Some(p.skin)
    case 9 => Some(p.skinShadow)
    case 6 => Some(p.eye)
    case 3 => Some(p.shirt)
    case 8 => Some(p.shirtShadow)
    case 10 => Some(p.shirtHL)
    case 4 => Some(p.pants)
    case 5 => Some(p.shoes)
    case _ => None
  }

  /** One filled square of a drawn avatar, relative to the avatar's origin. */
  datatype Square = Square(x: int, y: int, size: int, color: int)

  /** The squares of the first `upto` cells of row `r`, left to right. */
  function PaintRow(cells: seq<int>, p: Palette, r: nat, upto: nat): seq<Square>
    requires upto <= |cells|
  {
    if upto == 0 then []
    else
      var c := ColorOf(p, cells[upto - 1]);
      PaintRow(cells, p, r, upto - 1) +
        (if c.Some? then [Square((upto - 1) * PixelScale, r * PixelScale, PixelScale, c.value)] else [])
  }

  /** The squares of the first `upto` rows of a grid, top to bottom. */
  function Paint(grid: seq<seq<int>>, p: Palette, upto: nat): seq<Square>
    requires upto <= |grid|
  {
    if upto == 0 then []
    else Paint(grid, p, upto - 1) + PaintRow(grid[upto - 1], p, upto - 1, |grid[upto - 1]|)
  }

  /** Square `s` is the square of the coloured cell at (`row`, `col`). */
  predicate Covers(grid: seq<seq<int>>, p: Palette, row: int, col: int, s: Square) {
    && 0 <= row < |grid| && 0 <= col < |grid[row]|
    && ColorOf(p, grid[row][col]) == Some(s.color)
    && s == Square(col * PixelScale, row * PixelScale, PixelScale, s.color)
  }

  lemma {:induction false} PaintRowMembers(cells: seq<int>, p: Palette, r: nat, upto: nat, s: Square)
    requires upto <= |cells|
    ensures s in PaintRow(cells, p, r, upto) <==>
      exists col :: 0 <= col < upto && ColorOf(p, cells[col]) == Some(s.color)
        && s == Square(col * PixelScale, r * PixelScale, PixelScale, s.color)
  {
    if upto > 0 {
      PaintRowMembers(cells, p, r, upto - 1, s);
    }
  }

  /** A square is drawn exactly when it is the square of some coloured cell. */
  lemma {:induction false} PaintMembers(grid: seq<seq<int>>, p: Palette, upto: nat, s: Square)
    requires upto <= |grid|
    ensures s in Paint(grid, p, upto) <==> exists row, col :: row < upto && Covers(grid, p, row, col, s)
  {
    if upto > 0 {
      PaintMembers(grid, p, upto - 1, s);
      var last := grid[upto - 1];
      PaintRowMembers(last, p, upto - 1, |last|, s);
      if s in PaintRow(last, p, upto - 1, |last|) {
        var col :| 0 <= col < |last| && ColorOf(p, last[col]) == Some(s.color)
          && s == Square(col * PixelScale, (upto - 1) * PixelScale, PixelScale, s.color);
        assert Covers(grid, p, upto - 1, col, s);
      }
      if exists row, col :: row < upto && Covers(grid, p, row, col, s) {
        var row, col :| row < upto && Covers(grid, p, row, col, s);
        if row == upto - 1 {
          assert 0 <= col < |last| && ColorOf(p, last[col]) == Some(s.color);
        }
      }
    }
  }

  /** `drawPixelCharacter`: the squares for a palette name and a facing, or
      `None` where reading the first cell of a grid that is not one throws.
      A palette without colour fields leaves every cell undrawn. */
  method DrawPixelCharacter(sprites: Sprites, paletteKey: string, direction: string) returns (drawn: Option<seq<Square>>)
    requires SpritesWellFormed(sprites)
    ensures drawn.None? <==> direction in InheritedNames
    ensures drawn.Some? && PaletteFor(paletteKey).None? ==> drawn.value == []
    ensures drawn.Some? && PaletteFor(paletteKey).Some? ==>
      drawn.value == Paint(SpriteFor(sprites, direction).value, PaletteFor(paletteKey).value, H)
  {
    var sprite := SpriteFor(sprites, direction);
    var palette := PaletteFor(paletteKey);
    if sprite.None? {
      return None;
    }
    if palette.None? {
      return Some([]);
    }
    var grid := sprite.value;
    var pal := palette.value;
    var squares := [];
    var row := 0;
    while row < H
      invariant 0 <= row <= H
      invariant squares == Paint(grid, pal, row)
    {
      var col := 0;
      while col < W
        invariant 0 <= col <= W
        invariant squares == Paint(grid, pal, row) + PaintRow(grid[row], pal, row, col)
      {
        var c := ColorOf(pal, grid[row][col]);
        if c.Some? {
          squares := squares + [Square(col * PixelScale, row * PixelScale, PixelScale, c.value)];
        }
        col := col + 1;
      }
      row := row + 1;
    }
    drawn := Some(squares);
  }

  /** Every square drawn for a sprite lies inside the 48 x 72 avatar box. */
  lemma PaintInsideBox(grid: seq<seq<int>>, p: Palette, s: Square)
    requires WellFormed(grid) && s in Paint(grid, p, H)
    ensures 0 <= s.x && s.x + s.size <= AvatarWidth
    ensures 0 <= s.y && s.y + s.size <= AvatarPixelSize
  {
    PaintMembers(grid, p, H, s);
  }
}

=== FILE: chat.dfy ===
/** Room chat: a bounded in-memory history per room (the newest 100
    messages), broadcasts of new messages and reactions to the whole room,
    a history page of the newest 50, and the screen-share signalling relay
    that lives in the same handler group. */
module Chat {
  import opened Common
  import opened RelayState
  import Signaling

  const MaxHistory := 100
  const PageSize := 50
  const MaxText := 500
  const MaxEmoji := 4

  /** The last `n` elements of `s` (`s.slice(-n)` for `n > 0`). */
  function TakeLast<T>(s: seq<T>, n: nat): (r: seq<T>)
    ensures |r| == Min(n, |s|)
    ensures r == s[|s| - |r|..]
  {
    if |s| <= n then s else s[|s| - n..]
  }

  /** `history.push(msg)`, then `history.shift()` if over the bound. */
  function AppendCapped(h: seq<ChatMessage>, m: ChatMessage): (r: seq<ChatMessage>)
    ensures |h| <= MaxHistory ==> r == TakeLast(h + [m], MaxHistory)
    ensures |h| <= MaxHistory ==> |r| <= MaxHistory && r != [] && r[|r| - 1] == m
    ensures |h| < MaxHistory ==> r[..|r| - 1] == h
    ensures |h| == MaxHistory ==> r[..|r| - 1] == h[1..]
  {
    var pushed := h + [m];
    if |pushed| > MaxHistory then pushed[1..] else pushed
  }

  /** Feeds messages into a history one at a time. */
  function Replay(h: seq<ChatMessage>, ms: seq<ChatMessage>): seq<ChatMessage>
    decreases |ms|
  {
    if ms == [] then h else Replay(AppendCapped(h, ms[0]), ms[1..])
  }

  /** Whatever was posted, the history holds exactly the newest 100 of all
      messages posted, oldest first. */
  lemma {:induction false} HistoryIsNewestWindow(h: seq<ChatMessage>, ms: seq<ChatMessage>)
    requires |h| <= MaxHistory
    ensures Replay(h, ms) == TakeLast(h + ms, MaxHistory)
    decreases |ms|
  {
    if ms != [] {
      var h1 := AppendCapped(h, ms[0]);
      HistoryIsNewestWindow(h1, ms[1..]);
      TakeLastOfTakeLast(h + [ms[0]], ms[1..], MaxHistory);
      ConsSplit(h, ms);
    }
  }

  lemma ConsSplit<T>(h: seq<T>, ms: seq<T>)
    requires ms != []
    ensures h + [ms[0]] + ms[1..] == h + ms
  {
    assert ms == [ms[0]] + ms[1..];
  }

  /** Trimming a prefix first does not change the last `n` of a longer sequence. */
  lemma TakeLastOfTakeLast<T>(a: seq<T>, b: seq<T>, n: nat)
    ensures TakeLast(TakeLast(a, n) + b, n) == TakeLast(a + b, n)
  {
    var t := TakeLast(a, n);
    var x := TakeLast(t + b, n);
    var y := TakeLast(a + b, n);
    assert |x| == |y|;
    forall i | 0 <= i < |x| ensures x[i] == y[i] {
      var k := |t + b| - |x| + i;
      var k' := |a + b| - |y| + i;
      assert x[i] == (t + b)[k];
      assert y[i] == (a + b)[k'];
      if k < |t| {
        assert (t + b)[k] == a[|a| - |t| + k];
      }
    }
  }

  /** The display name on a message: the user's name, else the part of the
      email before `@`, else "Anon"; the first non-empty one wins. */
  function DisplayName(u: User): (n: string)
    ensures n != []
    ensures Truthy(u.name) ==> n == u.name.value
    ensures !Truthy(u.name) && u.email.Some? && BeforeFirst(u.email.value, '@') != [] ==> n == BeforeFirst(u.email.value, '@')
    ensures !Truthy(u.name) && (u.email.None? || BeforeFirst(u.email.value, '@') == []) ==> n == "Anon"
    ensures !Truthy(u.name) && u.email.Some? && n != "Anon" ==> StartsWith(u.email.value, n) && '@' !in n
  {
    if Truthy(u.name) then u.name.value
    else if u.email.Some? && BeforeFirst(u.email.value, '@') != [] then BeforeFirst(u.email.value, '@')
    else "Anon"
  }

  /** `chat:message`: a message whose text is not blank is trimmed, cut to
      500 code points (see `Take`), stored and broadcast to the whole room, sender
      included. `id` and `ts` stand for the clock- and random-derived fields. */
  function Post(s: Relay, c: Connection, text: Option<string>, id: string, ts: int): (st: Step)
    ensures st.conn == c && st.reply == NoReply
    ensures st.relay.timers == s.timers && st.relay.loops == s.loops
    ensures !InRoom(c) || text.None? || Trim(text.value) == [] ==> st == Ignore(s, c)
    ensures InRoom(c) && text.Some? && Trim(text.value) != [] ==>
      var r := CurrentRoom(c);
      var m := ChatMessage(id, c.user.id, DisplayName(c.user), Take(Trim(text.value), MaxText), ts);
      && 0 < |m.text| <= MaxText
      && RoomOf(st.relay, r).chat == AppendCapped(RoomOf(s, r).chat, m)
      && ChatOnly(RoomOf(s, r), RoomOf(st.relay, r))
      && st.emits == [Emit(All(r), ChatPosted(m))]
    ensures forall q :: !(InRoom(c) && q == CurrentRoom(c)) ==> RoomOf(st.relay, q) == RoomOf(s, q)
    ensures KeepsFocus(s, st.relay) && KeepsZones(s, st.relay)
  {
    if !InRoom(c) || text.None? || Trim(text.value) == [] then Ignore(s, c)
    else
      var r := CurrentRoom(c);
      var m := ChatMessage(id, c.user.id, DisplayName(c.user), Take(Trim(text.value), MaxText), ts);
      assert 0 < |m.text| <= MaxText;
      var room := RoomOf(s, r);
      var s' := WithRoom(s, r, room.(chat := AppendCapped(room.chat, m)));
      Step(s', c, [Emit(All(r), ChatPosted(m))], NoReply)
  }

  /** `chat:history`: the newest 50 messages of the caller's room, when a
      callback was supplied. The room is not checked: without one the
      lookup misses and the page is empty. */
  function History(s: Relay, c: Connection, hasCallback: bool): (st: Step)
    ensures st.relay == s && st.conn == c && st.emits == []
    ensures !hasCallback ==> st.reply == NoReply
    ensures hasCallback ==> st.reply.HistoryPage?
    ensures hasCallback && c.roomId.None? ==> st.reply.messages == []
    ensures hasCallback && c.roomId.Some? ==>
      var h := RoomOf(s, c.roomId.value).chat;
      && |st.reply.messages| == Min(PageSize, |h|)
      && st.reply.messages == h[|h| - |st.reply.messages|..]
  {
    if !hasCallback then Ignore(s, c)
    else if c.roomId.None? then Step(s, c, [], HistoryPage([]))
    else Step(s, c, [], HistoryPage(TakeLast(RoomOf(s, c.roomId.value).chat, PageSize)))
  }

  /** `chat:reaction`: a non-empty emoji, cut to four code points, broadcast
      to the whole room; nothing is stored. */
  function React(s: Relay, c: Connection, emoji: Option<string>): (st: Step)
    ensures st.relay == s && st.conn == c && st.reply == NoReply
    ensures !InRoom(c) || !Truthy(emoji) ==> st.emits == []
    ensures InRoom(c) && Truthy(emoji) ==>
      && st.emits == [Emit(All(CurrentRoom(c)), ChatReacted(c.user.id, Take(emoji.value, MaxEmoji)))]
      && 0 < |Take(emoji.value, MaxEmoji)| <= MaxEmoji
      && emoji.value[..|Take(emoji.value, MaxEmoji)|] == Take(emoji.value, MaxEmoji)
  {
    if !InRoom(c) || !Truthy(emoji) then Ignore(s, c)
    else Step(s, c, [Emit(All(CurrentRoom(c)), ChatReacted(c.user.id, Take(emoji.value, MaxEmoji)))], NoReply)
  }

  /** `screen:offer`, `screen:answer`, `screen:ice` and `screen:stop`: the
      signalling relay on the screen-share channel. */
  function ScreenSignal(s: Relay, c: Connection, signal: Signal): (st: Step)
    ensures st.relay == s && st.conn == c && st.reply == NoReply
    ensures InRoom(c) ==> st.emits == [Emit(Others(CurrentRoom(c), c.sid), Signalled(Screen, signal, c.user.id))]
    ensures !InRoom(c) ==> st.emits == []
  {
    Signaling.Forward(s, c, Screen, signal)
  }

  /** Posting never lets a room's history exceed 100 entries, and past the
      cap exactly the oldest entry is dropped. */
  lemma PostKeepsBound(s: Relay, c: Connection, text: Option<string>, id: string, ts: int, r: RoomId)
    requires |RoomOf(s, r).chat| <= MaxHistory
    ensures var h := RoomOf(s, r).chat;
      var h' := RoomOf(Post(s, c, text, id, ts).relay, r).chat;
      && |h'| <= MaxHistory
      && (h' != h ==> h' != [] && (if |h| == MaxHistory then h'[..|h'| - 1] == h[1..] else h'[..|h'| - 1] == h))
  {
    var st := Post(s, c, text, id, ts);
    if !(InRoom(c) && text.Some? && Trim(text.value) != [] && r == CurrentRoom(c)) {
      assert RoomOf(st.relay, r) == RoomOf(s, r);
    }
  }

  /** A posted message is part of the next history page of its room. */
  lemma PostedMessageIsInHistory(s: Relay, c: Connection, text: string, id: string, ts: int)
    requires InRoom(c) && Trim(text) != []
    ensures var st := Post(s, c, Some(text), id, ts);
      var page := History(st.relay, c, true).reply.messages;
      page != [] && page[|page| - 1] == st.emits[0].event.msg
  {
    var st := Post(s, c, Some(text), id, ts);
    var m := st.emits[0].event.msg;
    var h := RoomOf(st.relay, CurrentRoom(c)).chat;
    assert h == AppendCapped(RoomOf(s, CurrentRoom(c)).chat, m);
    assert h != [] && h[|h| - 1] == m;
    var page := History(st.relay, c, true).reply.messages;
    assert page == h[|h| - |page|..] && |page| >= 1;
    assert page[|page| - 1] == h[|h| - 1];
  }

  /** Reactions are not stored: a reaction sent between a post and a history
      request leaves every reader's page as the post left it. */
  lemma ReactKeepsHistory(s: Relay, c: Connection, text: Option<string>, id: string, ts: int, emoji: Option<string>, reader: Connection)
    ensures var posted := Post(s, c, text, id, ts).relay;
      History(React(posted, c, emoji).relay, reader, true).reply == History(posted, reader, true).reply
  {
  }
}

=== FILE: common.dfy ===
/** Small shared vocabulary: optional values, integer clamping and the
    handful of JavaScript string operations the relay and the client use
    (`trim`, `slice`, `startsWith`, `split('@')[0]`). */
module Common {

  /** A value that may be absent (`undefined`/`null` on the JavaScript side). */
  datatype Option<+T> = None | Some(value: T)

  function Min(a: int, b: int): int { if a <= b then a else b }

  function Max(a: int, b: int): int { if a >= b then a else b }

  /** `Math.min(Math.max(v, lo), hi)`. */
  function Clamp(v: int, lo: int, hi: int): (r: int)
    requires lo <= hi
    ensures lo <= r <= hi
    ensures lo <= v <= hi ==> r == v
    ensures v < lo ==> r == lo
    ensures hi < v ==> r == hi
  {
    Min(Max(v, lo), hi)
  }

  /** JavaScript truthiness of a possibly missing string: `undefined` and `""` are falsy. */
  predicate Truthy(s: Option<string>) {
    s.Some? && s.value != ""
  }

  /** The characters `String.prototype.trim` removes: white space and line terminators. */
  const SpaceChars: set<char> := {
    ' ', '\t', '\n', '\r', '\U{B}', '\U{C}', '\U{A0}', '\U{1680}',
    '\U{2000}', '\U{2001}', '\U{2002}', '\U{2003}', '\U{2004}', '\U{2005}',
    '\U{2006}', '\U{2007}', '\U{2008}', '\U{2009}', '\U{200A}',
    '\U{2028}', '\U{2029}', '\U{202F}', '\U{205F}', '\U{3000}', '\U{FEFF}'
  }

  predicate IsSpace(c: char) {
    c in SpaceChars
  }

  predicate AllSpace(s: string) {
    forall i :: 0 <= i < |s| ==> IsSpace(s[i])
  }

  /** Drops leading white space. */
  function TrimStart(s: string): (r: string)
    ensures |r| <= |s| && r == s[|s| - |r|..]
    ensures AllSpace(s[..|s| - |r|])
    ensures r != [] ==> !IsSpace(r[0])
  {
    if s == [] || !IsSpace(s[0]) then s
    else
      var r := TrimStart(s[1..]);
      assert s[1..][..|s| - 1 - |r|] == s[1..|s| - |r|];
      r
  }

  /** Drops trailing white space. */
  function TrimEnd(s: string): (r: string)
    ensures |r| <= |s| && r == s[..|r|]
    ensures AllSpace(s[|r|..])
    ensures r != [] ==> !IsSpace(r[|r| - 1])
  {
    if s == [] || !IsSpace(s[|s| - 1]) then s
    else
      var r := TrimEnd(s[..|s| - 1]);
      assert s[..|s| - 1][|r|..] == s[|r|..|s| - 1];
      r
  }

  /** `s.trim()`: the longest slice of `s` that neither starts nor ends with
      white space; it starts at `TrimOffset(s)`. */
  function Trim(s: string): (r: string)
    ensures TrimOffset(s) + |r| <= |s| && r == s[TrimOffset(s)..TrimOffset(s) + |r|]
    ensures AllSpace(s[..TrimOffset(s)]) && AllSpace(s[TrimOffset(s) + |r|..])
    ensures r != [] ==> !IsSpace(r[0]) && !IsSpace(r[|r| - 1])
    ensures r == [] <==> AllSpace(s)
  {
    var a := TrimStart(s);
    var r := TrimEnd(a);
    TrimProperties(s, a, r, TrimOffset(s));
    r
  }

  lemma TrimProperties(s: string, a: string, r: string, i: int)
    requires a == TrimStart(s) && r == TrimEnd(a) && i == TrimOffset(s)
    ensures i + |r| <= |s| && r == s[i..i + |r|]
    ensures AllSpace(s[..i]) && AllSpace(s[i + |r|..])
    ensures r != [] ==> !IsSpace(r[0]) && !IsSpace(r[|r| - 1])
    ensures r == [] <==> AllSpace(s)
  {
    TrimSlices(s, a, r, i);
    if r == [] {
      TrimEmptyAllSpace(s, a, r);
    } else {
      TrimNonEmptyNotAllSpace(s, a, r);
      assert r[0] == a[0];
    }
  }

  /** Number of leading white-space characters `trim` removes. */
  function TrimOffset(s: string): nat {
    |s| - |TrimStart(s)|
  }

  lemma TrimSlices(s: string, a: string, r: string, i: int)
    requires a == TrimStart(s) && r == TrimEnd(a) && i == |s| - |a|
    ensures 0 <= i <= |s| - |r| && r == s[i..i + |r|]
    ensures AllSpace(s[..i]) && AllSpace(s[i + |r|..])
  {
    assert |a| <= |s| && a == s[i..] && AllSpace(s[..i]);
    assert |r| <= |a| && r == a[..|r|] && AllSpace(a[|r|..]);
    SliceOfSuffix(s, i, |r|);
  }

  lemma SliceOfSuffix(s: string, i: int, n: int)
    requires 0 <= i && 0 <= n && i + n <= |s|
    ensures s[i..][..n] == s[i..i + n] && s[i..][n..] == s[i + n..]
  {}

  lemma TrimEmptyAllSpace(s: string, a: string, r: string)
    requires a == TrimStart(s) && r == TrimEnd(a) && r == []
    ensures AllSpace(s)
  {
    var i := |s| - |a|;
    assert a == s[i..];
    assert a[|r|..] == a;
    forall k | 0 <= k < |s| ensures IsSpace(s[k]) {
      if k < i { assert s[k] == s[..i][k]; } else { assert s[k] == a[k - i]; }
    }
  }

  lemma TrimNonEmptyNotAllSpace(s: string, a: string, r: string)
    requires a == TrimStart(s) && r == TrimEnd(a) && r != []
    ensures !AllSpace(s)
  {
    var i := |s| - |a|;
    assert a == s[i..];
    assert r == a[..|r|];
    assert r[|r| - 1] == s[i + |r| - 1];
  }

  /** The first `n` characters of `s`, where a character is a Unicode code
      point. `s.slice(0, n)` counts UTF-16 code units instead: the two agree
      while every character before position `n` lies in the Basic
      Multilingual Plane, and differ once one of them is a surrogate pair. */
  function Take(s: string, n: nat): (r: string)
    ensures |r| == Min(n, |s|)
    ensures r == s[..|r|]
  {
    if |s| <= n then s else s[..n]
  }

  /** `s.split(sep)[0]`: everything before the first separator, or all of `s`. */
  function BeforeFirst(s: string, sep: char): (r: string)
    ensures |r| <= |s| && r == s[..|r|]
    ensures sep !in r
    ensures |r| < |s| ==> s[|r|] == sep
  {
    if s == [] || s[0] == sep then []
    else [s[0]] + BeforeFirst(s[1..], sep)
  }

  /** `s.startsWith(p)`. */
  predicate StartsWith(s: string, p: string) {
    |p| <= |s| && s[..|p|] == p
  }

  /** `s.endsWith(p)`. */
  predicate EndsWith(s: string, p: string) {
    |p| <= |s| && s[|s| - |p|..] == p
  }

  /** Two suffixes of one string: the shorter is a suffix of the longer. */
  lemma EndsWithNested(s: string, p: string, q: string)
    requires EndsWith(s, p) && EndsWith(s, q) && |p| <= |q|
    ensures EndsWith(q, p)
  {
    assert q[|q| - |p|..] == s[|s| - |p|..];
  }

  /** Splitting at the first occurrence of a separator is unambiguous when
      the left parts do not contain the separator. */
  lemma SplitUnique(a: string, b: string, c: string, d: string, sep: char)
    requires sep !in a && sep !in c
    requires a + [sep] + b == c + [sep] + d
    ensures a == c && b == d
  {
    var s := a + [sep] + b;
    assert s == c + [sep] + d;
    assert forall k | 0 <= k < |c| :: s[k] == c[k];
    assert forall k | 0 <= k < |a| :: s[k] == a[k];
    assert s[|a|] == sep && s[|c|] == sep;
    assert |a| == |c|;
    assert a == s[..|a|] == c;
    assert b == s[|a| + 1..] == d;
  }
}

=== FILE: couples.dfy ===
/** Couple membership over HTTP: the bearer-token gate, and the `create`,
    `join` and `my` routes over three tables (couples, memberships, rooms).
    Tables are sequences in insertion order, and "the first row" of a query
    is the first matching row in that order. Token verification, id and
    code generation and database failures enter as parameters. */
module Couples {
  import opened Common
  import opened RelayState

  datatype CoupleRow = CoupleRow(id: string, inviteCode: string)
  datatype MemberRow = MemberRow(coupleId: string, userId: UserId)
  datatype RoomRow = RoomRow(id: RoomId, coupleId: string)

  datatype Db = Db(couples: seq<CoupleRow>, members: seq<MemberRow>, rooms: seq<RoomRow>)

  /** Outcome of the authentication gate in front of every route. */
  datatype Gate = Pass(userId: UserId) | Unauthorized(status: int, error: string)

  datatype Body =
    | CoupleInfo(coupleId: string, inviteCode: string, inviteLink: string, roomId: Option<RoomId>)
    | JoinedInfo(coupleId: string, joinedRoom: RoomId)
    | AlreadyMember(message: string, coupleId: string)
    | MyInfo(couple: Option<CoupleRow>, room: Option<RoomId>)
    | ErrorInfo(error: string)

  datatype Response = Response(status: int, body: Body)

  datatype Outcome = Outcome(db: Db, response: Response)

  /** Where a `join` request's database work fails, if it does: before any
      write (a read or the delete), at the insert after the delete, or at
      the closing room read after the membership has moved. */
  datatype JoinFault = NoFault | ReadFails(message: string) | InsertFails(message: string) | RoomReadFails(message: string)

  const BearerPrefix := "Bearer "
  const InviteCodeLength := 12
  /** What reading `.id` of a missing room row throws. */
  const MissingRoomError := "Cannot read properties of undefined (reading 'id')"

  // ----- Authentication gate -----

  /** `requireAuth`: a session user passes; otherwise the `Authorization`
      header must start with `Bearer ` and its second space-separated field
      must verify. `verify` yields the token's user id, or `None` where the
      library throws. */
  function RequireAuth(sessionUser: Option<UserId>, authorization: Option<string>, verify: string -> Option<UserId>): (g: Gate)
    ensures sessionUser.Some? ==> g == Pass(sessionUser.value)
    ensures sessionUser.None? && !(Truthy(authorization) && StartsWith(authorization.value, BearerPrefix)) ==>
      g == Unauthorized(401, "Not authenticated")
    ensures sessionUser.None? && Truthy(authorization) && StartsWith(authorization.value, BearerPrefix) ==>
      var token := BeforeFirst(authorization.value[|BearerPrefix|..], ' ');
      g == (if verify(token).Some? then Pass(verify(token).value) else Unauthorized(401, "Invalid token"))
  {
    if sessionUser.Some? then Pass(sessionUser.value)
    else if !Truthy(authorization) || !StartsWith(authorization.value, BearerPrefix) then Unauthorized(401, "Not authenticated")
    else
      var token := BeforeFirst(authorization.value[|BearerPrefix|..], ' ');
      match verify(token)
      case Some(id) => Pass(id)
      case None => Unauthorized(401, "Invalid token")
  }

  /** The token the gate verifies is `authorization.split(' ')[1]`: the
      header is `Bearer `, the token, then nothing or a space. */
  lemma BearerTokenIsSecondField(token: string, rest: string)
    requires ' ' !in token
    ensures BeforeFirst((BearerPrefix + token + rest)[|BearerPrefix|..], ' ') == token <==> rest == [] || rest[0] == ' '
  {
    var h := BearerPrefix + token + rest;
    assert h[|BearerPrefix|..] == token + rest;
    var b := BeforeFirst(token + rest, ' ');
    if b == token && rest != [] {
      assert (token + rest)[|token|] == rest[0];
    }
    if rest != [] && rest[0] == ' ' {
      BeforeFirstOfSeparated(token, rest);
    }
  }

  lemma BeforeFirstOfSeparated(a: string, rest: string)
    requires ' ' !in a && rest != [] && rest[0] == ' '
    ensures BeforeFirst(a + rest, ' ') == a
    decreases |a|
  {
    var s := a + rest;
    if a == [] {
      assert s[0] == ' ';
    } else {
      assert s[0] == a[0] && a[0] != ' ';
      assert s[1..] == a[1..] + rest;
      BeforeFirstOfSeparated(a[1..], rest);
      assert BeforeFirst(s, ' ') == [s[0]] + BeforeFirst(s[1..], ' ');
      assert [a[0]] + a[1..] == a;
    }
  }

  // ----- Queries -----

  /** The first couple row with id `id`. */
  function FindCouple(cs: seq<CoupleRow>, id: string): (r: Option<CoupleRow>)
    ensures r.Some? ==> r.value in cs && r.value.id == id
    ensures r.None? <==> forall i :: 0 <= i < |cs| ==> cs[i].id != id
  {
    if cs == [] then None
    else if cs[0].id == id then Some(cs[0])
    else FindCouple(cs[1..], id)
  }

  /** The first couple row with invite code `code`. */
  function FindByCode(cs: seq<CoupleRow>, code: string): (r: Option<CoupleRow>)
    ensures r.Some? ==> r.value in cs && r.value.inviteCode == code
    ensures r.None? <==> forall i :: 0 <= i < |cs| ==> cs[i].inviteCode != code
  {
    if cs == [] then None
    else if cs[0].inviteCode == code then Some(cs[0])
    else FindByCode(cs[1..], code)
  }

  /** The id of the first room of couple `coupleId`. */
  function FindRoom(rs: seq<RoomRow>, coupleId: string): (r: Option<RoomId>)
    ensures r.Some? ==> RoomRow(r.value, coupleId) in rs
    ensures r.None? <==> forall i :: 0 <= i < |rs| ==> rs[i].coupleId != coupleId
  {
    if rs == [] then None
    else if rs[0].coupleId == coupleId then Some(rs[0].id)
    else FindRoom(rs[1..], coupleId)
  }

  /** The couple of the caller's first membership that joins to a couple row. */
  function FirstMembership(db: Db, u: UserId): (r: Option<CoupleRow>)
    ensures r.Some? ==> r.value in db.couples && MemberRow(r.value.id, u) in db.members
    ensures r.None? ==> forall m :: m in db.members && m.userId == u ==> FindCouple(db.couples, m.coupleId).None?
  {
    FirstMembershipIn(db.couples, db.members, u)
  }

  function FirstMembershipIn(cs: seq<CoupleRow>, ms: seq<MemberRow>, u: UserId): (r: Option<CoupleRow>)
    ensures r.Some? ==> r.value in cs && MemberRow(r.value.id, u) in ms
    ensures r.None? ==> forall m :: m in ms && m.userId == u ==> FindCouple(cs, m.coupleId).None?
  {
    if ms == [] then None
    else if ms[0].userId == u && FindCouple(cs, ms[0].coupleId).Some? then FindCouple(cs, ms[0].coupleId)
    else FirstMembershipIn(cs, ms[1..], u)
  }

  /** `SELECT user_id FROM couple_members WHERE couple_id = $1`, in row order. */
  function CoupleMembers(ms: seq<MemberRow>, c: string): (r: seq<UserId>)
    ensures forall v :: v in r <==> MemberRow(c, v) in ms
    ensures r != [] ==> MemberRow(c, r[0]) in ms
    ensures |r| <= |ms|
  {
    if ms == [] then []
    else
      var last := ms[|ms| - 1];
      var prefix := ms[..|ms| - 1];
      assert ms == prefix + [last];
      CoupleMembers(prefix, c) + (if last.coupleId == c then [last.userId] else [])
  }

  /** Number of membership rows of user `u`. */
  function UserRows(ms: seq<MemberRow>, u: UserId): (n: nat)
    ensures n > 0 <==> exists m :: m in ms && m.userId == u
  {
    if ms == [] then 0
    else
      var last := ms[|ms| - 1];
      var prefix := ms[..|ms| - 1];
      assert ms == prefix + [last];
      UserRows(prefix, u) + (if last.userId == u then 1 else 0)
  }

  /** `DELETE FROM couple_members WHERE user_id = $1`. */
  function RemoveUser(ms: seq<MemberRow>, u: UserId): (r: seq<MemberRow>)
    ensures forall m :: m in r <==> m in ms && m.userId != u
  {
    if ms == [] then []
    else
      var last := ms[|ms| - 1];
      var prefix := ms[..|ms| - 1];
      assert ms == prefix + [last];
      RemoveUser(prefix, u) + (if last.userId == u then [] else [last])
  }

  lemma RemoveUserCounts(ms: seq<MemberRow>, u: UserId, c: string)
    ensures UserRows(RemoveUser(ms, u), u) == 0
    ensures forall v :: v != u ==> UserRows(RemoveUser(ms, u), v) == UserRows(ms, v)
    ensures |CoupleMembers(RemoveUser(ms, u), c)| <= |CoupleMembers(ms, c)|
    ensures u !in CoupleMembers(ms, c) ==> CoupleMembers(RemoveUser(ms, u), c) == CoupleMembers(ms, c)
  {
    RemoveUserRows(ms, u);
    RemoveUserMembers(ms, u, c);
  }

  lemma {:induction false} RemoveUserRows(ms: seq<MemberRow>, u: UserId)
    ensures UserRows(RemoveUser(ms, u), u) == 0
    ensures forall v :: v != u ==> UserRows(RemoveUser(ms, u), v) == UserRows(ms, v)
    decreases |ms|
  {
    if ms != [] {
      var last := ms[|ms| - 1];
      var prefix := ms[..|ms| - 1];
      RemoveUserRows(prefix, u);
      var rp := RemoveUser(prefix, u);
      var tail := if last.userId == u then [] else [last];
      assert RemoveUser(ms, u) == rp + tail;
      forall v | v != u ensures UserRows(RemoveUser(ms, u), v) == UserRows(ms, v) {
        AppendUserRows(rp, tail, v);
      }
      AppendUserRows(rp, tail, u);
    }
  }

  lemma {:induction false} RemoveUserMembers(ms: seq<MemberRow>, u: UserId, c: string)
    ensures |CoupleMembers(RemoveUser(ms, u), c)| <= |CoupleMembers(ms, c)|
    ensures u !in CoupleMembers(ms, c) ==> CoupleMembers(RemoveUser(ms, u), c) == CoupleMembers(ms, c)
    decreases |ms|
  {
    if ms != [] {
      var last := ms[|ms| - 1];
      var prefix := ms[..|ms| - 1];
      RemoveUserMembers(prefix, u, c);
      var rp := RemoveUser(prefix, u);
      var tail := if last.userId == u then [] else [last];
      assert RemoveUser(ms, u) == rp + tail;
      AppendCounts(rp, tail, c);
      if u !in CoupleMembers(ms, c) {
        assert u !in CoupleMembers(prefix, c);
      }
    }
  }

  lemma AppendCounts(ms: seq<MemberRow>, tail: seq<MemberRow>, c: string)
    requires |tail| <= 1
    ensures CoupleMembers(ms + tail, c) == CoupleMembers(ms, c) + (if tail != [] && tail[0].coupleId == c then [tail[0].userId] else [])
  {
    if tail == [] {
      assert ms + tail == ms;
    } else {
      assert (ms + tail)[..|ms + tail| - 1] == ms;
    }
  }

  lemma AppendUserRows(ms: seq<MemberRow>, tail: seq<MemberRow>, v: UserId)
    requires |tail| <= 1
    ensures UserRows(ms + tail, v) == UserRows(ms, v) + (if tail != [] && tail[0].userId == v then 1 else 0)
  {
    if tail == [] {
      assert ms + tail == ms;
    } else {
      assert (ms + tail)[..|ms + tail| - 1] == ms;
    }
  }

  // ----- Invariants of the membership tables -----

  /** Every membership row refers to an existing couple. */
  ghost predicate MembersReferToCouples(db: Db) {
    forall m :: m in db.members ==> FindCouple(db.couples, m.coupleId).Some?
  }

  ghost predicate OneCouplePerUser(db: Db) {
    forall u :: UserRows(db.members, u) <= 1
  }

  ghost predicate AtMostTwoMembers(db: Db) {
    forall c :: |CoupleMembers(db.members, c)| <= 2
  }

  ghost predicate Valid(db: Db) {
    MembersReferToCouples(db) && OneCouplePerUser(db) && AtMostTwoMembers(db)
  }

  // ----- Routes -----

  /** The link sent to the partner. */
  function InviteLink(origin: string, code: string): string {
    origin + "/invite/" + code
  }

  /** `uuid.replace(/-/g, '')`. */
  function RemoveDashes(s: string): (r: string)
    ensures '-' !in r && |r| <= |s|
    ensures forall ch :: ch in r <==> ch in s && ch != '-'
  {
    if s == [] then []
    else (if s[0] == '-' then [] else [s[0]]) + RemoveDashes(s[1..])
  }

  /** The invite code drawn from a generated id: dashes dropped, first 12 kept. */
  function InviteCode(uuid: string): (code: string)
    ensures '-' !in code
    ensures |code| == Min(InviteCodeLength, |RemoveDashes(uuid)|)
    ensures code == RemoveDashes(uuid)[..|code|]
  {
    Take(RemoveDashes(uuid), InviteCodeLength)
  }

  /** `POST /create`. A caller who is already in a couple gets that couple
      back and nothing is written; otherwise a couple, the caller's
      membership and a room are inserted between `BEGIN` and `COMMIT`.
      `codeSeed`, `coupleId` and `roomId` are the generated ids; `failure` is
      a database error. The statements go through the pool one by one, so
      the `ROLLBACK` after a failure undoes the inserts only when the pool
      handed every statement the same connection; the model assumes it did
      and leaves the database as it was. */
  function Create(db: Db, u: UserId, origin: string, codeSeed: string, coupleId: string, roomId: RoomId, failure: Option<string>): (o: Outcome)
    ensures failure.Some? ==> o == Outcome(db, Response(500, ErrorInfo(failure.value)))
    ensures failure.None? && FirstMembership(db, u).Some? ==>
      var cr := FirstMembership(db, u).value;
      o == Outcome(db, Response(200, CoupleInfo(cr.id, cr.inviteCode, InviteLink(origin, cr.inviteCode), FindRoom(db.rooms, cr.id))))
    ensures failure.None? && FirstMembership(db, u).None? ==>
      var code := InviteCode(codeSeed);
      && o.db == Db(db.couples + [CoupleRow(coupleId, code)], db.members + [MemberRow(coupleId, u)], db.rooms + [RoomRow(roomId, coupleId)])
      && o.response == Response(201, CoupleInfo(coupleId, code, InviteLink(origin, code), Some(roomId)))
  {
    if failure.Some? then Outcome(db, Response(500, ErrorInfo(failure.value)))
    else
      match FirstMembership(db, u)
      case Some(cr) =>
        Outcome(db, Response(200, CoupleInfo(cr.id, cr.inviteCode, InviteLink(origin, cr.inviteCode), FindRoom(db.rooms, cr.id))))
      case None =>
        var code := InviteCode(codeSeed);
        var db' := Db(db.couples + [CoupleRow(coupleId, code)], db.members + [MemberRow(coupleId, u)], db.rooms + [RoomRow(roomId, coupleId)]);
        Outcome(db', Response(201, CoupleInfo(coupleId, code, InviteLink(origin, code), Some(roomId))))
  }

  /** `POST /join`. The caller leaves every couple before joining the one the
      code names. The writes are not in a transaction: a failing insert
      leaves the caller in no couple, and a failing or empty room read
      answers 500 after the membership has already changed. */
  function Join(db: Db, u: UserId, inviteCode: Option<string>, fault: JoinFault): (o: Outcome)
    ensures !Truthy(inviteCode) ==> o == Outcome(db, Response(400, ErrorInfo("invite_code required")))
    ensures Truthy(inviteCode) && fault.ReadFails? ==> o == Outcome(db, Response(500, ErrorInfo(fault.message)))
    ensures Truthy(inviteCode) && !fault.ReadFails? ==>
      match FindByCode(db.couples, inviteCode.value)
      case None => o == Outcome(db, Response(404, ErrorInfo("Invalid invite code")))
      case Some(cr) =>
        var members := CoupleMembers(db.members, cr.id);
        if u in members then o == Outcome(db, Response(200, AlreadyMember("Already in couple", cr.id)))
        else if |members| >= 2 then o == Outcome(db, Response(400, ErrorInfo("Couple is full")))
        else if fault.InsertFails? then o == Outcome(db.(members := RemoveUser(db.members, u)), Response(500, ErrorInfo(fault.message)))
        else
          && o.db == db.(members := RemoveUser(db.members, u) + [MemberRow(cr.id, u)])
          && o.response == (if fault.RoomReadFails? then Response(500, ErrorInfo(fault.message))
                            else if FindRoom(db.rooms, cr.id).Some? then Response(200, JoinedInfo(cr.id, FindRoom(db.rooms, cr.id).value))
                            else Response(500, ErrorInfo(MissingRoomError)))
  {
    if !Truthy(inviteCode) then Outcome(db, Response(400, ErrorInfo("invite_code required")))
    else if fault.ReadFails? then Outcome(db, Response(500, ErrorInfo(fault.message)))
    else
      match FindByCode(db.couples, inviteCode.value)
      case None => Outcome(db, Response(404, ErrorInfo("Invalid invite code")))
      case Some(cr) =>
        var members := CoupleMembers(db.members, cr.id);
        if u in members then Outcome(db, Response(200, AlreadyMember("Already in couple", cr.id)))
        else if |members| >= 2 then Outcome(db, Response(400, ErrorInfo("Couple is full")))
        else
          var removed := db.(members := RemoveUser(db.members, u));
          if fault.InsertFails? then Outcome(removed, Response(500, ErrorInfo(fault.message)))
          else
            var db' := removed.(members := removed.members + [MemberRow(cr.id, u)]);
            if fault.RoomReadFails? then Outcome(db', Response(500, ErrorInfo(fault.message)))
            else match FindRoom(db.rooms, cr.id)
            case Some(rid) => Outcome(db', Response(200, JoinedInfo(cr.id, rid)))
            case None => Outcome(db', Response(500, ErrorInfo(MissingRoomError)))
  }

  /** `GET /my`: the caller's couple and room, each null when absent. */
  function My(db: Db, u: UserId, failure: Option<string>): (o: Outcome)
    ensures o.db == db
    ensures failure.Some? ==> o.response == Response(500, ErrorInfo(failure.value))
    ensures failure.None? ==> o.response.status == 200 && o.response.body.MyInfo?
    ensures failure.None? && FirstMembership(db, u).None? ==> o.response.body == MyInfo(None, None)
    ensures failure.None? && FirstMembership(db, u).Some? ==>
      var cr := o.response.body.couple;
      && cr.Some? && cr.value in db.couples && MemberRow(cr.value.id, u) in db.members
      && o.response.body.room == FindRoom(db.rooms, cr.value.id)
  {
    if failure.Some? then Outcome(db, Response(500, ErrorInfo(failure.value)))
    else
      match FirstMembership(db, u)
      case None => Outcome(db, Response(200, MyInfo(None, None)))
      case Some(cr) => Outcome(db, Response(200, MyInfo(Some(cr), FindRoom(db.rooms, cr.id))))
  }

  // ----- What `/my` answers after `/create` and `/join` -----

  /** A membership row appended after every row of `u` has gone decides the
      caller's couple on its own. */
  lemma {:induction false} FirstMembershipOfAppended(cs: seq<CoupleRow>, ms: seq<MemberRow>, row: MemberRow, u: UserId)
    requires forall i :: 0 <= i < |ms| ==> ms[i].userId != u
    requires row.userId == u
    ensures FirstMembershipIn(cs, ms + [row], u) == FindCouple(cs, row.coupleId)
    decreases |ms|
  {
    if ms == [] {
      assert ms + [row] == [row];
      assert [row][1..] == [];
    } else {
      assert (ms + [row])[0] == ms[0];
      assert (ms + [row])[1..] == ms[1..] + [row];
      FirstMembershipOfAppended(cs, ms[1..], row, u);
    }
  }

  /** A room appended for a couple that had none is that couple's room. */
  lemma {:induction false} FindRoomOfAppended(rs: seq<RoomRow>, row: RoomRow)
    requires FindRoom(rs, row.coupleId).None?
    ensures FindRoom(rs + [row], row.coupleId) == Some(row.id)
    decreases |rs|
  {
    if rs == [] {
      assert rs + [row] == [row];
    } else {
      assert (rs + [row])[0] == rs[0];
      assert (rs + [row])[1..] == rs[1..] + [row];
      FindRoomOfAppended(rs[1..], row);
    }
  }

  /** A couple appended under an id no couple uses is found under that id. */
  lemma {:induction false} FindCoupleOfAppended(cs: seq<CoupleRow>, row: CoupleRow)
    requires FindCouple(cs, row.id).None?
    ensures FindCouple(cs + [row], row.id) == Some(row)
    decreases |cs|
  {
    if cs == [] {
      assert cs + [row] == [row];
    } else {
      assert (cs + [row])[0] == cs[0];
      assert (cs + [row])[1..] == cs[1..] + [row];
      FindCoupleOfAppended(cs[1..], row);
    }
  }

  /** After `/create` answers 200 or 201, `/my` answers the same couple
      (id and invite code) and the same room, given fresh couple and room
      ids for the insert. */
  lemma MyAfterCreate(db: Db, u: UserId, origin: string, codeSeed: string, coupleId: string, roomId: RoomId)
    requires Valid(db)
    requires FindCouple(db.couples, coupleId).None? && FindRoom(db.rooms, coupleId).None?
    ensures var o := Create(db, u, origin, codeSeed, coupleId, roomId, None);
      var info := o.response.body;
      My(o.db, u, None).response == Response(200, MyInfo(Some(CoupleRow(info.coupleId, info.inviteCode)), info.roomId))
  {
    var o := Create(db, u, origin, codeSeed, coupleId, roomId, None);
    if FirstMembership(db, u).Some? {
      var cr := FirstMembership(db, u).value;
      assert cr == CoupleRow(cr.id, cr.inviteCode);
    } else {
      var code := InviteCode(codeSeed);
      NoMembershipMeansNoRows(db, u);
      forall i | 0 <= i < |db.members| ensures db.members[i].userId != u {
        assert db.members[i] in db.members;
      }
      FirstMembershipOfAppended(db.couples + [CoupleRow(coupleId, code)], db.members, MemberRow(coupleId, u), u);
      FindCoupleOfAppended(db.couples, CoupleRow(coupleId, code));
      FindRoomOfAppended(db.rooms, RoomRow(roomId, coupleId));
    }
  }

  /** After `/join` answers with the joined couple, `/my` answers that couple
      and the room the join reported. */
  lemma MyAfterJoin(db: Db, u: UserId, code: string)
    requires Join(db, u, Some(code), NoFault).response.body.JoinedInfo?
    ensures var o := Join(db, u, Some(code), NoFault);
      var mine := My(o.db, u, None).response.body;
      && mine.couple.Some? && mine.couple.value.id == o.response.body.coupleId
      && mine.room == Some(o.response.body.joinedRoom)
  {
    var cr := FindByCode(db.couples, code).value;
    var removed := RemoveUser(db.members, u);
    forall i | 0 <= i < |removed| ensures removed[i].userId != u {
      assert removed[i] in removed;
    }
    FirstMembershipOfAppended(db.couples, removed, MemberRow(cr.id, u), u);
    assert FindCouple(db.couples, cr.id).Some? by {
      var i :| 0 <= i < |db.couples| && db.couples[i] == cr;
    }
  }

  // ----- The routes keep the membership invariants -----

  /** In a valid database a user without a joinable membership has none at all. */
  lemma NoMembershipMeansNoRows(db: Db, u: UserId)
    requires MembersReferToCouples(db) && FirstMembership(db, u).None?
    ensures UserRows(db.members, u) == 0
  {
  }

  /** A couple id that no couple row carries has no membership rows. */
  lemma NoMembersOfUnknownCouple(db: Db, c: string)
    requires MembersReferToCouples(db) && FindCouple(db.couples, c).None?
    ensures CoupleMembers(db.members, c) == []
  {
  }

  lemma FindCoupleAppend(cs: seq<CoupleRow>, row: CoupleRow, id: string)
    requires FindCouple(cs, id).Some?
    ensures FindCouple(cs + [row], id).Some?
  {
    var r := FindCouple(cs, id).value;
    var i :| 0 <= i < |cs| && cs[i] == r;
    assert (cs + [row])[i].id == id;
  }

  /** `create` keeps the database valid, given a couple id that no couple uses yet. */
  lemma CreateKeepsValid(db: Db, u: UserId, origin: string, codeSeed: string, coupleId: string, roomId: RoomId, failure: Option<string>)
    requires Valid(db)
    requires FindCouple(db.couples, coupleId).None?
    ensures Valid(Create(db, u, origin, codeSeed, coupleId, roomId, failure).db)
  {
    if failure.None? && FirstMembership(db, u).None? {
      var code := InviteCode(codeSeed);
      var db' := Create(db, u, origin, codeSeed, coupleId, roomId, failure).db;
      assert db'.members == db.members + [MemberRow(coupleId, u)];
      assert db'.couples == db.couples + [CoupleRow(coupleId, code)];
      NoMembershipMeansNoRows(db, u);
      NoMembersOfUnknownCouple(db, coupleId);
      InsertedCoupleRefers(db.couples, db.members, CoupleRow(coupleId, code), u);
      InsertedMemberCounts(db.members, coupleId, u);
    }
  }

  lemma InsertedCoupleRefers(cs: seq<CoupleRow>, ms: seq<MemberRow>, row: CoupleRow, u: UserId)
    requires forall m :: m in ms ==> FindCouple(cs, m.coupleId).Some?
    ensures forall m :: m in ms + [MemberRow(row.id, u)] ==> FindCouple(cs + [row], m.coupleId).Some?
  {
    forall m | m in ms + [MemberRow(row.id, u)] ensures FindCouple(cs + [row], m.coupleId).Some? {
      if m in ms {
        FindCoupleAppend(cs, row, m.coupleId);
      } else {
        assert (cs + [row])[|cs|].id == m.coupleId;
      }
    }
  }

  lemma InsertedMemberCounts(ms: seq<MemberRow>, c: string, u: UserId)
    requires forall v :: UserRows(ms, v) <= 1
    requires forall v :: |CoupleMembers(ms, v)| <= 2
    requires UserRows(ms, u) == 0 && CoupleMembers(ms, c) == []
    ensures forall v :: UserRows(ms + [MemberRow(c, u)], v) <= 1
    ensures forall v :: |CoupleMembers(ms + [MemberRow(c, u)], v)| <= 2
  {
    forall v ensures UserRows(ms + [MemberRow(c, u)], v) <= 1 {
      AppendUserRows(ms, [MemberRow(c, u)], v);
    }
    forall v ensures |CoupleMembers(ms + [MemberRow(c, u)], v)| <= 2 {
      AppendCounts(ms, [MemberRow(c, u)], v);
    }
  }

  /** `join` keeps the database valid, whatever fault occurs: the caller ends
      in at most one couple and no couple grows past two members. */
  lemma JoinKeepsValid(db: Db, u: UserId, inviteCode: Option<string>, fault: JoinFault)
    requires Valid(db)
    ensures Valid(Join(db, u, inviteCode, fault).db)
  {
    var o := Join(db, u, inviteCode, fault);
    if Truthy(inviteCode) && !fault.ReadFails? && FindByCode(db.couples, inviteCode.value).Some? {
      var cr := FindByCode(db.couples, inviteCode.value).value;
      var members := CoupleMembers(db.members, cr.id);
      if u !in members && |members| < 2 {
        var removed := RemoveUser(db.members, u);
        forall c ensures |CoupleMembers(removed, c)| <= 2 && (c == cr.id ==> |CoupleMembers(removed, c)| < 2) {
          RemoveUserCounts(db.members, u, c);
        }
        forall v ensures UserRows(removed, v) <= 1 && UserRows(removed, u) == 0 {
          RemoveUserCounts(db.members, u, cr.id);
        }
        assert FindCouple(db.couples, cr.id).Some? by {
          var i :| 0 <= i < |db.couples| && db.couples[i] == cr;
        }
        if !fault.InsertFails? {
          var row := MemberRow(cr.id, u);
          forall c ensures |CoupleMembers(removed + [row], c)| <= 2 {
            AppendCounts(removed, [row], c);
          }
          forall v ensures UserRows(removed + [row], v) <= 1 {
            AppendUserRows(removed, [row], v);
          }
        }
      }
    }
  }

  /** After a successful `join` the caller is a member of exactly the couple
      the code names, and of no other. */
  lemma JoinedCoupleIsTheOnlyOne(db: Db, u: UserId, code: string)
    requires Valid(db) && code != ""
    requires FindByCode(db.couples, code).Some?
    requires Join(db, u, Some(code), NoFault).response.body.JoinedInfo?
    ensures var c := FindByCode(db.couples, code).value.id;
      var db' := Join(db, u, Some(code), NoFault).db;
      && MemberRow(c, u) in db'.members
      && forall m :: m in db'.members && m.userId == u ==> m.coupleId == c
  {
  }

  /** A `join` that is refused before writing changes nothing. */
  lemma RefusedJoinChangesNothing(db: Db, u: UserId, inviteCode: Option<string>, fault: JoinFault)
    requires Join(db, u, inviteCode, fault).response.status in {400, 404}
      || Join(db, u, inviteCode, fault).response.body.AlreadyMember?
    ensures Join(db, u, inviteCode, fault).db == db
  {
  }
}

=== FILE: decimal.dfy ===
/** Decimal rendering of integers as JavaScript template literals produce it
    (`${n}`), with a parser that inverts it. The client builds its map and
    set keys (`"x,y"`, `"v_8_3_6"`, `"door_v_0"`) from such renderings, so
    their injectivity rests on the round trip proved here. */
module Decimal {
  import opened Common

  predicate IsDigit(c: char) {
    '0' <= c <= '9'
  }

  predicate AllDigits(s: string) {
    forall i :: 0 <= i < |s| ==> IsDigit(s[i])
  }

  function DigitValue(c: char): nat
    requires IsDigit(c)
  {
    (c as int) - ('0' as int)
  }

  function DigitChar(d: nat): (c: char)
    requires d < 10
    ensures IsDigit(c) && DigitValue(c) == d
  {
    ('0' as int + d) as char
  }

  /** Value of a digit string, most significant digit first. */
  function ParseNat(s: string): nat
    requires AllDigits(s)
  {
    if s == [] then 0 else ParseNat(s[..|s| - 1]) * 10 + DigitValue(s[|s| - 1])
  }

  /** Shortest decimal rendering of a natural number. */
  function NatToString(n: nat): (s: string)
    ensures s != [] && AllDigits(s)
    ensures ParseNat(s) == n
    decreases n
  {
    if n < 10 then [DigitChar(n)]
    else
      var p := NatToString(n / 10);
      var s := p + [DigitChar(n % 10)];
      assert s[..|s| - 1] == p;
      s
  }

  /** `${i}` for an integer `i`: a minus sign for negatives, then the digits. */
  function IntToString(i: int): (s: string)
    ensures ParseInt(s) == Some(i)
    ensures forall k :: 0 <= k < |s| ==> IsDigit(s[k]) || s[k] == '-'
  {
    if i < 0 then
      var d := NatToString(-i);
      assert ("-" + d)[1..] == d;
      "-" + d
    else NatToString(i)
  }

  /** Inverse of `IntToString`; `None` for text that is not a rendered integer. */
  function ParseInt(s: string): Option<int> {
    if s != [] && s[0] == '-' && AllDigits(s[1..]) then Some(0 - ParseNat(s[1..]) as int)
    else if s != [] && AllDigits(s) then Some(ParseNat(s))
    else None
  }

  /** Distinct integers render as distinct strings. */
  lemma IntToStringInjective(a: int, b: int)
    ensures IntToString(a) == IntToString(b) <==> a == b
  {
    if IntToString(a) == IntToString(b) {
      assert Some(a) == ParseInt(IntToString(a)) == ParseInt(IntToString(b)) == Some(b);
    }
  }

  /** A rendering never contains a character other than digits and `-`. */
  lemma NotInRendering(i: int, c: char)
    requires !IsDigit(c) && c != '-'
    ensures c !in IntToString(i)
  {
  }
}

=== FILE: doors.dfy ===
/** Doors: one object per wall segment that has a door interval. A door's
    openness lives in the wall layer's door states; the door adds the tiles
    it occupies, the tiles from which it can be operated, and the rule that
    it will not close on a player standing in the doorway. */
module Doors {
  import opened Common
  import opened Grid
  import opened Walls
  import Decimal

  datatype Door = Door(id: string, seg: Segment, axis: Axis)

  /** The id `door_v_<n>` or `door_h_<n>`. */
  function DoorId(axis: Axis, n: nat): string {
    (if axis == V then "door_v_" else "door_h_") + Decimal.IntToString(n)
  }

  lemma DoorIdInjective(a1: Axis, n1: nat, a2: Axis, n2: nat)
    ensures DoorId(a1, n1) == DoorId(a2, n2) <==> a1 == a2 && n1 == n2
  {
    if DoorId(a1, n1) == DoorId(a2, n2) {
      assert DoorId(a1, n1)[5] == (if a1 == V then 'v' else 'h');
      assert DoorId(a2, n2)[5] == (if a2 == V then 'v' else 'h');
      assert DoorId(a1, n1)[7..] == Decimal.IntToString(n1);
      assert DoorId(a2, n2)[7..] == Decimal.IntToString(n2);
      Decimal.IntToStringInjective(n1, n2);
    }
  }

  /** The tiles the door occupies: its interval on the wall line. */
  function DoorTiles(axis: Axis, line: int, span: Span): (r: set<Tile>)
    ensures forall t :: t in r <==> Across(t, axis) == line && span.lo <= Along(t, axis) <= span.hi
  {
    Run(axis == V, line, span.lo, span.hi)
  }

  /** The coordinate across the wall: the column of a vertical wall, the row of a horizontal one. */
  function Across(t: Tile, axis: Axis): int {
    if axis == V then t.x else t.y
  }

  /** The tiles from which the door is operated: both sides of its
      interval, except that a vertical door in column 0 has no left side. */
  function Zone(axis: Axis, line: int, span: Span): (r: set<Tile>)
    ensures forall t :: t in r <==>
      && span.lo <= Along(t, axis) <= span.hi
      && (Across(t, axis) == line + 1 || (Across(t, axis) == line - 1 && (axis == H || line > 0)))
    ensures r == {} <==> span.lo > span.hi
  {
    var near := Run(axis == V, line + 1, span.lo, span.hi);
    var far := if axis == V && line <= 0 then {} else Run(axis == V, line - 1, span.lo, span.hi);
    var r := far + near;
    assert span.lo <= span.hi ==> (if axis == V then Tile(line + 1, span.lo) else Tile(span.lo, line + 1)) in r;
    r
  }

  /** A player operating a door never stands on it. */
  lemma ZoneAvoidsDoorTiles(axis: Axis, line: int, span: Span)
    ensures Zone(axis, line, span) !! DoorTiles(axis, line, span)
  {
  }

  /** `isOpen`: exactly the wall layer's answer for this door. */
  function IsOpen(states: DoorStates, d: Door): (r: bool)
    requires d.seg.door.Some?
    ensures IsDoorOpen(states, d.seg, d.axis) == Some(r)
    ensures r == DoorOpen(states, d.seg, d.axis)
  {
    OpenAt(states, Key(d))
  }

  function Key(d: Door): string
    requires d.seg.door.Some?
  {
    DoorKey(d.axis, d.seg.line, d.seg.door.value)
  }

  /** `interactionZone` of a door object. */
  function InteractionZone(d: Door): set<Tile>
    requires d.seg.door.Some?
  {
    Zone(d.axis, d.seg.line, d.seg.door.value)
  }

  /** `doorTiles` of a door object. */
  function Tiles(d: Door): set<Tile>
    requires d.seg.door.Some?
  {
    DoorTiles(d.axis, d.seg.line, d.seg.door.value)
  }

  /** Closing the door of a segment adds exactly the door tiles that lie
      on the segment to its standing wall. */
  lemma ClosingAddsTheDoorTiles(states: DoorStates, d: Door)
    requires d.seg.door.Some?
    ensures var closed := states[Key(d) := false];
      WallTiles(closed, [d.seg], d.axis) == WallTiles(states, [d.seg], d.axis) + (Tiles(d) * SegmentTiles(d.seg, d.axis))
  {
    var closed := states[Key(d) := false];
    assert !DoorOpen(closed, d.seg, d.axis);
    assert WallTiles(closed, [d.seg], d.axis) == SegmentTiles(d.seg, d.axis);
    forall t | t in SegmentTiles(d.seg, d.axis)
      ensures t in WallTiles(states, [d.seg], d.axis) || t in Tiles(d)
    {
      if !(t in WallTiles(states, [d.seg], d.axis)) {
        assert InDoor(d.seg, Along(t, d.axis));
      }
    }
  }

  /** `canClose`: the player is not standing in the doorway. */
  predicate CanClose(d: Door, gx: int, gy: int)
    requires d.seg.door.Some?
  {
    Tile(gx, gy) !in Tiles(d)
  }

  /** The new door states and whether the collider callback fired. */
  datatype Change = Change(states: DoorStates, notified: bool)

  /** `open`: acts only on a door recorded as closed. */
  function Open(states: DoorStates, d: Door): (r: Change)
    requires d.seg.door.Some?
    ensures IsOpen(r.states, d)
    ensures r.notified <==> !IsOpen(states, d)
    ensures !r.notified ==> r.states == states
    ensures forall k :: k != Key(d) ==> (k in r.states <==> k in states) && (k in states ==> r.states[k] == states[k])
  {
    if Key(d) in states && !states[Key(d)] then Change(states[Key(d) := true], true) else Change(states, false)
  }

  /** `close`: acts only on a door not already recorded as closed. */
  function Close(states: DoorStates, d: Door): (r: Change)
    requires d.seg.door.Some?
    ensures !IsOpen(r.states, d)
    ensures r.notified <==> IsOpen(states, d)
    ensures !r.notified ==> r.states == states
    ensures forall k :: k != Key(d) ==> (k in r.states <==> k in states) && (k in states ==> r.states[k] == states[k])
  {
    if !(Key(d) in states && !states[Key(d)]) then Change(states[Key(d) := false], true) else Change(states, false)
  }

  datatype ToggleResult = ToggleResult(states: DoorStates, toggled: bool, blockedReason: Option<string>, notified: bool)

  const StepAway := "Step away to close door"

  /** `toggle`: flips the door unless that would close it on the player. */
  function Toggle(states: DoorStates, d: Door, gx: int, gy: int): (r: ToggleResult)
    requires d.seg.door.Some?
    ensures IsOpen(states, d) && !CanClose(d, gx, gy) <==> !r.toggled
    ensures !r.toggled ==> r.states == states && r.blockedReason == Some(StepAway) && !r.notified
    ensures r.toggled ==> IsOpen(r.states, d) == !IsOpen(states, d) && r.blockedReason.None? && r.notified
  {
    if IsOpen(states, d) then
      if !CanClose(d, gx, gy) then ToggleResult(states, false, Some(StepAway), false)
      else var c := Close(states, d); ToggleResult(c.states, true, None, c.notified)
    else
      var c := Open(states, d); ToggleResult(c.states, true, None, c.notified)
  }

  /** A toggle never leaves the door shut with the player inside it. */
  lemma ToggleNeverTraps(states: DoorStates, d: Door, gx: int, gy: int)
    requires d.seg.door.Some?
    ensures var r := Toggle(states, d, gx, gy);
      !IsOpen(r.states, d) ==> CanClose(d, gx, gy)
  {
  }

  /** `getSafeTileNearDoor`: beside the first door tile, on the left (or
      above) when that is not off the grid, else on the other side. */
  function SafeTile(d: Door): (t: Tile)
    requires d.seg.door.Some?
    ensures CanClose(d, t.x, t.y)
    ensures Along(t, d.axis) == d.seg.door.value.lo
    ensures Across(t, d.axis) == d.seg.line - 1 || Across(t, d.axis) == d.seg.line + 1
  {
    var line := d.seg.line;
    var side := if line - 1 >= 0 then line - 1 else line + 1;
    if d.axis == V then Tile(side, d.seg.door.value.lo) else Tile(d.seg.door.value.lo, side)
  }

  /** The safe tile is one of the tiles from which the door is operated. */
  lemma SafeTileInZone(d: Door)
    requires d.seg.door.Some? && d.seg.door.value.lo <= d.seg.door.value.hi
    ensures SafeTile(d) in InteractionZone(d)
  {
  }

  /** The segments of `segs` that have a door, in order. */
  function WithDoor(segs: seq<Segment>): (r: seq<Segment>)
    ensures |r| <= |segs|
    ensures forall i :: 0 <= i < |r| ==> r[i].door.Some?
  {
    if segs == [] then []
    else if segs[0].door.None? then WithDoor(segs[1..])
    else [segs[0]] + WithDoor(segs[1..])
  }

  /** `WithDoor` keeps exactly the segments that have a door. */
  lemma {:induction false} WithDoorFilters(segs: seq<Segment>)
    ensures forall s :: s in WithDoor(segs) <==> s in segs && s.door.Some?
  {
    if segs != [] {
      WithDoorFilters(segs[1..]);
      assert forall s :: s in segs <==> s == segs[0] || s in segs[1..];
    }
  }

  /** One door per door-holding segment of `segs`, numbered from `start`. */
  function DoorsOf(segs: seq<Segment>, axis: Axis, start: nat): (r: seq<Door>)
    ensures |r| == |WithDoor(segs)|
  {
    var ds := WithDoor(segs);
    seq(|ds|, i requires 0 <= i < |ds| => Door(DoorId(axis, start + i), ds[i], axis))
  }

  /** `buildDoors`: vertical doors first, then horizontal, one counter for both. */
  function BuildDoors(ws: WallSegments): (r: seq<Door>)
    ensures |r| == |WithDoor(ws.vertical)| + |WithDoor(ws.horizontal)|
  {
    var vs := DoorsOf(ws.vertical, V, 0);
    var hs := DoorsOf(ws.horizontal, H, |vs|);
    seq(|vs| + |hs|, k requires 0 <= k < |vs| + |hs| => if k < |vs| then vs[k] else hs[k - |vs|])
  }

  /** The door at position `i`: numbered `i` whatever its axis, vertical
      exactly for the positions of the vertical doors, and built from the
      matching door-holding segment. */
  lemma BuildDoorsAt(ws: WallSegments, i: int)
    requires 0 <= i < |BuildDoors(ws)|
    ensures var d := BuildDoors(ws)[i]; var nv := |WithDoor(ws.vertical)|;
      && d.id == DoorId(d.axis, i) && d.seg.door.Some?
      && (d.axis == V <==> i < nv)
      && d.seg == (if i < nv then WithDoor(ws.vertical)[i] else WithDoor(ws.horizontal)[i - nv])
  {
    var nv := |WithDoor(ws.vertical)|;
    if i < nv {
      assert BuildDoors(ws)[i] == Door(DoorId(V, i), WithDoor(ws.vertical)[i], V);
    } else {
      assert BuildDoors(ws)[i] == Door(DoorId(H, i), WithDoor(ws.horizontal)[i - nv], H);
    }
  }

  /** No two doors share an id. */
  lemma DoorIdsUnique(ws: WallSegments, i: int, j: int)
    requires 0 <= i < j < |BuildDoors(ws)|
    ensures BuildDoors(ws)[i].id != BuildDoors(ws)[j].id
  {
    BuildDoorsAt(ws, i);
    BuildDoorsAt(ws, j);
    DoorIdInjective(BuildDoors(ws)[i].axis, i, BuildDoors(ws)[j].axis, j);
  }

  lemma {:induction false} AllWithDoor(segs: seq<Segment>)
    requires AllHaveDoors(segs)
    ensures WithDoor(segs) == segs
  {
    if segs != [] {
      assert AllHaveDoors(segs[1..]) by {
        forall i | 0 <= i < |segs[1..]| ensures segs[1..][i].door.Some? {
          assert segs[1..][i] == segs[i + 1];
        }
      }
      AllWithDoor(segs[1..]);
      assert segs == [segs[0]] + segs[1..];
    }
  }

  /** The shipped table yields eight doors, one per segment. */
  lemma ShippedDoors()
    ensures |BuildDoors(RoomWalls)| == 8
  {
    ShippedSegmentsHaveDoors();
    AllWithDoor(RoomWalls.vertical);
    AllWithDoor(RoomWalls.horizontal);
  }
}

=== FILE: focus.dfy ===
/** The shared focus (pomodoro) timer of a room.

    The relay keeps one countdown per room in the store and one interval
    loop per room in a process-wide registry (`timers`). Every loop tick
    decrements the stored countdown while it runs, broadcasts it, and on
    reaching zero deletes the state, broadcasts completion and records a
    finished session. A paused timer keeps its loop; the ticks skip it. */
module Focus {
  import opened Common
  import opened RelayState

  const DefaultDuration := 1500
  const MinDuration := 60
  const MaxDuration := 7200
  /** Seconds of expiry the state keeps beyond its remaining time. */
  const Grace := 60
  /** Expiry of a paused timer's state. */
  const PausedTtl := 3600

  /** A completed session as recorded in the `sessions` table. */
  datatype Session = Session(roomId: RoomId, kind: string, duration: int)

  /** The effect of one interval tick. */
  datatype TickOutcome = TickOutcome(relay: Relay, emits: seq<Emit>, session: Option<Session>)

  /** `Math.min(Math.max(duration || 1500, 60), 7200)`; `None` stands for a
      missing duration. */
  function ClampDuration(duration: Option<int>): (d: int)
    ensures MinDuration <= d <= MaxDuration
    ensures (duration.None? || duration == Some(0)) <==> d == DefaultDuration && duration != Some(DefaultDuration)
    ensures duration.Some? && duration.value != 0 ==> d == Clamp(duration.value, MinDuration, MaxDuration)
  {
    var v := if duration.None? || duration.value == 0 then DefaultDuration else duration.value;
    Clamp(v, MinDuration, MaxDuration)
  }

  /** A stored countdown that the relay can produce: a clamped total and a
      positive remaining time not above it. */
  predicate WellFormed(f: FocusState) {
    MinDuration <= f.total <= MaxDuration && 1 <= f.remaining <= f.total
  }

  /** Exactly one loop is scheduled for every room in the registry, and none
      for any other room. */
  ghost predicate LoopsMatchTimers(s: Relay) {
    forall r :: s.loops[r] == (if r in s.timers then 1 else 0)
  }

  /** The focus invariant: loops agree with the registry, and a room with a
      stored countdown has a loop driving it and a well-formed countdown. */
  ghost predicate FocusInv(s: Relay) {
    && LoopsMatchTimers(s)
    && forall r :: RoomOf(s, r).focus.Some? ==> r in s.timers && WellFormed(RoomOf(s, r).focus.value)
  }

  /** Clears the loop of room `r` (if any) and drops it from the registry. */
  function StopLoop(s: Relay, r: RoomId): (s': Relay)
    ensures s'.rooms == s.rooms
    ensures s'.timers == s.timers - {r}
    ensures s'.loops[r] == (if s.loops[r] == 0 then 0 else s.loops[r] - 1)
    ensures forall q :: q != r ==> s'.loops[q] == s.loops[q]
  {
    s.(timers := s.timers - {r}, loops := s.loops - multiset{r})
  }

  /** `focus:start`: (re)starts the room's countdown with a fresh loop,
      clearing the loop it replaces. */
  function Start(s: Relay, c: Connection, duration: Option<int>): (st: Step)
    ensures st.conn == c && st.reply == NoReply
    ensures !InRoom(c) ==> st == Ignore(s, c)
    ensures InRoom(c) ==>
      var r := CurrentRoom(c);
      var d := ClampDuration(duration);
      && RoomOf(st.relay, r).focus == Some(FocusState(d, d, true))
      && RoomOf(st.relay, r).focusTtl == d + Grace
      && FocusOnly(RoomOf(s, r), RoomOf(st.relay, r))
      && r in st.relay.timers
      && st.relay.loops[r] == (if r in s.timers && s.loops[r] > 0 then s.loops[r] else s.loops[r] + 1)
      && st.emits == [Emit(All(r), FocusStarted(d, d))]
    ensures forall q :: !(InRoom(c) && q == CurrentRoom(c)) ==>
      RoomOf(st.relay, q) == RoomOf(s, q) && (q in st.relay.timers <==> q in s.timers) && st.relay.loops[q] == s.loops[q]
    ensures KeepsZones(s, st.relay)
  {
    if !InRoom(c) then Ignore(s, c)
    else
      var r := CurrentRoom(c);
      var d := ClampDuration(duration);
      var kept := if r in s.timers then s.loops - multiset{r} else s.loops;
      var room := RoomOf(s, r).(focus := Some(FocusState(d, d, true)), focusTtl := d + Grace);
      var s' := WithRoom(s, r, room).(timers := s.timers + {r}, loops := kept + multiset{r});
      Step(s', c, [Emit(All(r), FocusStarted(d, d))], NoReply)
  }

  /** One tick of the loop of room `r`. `sessionSaved` is the outcome of the
      session insert; a failed insert is only logged. */
  function Tick(s: Relay, r: RoomId, sessionSaved: bool): (o: TickOutcome)
    ensures forall q :: q != r ==> RoomOf(o.relay, q) == RoomOf(s, q) && (q in o.relay.timers <==> q in s.timers) && o.relay.loops[q] == s.loops[q]
    ensures FocusOnly(RoomOf(s, r), RoomOf(o.relay, r))
    ensures RoomOf(s, r).focus.None? ==> o == TickOutcome(StopLoop(s, r), [], None)
    ensures RoomOf(s, r).focus.Some? && !RoomOf(s, r).focus.value.running ==> o == TickOutcome(s, [], None)
    ensures RoomOf(s, r).focus.Some? && RoomOf(s, r).focus.value.running ==>
      var f := RoomOf(s, r).focus.value;
      if f.remaining <= 1 then
        && RoomOf(o.relay, r).focus.None?
        && r !in o.relay.timers
        && o.emits == [Emit(All(r), FocusCompleted(f.total))]
        && o.session == (if sessionSaved then Some(Session(r, "focus", f.total)) else None)
      else
        && RoomOf(o.relay, r).focus == Some(f.(remaining := f.remaining - 1))
        && RoomOf(o.relay, r).focusTtl == f.remaining - 1 + Grace
        && o.relay.timers == s.timers && o.relay.loops == s.loops
        && o.emits == [Emit(All(r), FocusTicked(f.remaining - 1))]
        && o.session.None?
    ensures KeepsZones(s, o.relay)
  {
    var room := RoomOf(s, r);
    if room.focus.None? then TickOutcome(StopLoop(s, r), [], None)
    else
      var f := room.focus.value;
      if !f.running then TickOutcome(s, [], None)
      else
        var remaining := f.remaining - 1;
        if remaining <= 0 then
          var s' := StopLoop(WithRoom(s, r, room.(focus := None)), r);
          TickOutcome(s', [Emit(All(r), FocusCompleted(f.total))],
                      if sessionSaved then Some(Session(r, "focus", f.total)) else None)
        else
          var s' := WithRoom(s, r, room.(focus := Some(f.(remaining := remaining)), focusTtl := remaining + Grace));
          TickOutcome(s', [Emit(All(r), FocusTicked(remaining))], None)
  }

  /** Shared shape of `focus:pause` and `focus:resume`: set the running flag
      of an existing countdown, refresh its expiry and broadcast. */
  function SetRunning(s: Relay, c: Connection, running: bool, ttl: int -> int, ev: int -> Event): (st: Step)
    ensures st.conn == c && st.reply == NoReply
    ensures st.relay.timers == s.timers && st.relay.loops == s.loops
    ensures forall q :: !(InRoom(c) && q == CurrentRoom(c)) ==> RoomOf(st.relay, q) == RoomOf(s, q)
    ensures InRoom(c) ==> FocusOnly(RoomOf(s, CurrentRoom(c)), RoomOf(st.relay, CurrentRoom(c)))
    ensures KeepsZones(s, st.relay)
  {
    if !InRoom(c) then Ignore(s, c)
    else
      var r := CurrentRoom(c);
      var room := RoomOf(s, r);
      if room.focus.None? then Ignore(s, c)
      else
        var f := room.focus.value.(running := running);
        Step(WithRoom(s, r, room.(focus := Some(f), focusTtl := ttl(f.remaining))), c, [Emit(All(r), ev(f.remaining))], NoReply)
  }

  /** `focus:pause`: stops the countdown without stopping its loop. */
  function Pause(s: Relay, c: Connection): (st: Step)
    ensures st.conn == c && st.reply == NoReply
    ensures st.relay.timers == s.timers && st.relay.loops == s.loops
    ensures !InRoom(c) || RoomOf(s, CurrentRoom(c)).focus.None? ==> st == Ignore(s, c)
    ensures InRoom(c) && RoomOf(s, CurrentRoom(c)).focus.Some? ==>
      var r := CurrentRoom(c);
      var f := RoomOf(s, r).focus.value;
      && RoomOf(st.relay, r).focus == Some(f.(running := false))
      && RoomOf(st.relay, r).focusTtl == PausedTtl
      && FocusOnly(RoomOf(s, r), RoomOf(st.relay, r))
      && st.emits == [Emit(All(r), FocusPaused(f.remaining))]
    ensures forall q :: !(InRoom(c) && q == CurrentRoom(c)) ==> RoomOf(st.relay, q) == RoomOf(s, q)
    ensures KeepsZones(s, st.relay)
  {
    SetRunning(s, c, false, _ => PausedTtl, n => FocusPaused(n))
  }

  /** `focus:resume`: lets the loop count down again. */
  function Resume(s: Relay, c: Connection): (st: Step)
    ensures st.conn == c && st.reply == NoReply
    ensures st.relay.timers == s.timers && st.relay.loops == s.loops
    ensures !InRoom(c) || RoomOf(s, CurrentRoom(c)).focus.None? ==> st == Ignore(s, c)
    ensures InRoom(c) && RoomOf(s, CurrentRoom(c)).focus.Some? ==>
      var r := CurrentRoom(c);
      var f := RoomOf(s, r).focus.value;
      && RoomOf(st.relay, r).focus == Some(f.(running := true))
      && RoomOf(st.relay, r).focusTtl == f.remaining + Grace
      && FocusOnly(RoomOf(s, r), RoomOf(st.relay, r))
      && st.emits == [Emit(All(r), FocusResumed(f.remaining))]
    ensures forall q :: !(InRoom(c) && q == CurrentRoom(c)) ==> RoomOf(st.relay, q) == RoomOf(s, q)
    ensures KeepsZones(s, st.relay)
  {
    SetRunning(s, c, true, n => n + Grace, n => FocusResumed(n))
  }

  /** `focus:cancel`: stops the loop, deletes the countdown and broadcasts,
      whether or not a countdown existed. */
  function Cancel(s: Relay, c: Connection): (st: Step)
    ensures st.conn == c && st.reply == NoReply
    ensures !InRoom(c) ==> st == Ignore(s, c)
    ensures InRoom(c) ==>
      var r := CurrentRoom(c);
      && RoomOf(st.relay, r).focus.None?
      && FocusOnly(RoomOf(s, r), RoomOf(st.relay, r))
      && r !in st.relay.timers
      && st.emits == [Emit(All(r), FocusCancelled)]
    ensures forall q :: !(InRoom(c) && q == CurrentRoom(c)) ==>
      RoomOf(st.relay, q) == RoomOf(s, q) && (q in st.relay.timers <==> q in s.timers) && st.relay.loops[q] == s.loops[q]
    ensures KeepsZones(s, st.relay)
  {
    if !InRoom(c) then Ignore(s, c)
    else
      var r := CurrentRoom(c);
      var s1 := if r in s.timers then StopLoop(s, r) else s;
      Step(WithRoom(s1, r, RoomOf(s1, r).(focus := None)), c, [Emit(All(r), FocusCancelled)], NoReply)
  }

  /** `focus:sync`: the stored countdown of the caller's room, or an error. */
  function Sync(s: Relay, c: Connection): (st: Step)
    ensures st.relay == s && st.conn == c && st.emits == []
    ensures !InRoom(c) <==> st.reply == ErrorReply("Not in a room")
    ensures InRoom(c) ==> st.reply == FocusSnapshot(RoomOf(s, CurrentRoom(c)).focus)
  {
    if !InRoom(c) then Step(s, c, [], ErrorReply("Not in a room"))
    else Step(s, c, [], FocusSnapshot(RoomOf(s, CurrentRoom(c)).focus))
  }

  // ----- The invariant is preserved by every focus operation -----

  lemma StartKeepsInv(s: Relay, c: Connection, duration: Option<int>)
    requires FocusInv(s)
    ensures FocusInv(Start(s, c, duration).relay)
  {
    var s' := Start(s, c, duration).relay;
    if InRoom(c) {
      var r := CurrentRoom(c);
      assert s'.loops[r] == 1;
    }
  }

  lemma TickKeepsInv(s: Relay, r: RoomId, sessionSaved: bool)
    requires FocusInv(s)
    ensures FocusInv(Tick(s, r, sessionSaved).relay)
  {
    var s' := Tick(s, r, sessionSaved).relay;
    if RoomOf(s, r).focus.None? && r in s.timers {
      assert s'.loops[r] == 0;
    }
  }

  lemma PauseKeepsInv(s: Relay, c: Connection)
    requires FocusInv(s)
    ensures FocusInv(Pause(s, c).relay)
  {
  }

  lemma ResumeKeepsInv(s: Relay, c: Connection)
    requires FocusInv(s)
    ensures FocusInv(Resume(s, c).relay)
  {
  }

  lemma CancelKeepsInv(s: Relay, c: Connection)
    requires FocusInv(s)
    ensures FocusInv(Cancel(s, c).relay)
  {
  }

  /** Restarting a running timer replaces its loop: under the invariant the
      room still has exactly one loop, counting down the new duration. */
  lemma RestartLeavesOneLoop(s: Relay, c: Connection, first: Option<int>, second: Option<int>)
    requires FocusInv(s) && InRoom(c)
    ensures var s2 := Start(Start(s, c, first).relay, c, second).relay;
      && s2.loops[CurrentRoom(c)] == 1
      && RoomOf(s2, CurrentRoom(c)).focus == Some(FocusState(ClampDuration(second), ClampDuration(second), true))
  {
    StartKeepsInv(s, c, first);
  }

  // ----- Countdown -----

  /** `n` consecutive ticks of room `r`, each with a successful session insert. */
  function RunTicks(s: Relay, r: RoomId, n: nat): (Relay, seq<Emit>)
    decreases n
  {
    if n == 0 then (s, [])
    else
      var before := RunTicks(s, r, n - 1);
      var o := Tick(before.0, r, true);
      (o.relay, before.1 + o.emits)
  }

  /** The broadcasts of the first `n` ticks of a countdown from `k`. */
  function TickEvents(r: RoomId, k: int, n: nat): seq<Emit> {
    seq(n, i => Emit(All(r), FocusTicked(k - 1 - i)))
  }

  /** While it runs, a countdown from `k` broadcasts `k-1, k-2, …` one tick at
      a time and keeps its total and its loop. */
  lemma {:induction false} CountsDown(s: Relay, r: RoomId, k: int, t: int, n: nat)
    requires RoomOf(s, r).focus == Some(FocusState(k, t, true))
    requires n < k
    ensures RoomOf(RunTicks(s, r, n).0, r).focus == Some(FocusState(k - n, t, true))
    ensures RunTicks(s, r, n).0.timers == s.timers && RunTicks(s, r, n).0.loops == s.loops
    ensures RunTicks(s, r, n).1 == TickEvents(r, k, n)
    decreases n
  {
    if n > 0 {
      CountsDown(s, r, k, t, n - 1);
      var before := RunTicks(s, r, n - 1);
      var o := Tick(before.0, r, true);
      TickOfRunning(before.0, r, k - n + 1, t);
      assert RunTicks(s, r, n) == (o.relay, before.1 + o.emits);
      assert before.1 + o.emits == TickEvents(r, k, n);
    }
  }

  /** One tick of a running countdown above one second. */
  lemma TickOfRunning(s: Relay, r: RoomId, k: int, t: int)
    requires RoomOf(s, r).focus == Some(FocusState(k, t, true)) && k > 1
    ensures RoomOf(Tick(s, r, true).relay, r).focus == Some(FocusState(k - 1, t, true))
    ensures Tick(s, r, true).relay.timers == s.timers && Tick(s, r, true).relay.loops == s.loops
    ensures Tick(s, r, true).emits == [Emit(All(r), FocusTicked(k - 1))]
  {
  }

  /** A running countdown from `k >= 1` completes on exactly its `k`-th tick:
      the state is gone, the loop is unregistered, and the last broadcast is
      the completion carrying the total. */
  lemma {:induction false} CompletesAfterRemaining(s: Relay, r: RoomId, k: int, t: int)
    requires RoomOf(s, r).focus == Some(FocusState(k, t, true))
    requires k >= 1
    ensures RoomOf(RunTicks(s, r, k).0, r).focus.None?
    ensures r !in RunTicks(s, r, k).0.timers
    ensures RunTicks(s, r, k).1 == TickEvents(r, k, k - 1) + [Emit(All(r), FocusCompleted(t))]
  {
    CountsDown(s, r, k, t, k - 1);
  }

  /** Ticks of a paused countdown change nothing and broadcast nothing. */
  lemma {:induction false} PausedIsFrozen(s: Relay, r: RoomId, n: nat)
    requires RoomOf(s, r).focus.Some? && !RoomOf(s, r).focus.value.running
    ensures RunTicks(s, r, n) == (s, [])
    decreases n
  {
    if n > 0 {
      PausedIsFrozen(s, r, n - 1);
      var before := RunTicks(s, r, n - 1);
      assert before == (s, []);
      var o := Tick(before.0, r, true);
      assert o == TickOutcome(s, [], None);
      assert RunTicks(s, r, n) == (o.relay, before.1 + o.emits);
      assert before.1 + o.emits == [];
    }
  }
}

=== FILE: game_config.dfy ===
/** The apartment as the client draws it: a 26 x 18 grid of 32-pixel tiles,
    its floor kinds, its furniture, which furniture can be walked over, and
    the five named zones. */
module GameConfig {
  import opened Grid
  import Zones

  const TileSize := 32
  const MapWidth := 26
  const MapHeight := 18

  /** Floor kinds as the floor table stores them. */
  const FloorWood := 0
  const FloorCarpet := 1
  const FloorTile := 2
  const FloorGrass := 3
  const FloorDark := 4

  /** Row-major floor table, one row per tile row. */
  const FloorMap: seq<seq<int>> := [
      [2, 2, 2, 2, 2, 0, 0, 1, 1, 1, 1, 1, 1, 1, 0, 0, 0, 0, 0, 3, 3, 3, 3, 3, 3, 0],
      [2, 2, 2, 2, 2, 0, 0, 1, 1, 1, 1, 1, 1, 1, 0, 0, 0, 0, 0, 3, 3, 3, 3, 3, 3, 0],
      [2, 2, 2, 2, 2, 0, 0, 1, 1, 1, 1, 1, 1, 1, 0, 0, 0, 0, 0, 3, 3, 3, 3, 3, 3, 0],
      [2, 2, 2, 2, 2, 0, 0, 1, 1, 1, 1, 1, 1, 1, 0, 0, 0, 0, 0, 3, 3, 3, 3, 3, 3, 0],
      [2, 2, 2, 2, 2, 0, 0, 1, 1, 1, 1, 1, 1, 1, 0, 0, 0, 0, 0, 3, 3, 3, 3, 3, 3, 0],
      [2, 2, 2, 2, 2, 0, 0, 1, 1, 1, 1, 1, 1, 1, 0, 0, 0, 0, 0, 0, 0, 0, 0, 0, 0, 0],
      [0, 0, 0, 0, 0, 0, 0, 0, 0, 0, 0, 0, 0, 0, 0, 0, 0, 0, 0, 0, 0, 0, 0, 0, 0, 0],
      [0, 0, 0, 0, 0, 0, 0, 0, 0, 0, 0, 0, 0, 0, 0, 0, 0, 0, 0, 0, 0, 0, 0, 0, 0, 0],
      [0, 0, 0, 0, 0, 0, 0, 0, 0, 0, 0, 0, 0, 0, 0, 0, 0, 0, 0, 0, 0, 0, 0, 0, 0, 0],
      [4, 4, 4, 4, 4, 0, 0, 0, 0, 0, 0, 0, 0, 0, 0, 0, 0, 0, 0, 0, 0, 0, 0, 0, 0, 0],
      [1, 1, 1, 1, 1, 1, 0, 0, 0, 0, 0, 0, 0, 0, 0, 0, 0, 0, 0, 0, 0, 0, 4, 4, 4, 4],
      [1, 1, 1, 1, 1, 1, 0, 0, 0, 0, 0, 0, 0, 0, 0, 0, 0, 0, 0, 0, 0, 0, 4, 4, 4, 4],
      [1, 1, 1, 1, 1, 1, 0, 0, 0, 0, 0, 0, 0, 0, 0, 0, 0, 0, 0, 0, 0, 0, 4, 4, 4, 4],
      [1, 1, 1, 1, 1, 1, 0, 0, 0, 0, 0, 0, 0, 0, 0, 0, 0, 0, 0, 0, 0, 0, 4, 4, 4, 4],
      [1, 1, 1, 1, 1, 1, 0, 0, 0, 0, 0, 0, 0, 0, 0, 0, 0, 0, 0, 0, 0, 0, 4, 4, 4, 4],
      [1, 1, 1, 1, 1, 1, 0, 0, 0, 0, 0, 0, 0, 0, 0, 0, 0, 0, 0, 0, 0, 0, 4, 4, 4, 4],
      [0, 0, 0, 0, 0, 0, 0, 0, 0, 0, 0, 0, 0, 0, 0, 0, 0, 0, 0, 0, 0, 0, 0, 0, 0, 0],
      [0, 0, 0, 0, 0, 0, 0, 0, 0, 0, 0, 0, 0, 0, 0, 0, 0, 0, 0, 0, 0, 0, 0, 0, 0, 0]
    ]

  /** A piece of furniture: its type name and its footprint in tiles. */
  datatype Furniture = Furniture(kind: string, x: int, y: int, w: int, h: int)

  /** `n || 1`: a zero (or missing) extent counts as one tile. */
  function OrOne(n: int): (r: int)
    ensures n != 0 ==> r == n
    ensures n == 0 ==> r == 1
  {
    if n == 0 then 1 else n
  }

  /** The tiles a piece of furniture covers. */
  function Footprint(f: Furniture): set<Tile> {
    Rect(f.x, f.y, OrOne(f.w), OrOne(f.h))
  }

  const FurnitureList: seq<Furniture> := [
      Furniture("kitchen_counter_h", 0, 0, 5, 1),
      Furniture("kitchen_counter_v", 0, 1, 1, 4),
      Furniture("kitchen_sink", 1, 0, 1, 1),
      Furniture("fridge", 4, 1, 1, 2),
      Furniture("kitchen_table", 1, 2, 2, 2),
      Furniture("chair", 1, 4, 1, 1),
      Furniture("chair_r", 3, 3, 1, 1),
      Furniture("tv_stand", 8, 0, 4, 1),
      Furniture("couch_l", 7, 3, 5, 2),
      Furniture("couch_side", 12, 2, 1, 3),
      Furniture("coffee_table", 9, 3, 2, 1),
      Furniture("rug", 8, 2, 5, 3),
      Furniture("lamp_floor", 7, 1, 1, 1),
      Furniture("plant_big", 13, 0, 1, 1),
      Furniture("balcony_plant", 19, 0, 1, 1),
      Furniture("balcony_plant_lg", 24, 0, 1, 1),
      Furniture("balcony_plant", 21, 2, 1, 1),
      Furniture("balcony_chair", 20, 1, 1, 1),
      Furniture("balcony_chair", 22, 1, 1, 1),
      Furniture("balcony_table", 21, 1, 1, 1),
      Furniture("stone_path", 20, 3, 3, 1),
      Furniture("bed_double", 0, 10, 3, 4),
      Furniture("nightstand", 3, 10, 1, 1),
      Furniture("nightstand", 3, 13, 1, 1),
      Furniture("wardrobe", 0, 9, 2, 1),
      Furniture("dresser", 4, 11, 1, 2),
      Furniture("rug_blue", 0, 13, 4, 2),
      Furniture("lamp_table", 3, 10, 1, 1),
      Furniture("desk_large", 22, 10, 4, 2),
      Furniture("office_chair", 23, 12, 1, 1),
      Furniture("monitor", 23, 10, 1, 1),
      Furniture("monitor", 24, 10, 1, 1),
      Furniture("bookshelf_large", 22, 14, 4, 2),
      Furniture("desk_plant", 25, 10, 1, 1),
      Furniture("speaker", 22, 10, 1, 1),
      Furniture("whiteboard", 22, 9, 4, 1)
    ]

  /** Furniture types the player walks over. */
  const PassableFurniture: set<string> := {
    "rug", "rug_blue", "stone_path",
    "chair", "chair_r", "balcony_chair", "office_chair",
    "lamp_table", "lamp_floor", "desk_plant", "kitchen_sink",
    "monitor", "speaker"
  }

  /** A named rectangle of the map; entering it is reported to the relay. */
  datatype ZoneRect = ZoneRect(id: string, x: int, y: int, width: int, height: int)

  const RoomZones: seq<ZoneRect> := [
      ZoneRect("kitchen", 0, 0, 5, 5),
      ZoneRect("lounge", 7, 0, 7, 6),
      ZoneRect("garden", 19, 0, 6, 5),
      ZoneRect("bedroom", 0, 9, 6, 7),
      ZoneRect("office", 22, 9, 4, 7)
    ]

  /** Half-open containment, as the client tests it. */
  predicate InZone(z: ZoneRect, t: Tile) {
    z.x <= t.x < z.x + z.width && z.y <= t.y < z.y + z.height
  }

  predicate InMap(t: Tile) {
    Within(t, MapWidth, MapHeight)
  }

  /** The floor table has 18 rows of 26 entries, each a floor kind. */
  lemma FloorMapShape()
    ensures |FloorMap| == MapHeight
    ensures forall y :: 0 <= y < |FloorMap| ==> |FloorMap[y]| == MapWidth
    ensures forall y, x :: 0 <= y < |FloorMap| && 0 <= x < |FloorMap[y]| ==> FloorWood <= FloorMap[y][x] <= FloorDark
  {
  }

  /** The client's zone names are exactly the names the relay accepts, in
      the same order, so every zone the client reports is accepted. */
  lemma ZoneIdsAreRelayZones()
    ensures |RoomZones| == |Zones.ValidZones|
    ensures forall i :: 0 <= i < |RoomZones| ==> RoomZones[i].id == Zones.ValidZones[i]
  {
  }

  /** Every zone lies inside the map and no two zones overlap, so a tile is
      in at most one zone. */
  lemma ZonesInsideAndDisjoint()
    ensures forall i, t :: 0 <= i < |RoomZones| && InZone(RoomZones[i], t) ==> InMap(t)
    ensures forall i, j, t :: 0 <= i < j < |RoomZones| && InZone(RoomZones[i], t) ==> !InZone(RoomZones[j], t)
  {
  }

  /** Every piece of furniture lies inside the map. */
  lemma FurnitureInsideMap()
    ensures forall i, t :: 0 <= i < |FurnitureList| && t in Footprint(FurnitureList[i]) ==> InMap(t)
  {
  }

  lemma PassableCount()
    ensures |PassableFurniture| == 13
  {
  }
}

=== FILE: grid.dfy ===
/** Tiles of the apartment grid. The client keys its tile sets by the
    string "x,y"; the model uses coordinate pairs and proves that the string
    form names each tile exactly once, so a set of keys and a set of tiles
    carry the same information. */
module Grid {
  import opened Common
  import Decimal

  datatype Tile = Tile(x: int, y: int)

  /** The "x,y" key of a tile. */
  function TileKey(t: Tile): (k: string)
    ensures ',' in k
  {
    Decimal.IntToString(t.x) + "," + Decimal.IntToString(t.y)
  }

  /** Two tiles share a key exactly when they are the same tile. */
  lemma TileKeyInjective(a: Tile, b: Tile)
    ensures TileKey(a) == TileKey(b) <==> a == b
  {
    if TileKey(a) == TileKey(b) {
      Decimal.NotInRendering(a.x, ',');
      Decimal.NotInRendering(b.x, ',');
      assert TileKey(a) == Decimal.IntToString(a.x) + [','] + Decimal.IntToString(a.y);
      assert TileKey(b) == Decimal.IntToString(b.x) + [','] + Decimal.IntToString(b.y);
      SplitUnique(Decimal.IntToString(a.x), Decimal.IntToString(a.y), Decimal.IntToString(b.x), Decimal.IntToString(b.y), ',');
      Decimal.IntToStringInjective(a.x, b.x);
      Decimal.IntToStringInjective(a.y, b.y);
    }
  }

  /** Chebyshev distance: the ring a tile lies on around a centre. */
  function Chebyshev(a: Tile, b: Tile): (d: nat)
    ensures d == 0 <==> a == b
    ensures Abs(a.x - b.x) <= d && Abs(a.y - b.y) <= d
    ensures d == Abs(a.x - b.x) || d == Abs(a.y - b.y)
  {
    Max(Abs(a.x - b.x), Abs(a.y - b.y))
  }

  function Abs(n: int): nat { if n < 0 then -n else n }

  /** Inside a `width` x `height` grid whose origin is (0, 0). */
  predicate Within(t: Tile, width: int, height: int) {
    0 <= t.x < width && 0 <= t.y < height
  }

  /** The tiles (line, lo..hi) of a vertical run or (lo..hi, line) of a horizontal one. */
  function Run(vertical: bool, line: int, lo: int, hi: int): (r: set<Tile>)
    ensures forall t :: t in r <==> if vertical then t.x == line && lo <= t.y <= hi else t.y == line && lo <= t.x <= hi
  {
    if vertical then set y | lo <= y <= hi :: Tile(line, y)
    else set x | lo <= x <= hi :: Tile(x, line)
  }

  /** The tiles of a `w` x `h` rectangle whose top-left tile is (x, y). */
  function Rect(x: int, y: int, w: int, h: int): (r: set<Tile>)
    ensures forall t :: t in r <==> x <= t.x < x + w && y <= t.y < y + h
  {
    set tx, ty | x <= tx < x + w && y <= ty < y + h :: Tile(tx, ty)
  }
}

=== FILE: interaction.dfy ===
/** The interaction layer of the client: find the object whose zone holds
    the player's tile, show its hint, and on the interact key either toggle
    a door or lock the avatar onto a seat or bed. Pressing the key while
    already sitting or sleeping is the state machine's business, not this
    layer's: here it only reports that movement stays locked. */
module Interaction {
  import opened Common
  import opened Grid
  import opened Walls
  import Doors
  import Registry
  import GameConfig

  /** Index of the first object whose zone holds `t`. */
  function FirstAt(reg: seq<Registry.Entry>, t: Tile): (r: Option<nat>)
    ensures r.None? <==> forall i :: 0 <= i < |reg| ==> t !in reg[i].zone
    ensures r.Some? ==> r.value < |reg| && t in reg[r.value].zone
    ensures r.Some? ==> forall i :: 0 <= i < r.value ==> t !in reg[i].zone
  {
    if reg == [] then None
    else if t in reg[0].zone then Some(0)
    else
      var rest := FirstAt(reg[1..], t);
      assert forall i :: 1 <= i < |reg| ==> reg[i] == reg[1..][i - 1];
      if rest.None? then None else Some(rest.value + 1)
  }

  /** `getObjectAt`: the first object in registry order whose zone holds the tile. */
  function ObjectAt(reg: seq<Registry.Entry>, t: Tile): (r: Option<Registry.Entry>)
    ensures r.None? <==> forall i :: 0 <= i < |reg| ==> t !in reg[i].zone
    ensures r.Some? ==>
      exists i :: (0 <= i < |reg| && reg[i] == r.value && t in reg[i].zone && forall j :: 0 <= j < i ==> t !in reg[j].zone)
  {
    var i := FirstAt(reg, t);
    if i.None? then None else Some(reg[i.value])
  }

  /** The recorded openness of the door an object stands for. */
  predicate DataOpen(states: DoorStates, d: Registry.DoorData) {
    OpenAt(states, DoorKey(d.axis, d.line, d.span))
  }

  /** The object is a door and a collision manager is there to operate it. */
  predicate Operated(e: Registry.Entry, hasManager: bool) {
    e.kind == Registry.DoorKind && e.door.Some? && hasManager
  }

  const CloseHint := "Press X to Close"

  /** `getHintText`: an operated door names what the key will do to it;
      every other object shows its fixed hint. */
  function HintText(states: DoorStates, e: Registry.Entry, hasManager: bool): (h: string)
    ensures Operated(e, hasManager) ==> (h == CloseHint <==> DataOpen(states, e.door.value))
    ensures Operated(e, hasManager) ==> h == CloseHint || h == Registry.OpenHint
    ensures !Operated(e, hasManager) ==> h == e.hint
  {
    if Operated(e, hasManager) then
      if DataOpen(states, e.door.value) then CloseHint else Registry.OpenHint
    else e.hint
  }

  /** What the key press started. */
  datatype Action = Idle | ToggledDoor | Sitting(id: string) | Sleeping(id: string)

  /** The result of one frame, with the new door states and the hint on screen. */
  datatype Outcome = Outcome(
    inZone: bool,
    obj: Option<Registry.Entry>,
    shouldLock: bool,
    position: Option<Tile>,
    hint: Option<string>,
    states: DoorStates,
    action: Action)

  /** Where a key press moves the avatar: the explicit snap tile, else the
      tile's own position entry, else the object's snap position. */
  function Target(e: Registry.Entry, t: Tile): Option<Tile> {
    if e.snap.Some? then Some(Tile(e.snap.value.x, e.snap.value.y))
    else if t in e.positions then Some(e.positions[t])
    else e.snapPosition
  }

  /** The hint shown for a text; an empty text shows none. */
  function Shown(text: string): Option<string> {
    if text == "" then None else Some(text)
  }

  /** `update` for one frame at tile `t`. */
  function Update(reg: seq<Registry.Entry>, states: DoorStates, hasManager: bool,
                  interacting: bool, keyDown: bool, t: Tile): (o: Outcome)
    ensures interacting ==> o.shouldLock && !o.inZone && o.obj.None? && o.hint.None? && o.states == states
    ensures !interacting ==> (o.inZone <==> exists i :: 0 <= i < |reg| && t in reg[i].zone)
    ensures !interacting ==> o.obj == ObjectAt(reg, t)
    ensures o.shouldLock <==> interacting || o.position.Some?
    ensures o.position.Some? ==> keyDown && o.obj.Some? && o.position == Target(o.obj.value, t)
    ensures o.hint.Some? ==> o.obj.Some? && o.hint.value == HintText(states, o.obj.value, hasManager)
    ensures o.action == ToggledDoor <==> !interacting && keyDown && o.obj.Some? && Operated(o.obj.value, hasManager)
    ensures o.action != ToggledDoor ==> o.states == states
    ensures o.action == ToggledDoor ==>
      var d := o.obj.value.door.value;
      && DataOpen(o.states, d) == !DataOpen(states, d)
      && forall k :: k != DoorKey(d.axis, d.line, d.span) ==>
           (k in o.states <==> k in states) && (k in states ==> o.states[k] == states[k])
    ensures o.action.Sitting? ==> o.position.Some? && o.obj.value.kind == Registry.Sit && o.action.id == o.obj.value.id
    ensures o.action.Sleeping? ==> o.position.Some? && o.obj.value.kind == Registry.Sleep && o.action.id == o.obj.value.id
  {
    var found := ObjectAt(reg, t);
    if interacting then Outcome(false, None, true, None, None, states, Idle)
    else if found.None? then Outcome(false, None, false, None, None, states, Idle)
    else
      var e := found.value;
      var hint := Shown(HintText(states, e, hasManager));
      if !keyDown then Outcome(true, found, false, None, hint, states, Idle)
      else if Operated(e, hasManager) then
        var d := e.door.value;
        Outcome(true, found, false, None, hint, Flip(states, DoorKey(d.axis, d.line, d.span)).states, ToggledDoor)
      else
        var p := Target(e, t);
        if p.None? then Outcome(true, found, false, None, hint, states, Idle)
        else
          var action := if e.kind == Registry.Sit then Sitting(e.id)
                        else if e.kind == Registry.Sleep then Sleeping(e.id) else Idle;
          Outcome(true, found, true, p, hint, states, action)
  }

  /** After a press toggles a door, the hint of that door offers the
      opposite action. */
  lemma HintFlipsAfterToggle(reg: seq<Registry.Entry>, states: DoorStates, t: Tile)
    ensures var o := Update(reg, states, true, false, true, t);
      o.action == ToggledDoor ==>
        (HintText(o.states, o.obj.value, true) == CloseHint <==> HintText(states, o.obj.value, true) == Registry.OpenHint)
  {
  }

  /** Two presses on the same tile restore the openness of every door. */
  lemma PressTwiceRestores(reg: seq<Registry.Entry>, states: DoorStates, t: Tile)
    ensures var once := Update(reg, states, true, false, true, t).states;
      forall k :: OpenAt(Update(reg, once, true, false, true, t).states, k) == OpenAt(states, k)
  {
    var o1 := Update(reg, states, true, false, true, t);
    var o2 := Update(reg, o1.states, true, false, true, t);
    assert o2.obj == o1.obj;
  }

  /** Without the key nothing changes and nothing locks, unless the avatar
      is already sitting or sleeping. */
  lemma NoKeyNoChange(reg: seq<Registry.Entry>, states: DoorStates, hasManager: bool, interacting: bool, t: Tile)
    ensures var o := Update(reg, states, hasManager, interacting, false, t);
      o.states == states && o.action == Idle && (o.shouldLock <==> interacting)
  {
  }

  /** The registry object found at `t` in the built registry. */
  lemma FoundInRegistry(ws: WallSegments, fs: seq<GameConfig.Furniture>, t: Tile) returns (i: nat)
    requires ObjectAt(Registry.BuildObjectRegistry(ws, fs), t).Some?
    ensures i < |Registry.BuildObjectRegistry(ws, fs)|
    ensures ObjectAt(Registry.BuildObjectRegistry(ws, fs), t).value == Registry.BuildObjectRegistry(ws, fs)[i]
    ensures t in Registry.BuildObjectRegistry(ws, fs)[i].zone
  {
    i := FirstAt(Registry.BuildObjectRegistry(ws, fs), t).value;
  }

  /** The door found at the player's tile has the player beside it, never in it. */
  lemma DoorFoundBesideIt(ws: WallSegments, fs: seq<GameConfig.Furniture>, t: Tile)
    requires ObjectAt(Registry.BuildObjectRegistry(ws, fs), t).Some?
    requires ObjectAt(Registry.BuildObjectRegistry(ws, fs), t).value.kind == Registry.DoorKind
    ensures var d := ObjectAt(Registry.BuildObjectRegistry(ws, fs), t).value.door;
      && d.Some?
      && t !in Doors.DoorTiles(d.value.axis, d.value.line, d.value.span)
      && Doors.Across(t, d.value.axis) != d.value.line
  {
    var i := FoundInRegistry(ws, fs, t);
    Registry.DoorsFirst(ws, fs, i);
    var e := Registry.DoorRegistry(ws)[i];
    assert Registry.DoorObject(e, i);
    Doors.ZoneAvoidsDoorTiles(e.door.value.axis, e.door.value.line, e.door.value.span);
  }

  /** Pressing the key at a door of the built registry never turns the
      player's own tile into a wall tile, although this path skips the
      door's own `canClose` check: the player always stands beside the
      door line, and a toggle changes wall tiles on that line only. */
  lemma PressNeverWallsInPlayer(ws: WallSegments, fs: seq<GameConfig.Furniture>, states: DoorStates, t: Tile)
    ensures var o := Update(Registry.BuildObjectRegistry(ws, fs), states, true, false, true, t);
      && (t in BuildWallSets(o.states, ws).v ==> t in BuildWallSets(states, ws).v)
      && (t in BuildWallSets(o.states, ws).h ==> t in BuildWallSets(states, ws).h)
  {
    var reg := Registry.BuildObjectRegistry(ws, fs);
    var o := Update(reg, states, true, false, true, t);
    if o.action == ToggledDoor {
      DoorFoundBesideIt(ws, fs, t);
      ToggleBesideLine(states, ws, o.obj.value.door.value, t);
    }
  }

  /** Toggling a door leaves alone whether a tile off its line is a wall tile. */
  lemma ToggleBesideLine(states: DoorStates, ws: WallSegments, d: Registry.DoorData, t: Tile)
    requires Doors.Across(t, d.axis) != d.line
    ensures var after := Flip(states, DoorKey(d.axis, d.line, d.span)).states;
      && (t in BuildWallSets(after, ws).v <==> t in BuildWallSets(states, ws).v)
      && (t in BuildWallSets(after, ws).h <==> t in BuildWallSets(states, ws).h)
  {
    var key := DoorKey(d.axis, d.line, d.span);
    var other := if d.axis == V then H else V;
    var segs := if d.axis == V then ws.vertical else ws.horizontal;
    var otherSegs := if d.axis == V then ws.horizontal else ws.vertical;
    if OpenAt(states, key) {
      WallsAfterClose(states, segs, otherSegs, d.axis, other, d.line, d.span, t);
    } else {
      var openStates := states[key := true];
      assert openStates[key := false] == states;
      WallsAfterClose(openStates, segs, otherSegs, d.axis, other, d.line, d.span, t);
    }
  }

  /** Closing a door can add a tile beside the door line to neither axis'
      wall set, and can only add tiles. */
  lemma WallsAfterClose(states: DoorStates, segs: seq<Segment>, otherSegs: seq<Segment>,
                        axis: Axis, other: Axis, line: int, span: Span, t: Tile)
    requires axis != other && Doors.Across(t, axis) != line
    ensures var closed := states[DoorKey(axis, line, span) := false];
      && WallTiles(states, segs, axis) <= WallTiles(closed, segs, axis)
      && (t in WallTiles(closed, segs, axis) <==> t in WallTiles(states, segs, axis))
      && WallTiles(closed, otherSegs, other) == WallTiles(states, otherSegs, other)
  {
    CloseAddsOnlyDoorTiles(states, segs, axis, line, span);
    CloseLeavesOtherAxis(states, otherSegs, axis, other, line, span);
  }

  /** A key press on a seat or bed of the built registry locks the avatar
      and moves it to the bed's snap tile or, for a seat, to the very tile
      it stands on, starting the matching state. */
  lemma FurniturePress(ws: WallSegments, fs: seq<GameConfig.Furniture>, states: DoorStates, hasManager: bool, t: Tile)
    requires ObjectAt(Registry.BuildObjectRegistry(ws, fs), t).Some?
    requires ObjectAt(Registry.BuildObjectRegistry(ws, fs), t).value.kind != Registry.DoorKind
    ensures var o := Update(Registry.BuildObjectRegistry(ws, fs), states, hasManager, false, true, t);
      var e := o.obj.value;
      && o.shouldLock && o.states == states
      && (e.furnitureType in Registry.InteractionSnap ==> o.position == Some(Tile(2, 14)))
      && (e.furnitureType !in Registry.InteractionSnap ==> o.position == Some(t))
      && (e.kind == Registry.Sit ==> o.action == Sitting(e.id))
      && (e.kind == Registry.Sleep ==> o.action == Sleeping(e.id))
  {
    var i := FoundInRegistry(ws, fs, t);
    Registry.DoorsFirst(ws, fs, i);
    var nd := |Registry.DoorRegistry(ws)|;
    var f := Registry.Interactive(fs)[i - nd];
    assert Registry.BuildObjectRegistry(ws, fs)[nd + (i - nd)] == Registry.FurnitureEntry(f, i - nd);
    Registry.FurnitureEntryShape(f, i - nd);
  }

  /** Without a collision manager a door of the built registry is inert:
      it has neither snap tile nor positions, so the press does nothing. */
  lemma UnmanagedDoorIsInert(ws: WallSegments, fs: seq<GameConfig.Furniture>, states: DoorStates, t: Tile)
    requires ObjectAt(Registry.BuildObjectRegistry(ws, fs), t).Some?
    requires ObjectAt(Registry.BuildObjectRegistry(ws, fs), t).value.kind == Registry.DoorKind
    ensures var o := Update(Registry.BuildObjectRegistry(ws, fs), states, false, false, true, t);
      o.inZone && !o.shouldLock && o.states == states && o.action == Idle && o.hint == Some(Registry.OpenHint)
  {
    var i := FoundInRegistry(ws, fs, t);
    Registry.DoorsFirst(ws, fs, i);
    assert Registry.DoorObject(Registry.DoorRegistry(ws)[i], i);
  }
}

=== FILE: movement.dfy ===
/** Presence: each room keeps a hash from user to that user's last reported
    tile and facing. A move overwrites the sender's entry, refreshes a short
    expiry so idle entries vanish, and is relayed to the other members. */
module Movement {
  import opened Common
  import opened RelayState

  /** Expiry (seconds) refreshed on the presence hash by every move. */
  const PositionTtl := 60

  /** A payload field as received: a number, or anything else
      (missing, a string, an object). */
  datatype JsValue = Num(n: int) | NotNumber

  /** `direction ?? 'down'`: only a missing direction falls back; an empty
      one is kept. */
  function Facing(direction: Option<string>): (d: string)
    ensures direction.Some? ==> d == direction.value
    ensures direction.None? ==> d == "down"
  {
    if direction.None? then "down" else direction.value
  }

  /** `move`: records and relays the sender's position when both coordinates are numbers. */
  function Move(s: Relay, c: Connection, x: JsValue, y: JsValue, direction: Option<string>): (st: Step)
    ensures st.conn == c && st.reply == NoReply
    ensures st.relay.timers == s.timers && st.relay.loops == s.loops
    ensures !InRoom(c) || !x.Num? || !y.Num? ==> st == Ignore(s, c)
    ensures InRoom(c) && x.Num? && y.Num? ==>
      var r := CurrentRoom(c);
      var p := Position(c.user.id, c.user.name, x.n, y.n, Facing(direction));
      && RoomOf(st.relay, r).positions == RoomOf(s, r).positions[c.user.id := p]
      && RoomOf(st.relay, r).positionsTtl == PositionTtl
      && PositionsOnly(RoomOf(s, r), RoomOf(st.relay, r))
      && st.emits == [Emit(Others(r, c.sid), AvatarMove(p.userId, p.name, p.x, p.y, p.direction))]
    ensures forall q :: !(InRoom(c) && q == CurrentRoom(c)) ==> RoomOf(st.relay, q) == RoomOf(s, q)
    ensures KeepsFocus(s, st.relay) && KeepsZones(s, st.relay)
  {
    if !InRoom(c) || !x.Num? || !y.Num? then Ignore(s, c)
    else
      var r := CurrentRoom(c);
      var room := RoomOf(s, r);
      var p := Position(c.user.id, c.user.name, x.n, y.n, Facing(direction));
      Step(WithRoom(s, r, room.(positions := room.positions[c.user.id := p], positionsTtl := PositionTtl)), c,
           [Emit(Others(r, c.sid), AvatarMove(p.userId, p.name, p.x, p.y, p.direction))], NoReply)
  }

  /** The sender never receives its own move, and the broadcast carries
      exactly the stored entry. */
  lemma MoveIsNotEchoed(s: Relay, c: Connection, x: int, y: int, direction: Option<string>)
    requires InRoom(c)
    ensures var st := Move(s, c, Num(x), Num(y), direction);
      var p := RoomOf(st.relay, CurrentRoom(c)).positions[c.user.id];
      && |st.emits| == 1 && !Receives(c, st.emits[0])
      && st.emits[0].event == AvatarMove(p.userId, p.name, p.x, p.y, p.direction)
  {
    var st := Move(s, c, Num(x), Num(y), direction);
    OthersNeverEcho(c, st.emits[0]);
  }

  /** A later move of the same user replaces the earlier entry entirely. */
  lemma LastMoveWins(s: Relay, c: Connection, x1: int, y1: int, d1: Option<string>, x2: int, y2: int, d2: Option<string>)
    requires InRoom(c)
    ensures var r := CurrentRoom(c);
      RoomOf(Move(Move(s, c, Num(x1), Num(y1), d1).relay, c, Num(x2), Num(y2), d2).relay, r).positions
        == RoomOf(Move(s, c, Num(x2), Num(y2), d2).relay, r).positions
  {
  }
}

=== FILE: registry.dfy ===
/** The interaction objects of the apartment: every door, then every piece
    of furniture one can sit or sleep on. Each object has the tiles from
    which it is used, and the furniture ones a tile the avatar moves to. */
module Registry {
  import opened Common
  import opened Grid
  import opened Walls
  import Doors
  import GameConfig
  import Decimal

  datatype Kind = Sit | Sleep | DoorKind

  /** An explicit snap tile, with the depth offset and facing used there. */
  datatype Snap = Snap(x: int, y: int, depthOffset: int, direction: string)

  /** The wall-layer identity of a door object. */
  datatype DoorData = DoorData(axis: Axis, line: int, span: Span)

  datatype Entry = Entry(
    id: string,
    furnitureType: string,
    kind: Kind,
    zone: set<Tile>,
    snapPosition: Option<Tile>,
    animation: Option<string>,
    hint: string,
    door: Option<DoorData>,
    positions: map<Tile, Tile>,
    snap: Option<Snap>)

  const SitTypes: set<string> := {"chair", "chair_r", "balcony_chair", "office_chair", "couch_l", "couch_side"}
  const SleepTypes: set<string> := {"bed_double"}
  const InteractionSnap: map<string, Snap> := map["bed_double" := Snap(2, 14, 0, "right")]

  const OpenHint := "Press X to Open"

  function ObjId(n: nat): string {
    "obj_" + Decimal.IntToString(n)
  }

  /** A door segment has an object only if its zone is not empty, which
      is when its interval is not empty. */
  predicate Operable(seg: Segment, axis: Axis)
    ensures Operable(seg, axis) <==> seg.door.Some? && Doors.Zone(axis, seg.line, seg.door.value) != {}
  {
    seg.door.Some? && seg.door.value.lo <= seg.door.value.hi
  }

  /** The segments that get a door object, in order. */
  function OperableSegments(segs: seq<Segment>, axis: Axis): (r: seq<Segment>)
    ensures forall i :: 0 <= i < |r| ==> Operable(r[i], axis) && r[i] in segs
    ensures forall s :: s in segs && Operable(s, axis) ==> s in r
  {
    if segs == [] then []
    else
      var rest := OperableSegments(segs[1..], axis);
      assert forall s :: s in segs <==> s == segs[0] || s in segs[1..];
      if Operable(segs[0], axis) then [segs[0]] + rest else rest
  }

  /** The object of door segment `seg`. */
  function DoorEntry(axis: Axis, seg: Segment, n: nat): (e: Entry)
    requires Operable(seg, axis)
    ensures e.kind == DoorKind && e.id == Doors.DoorId(axis, n)
    ensures e.door == Some(DoorData(axis, seg.line, seg.door.value))
    ensures e.zone == Doors.Zone(axis, seg.line, seg.door.value) && e.zone != {}
    ensures e.snapPosition.None? && e.snap.None? && e.positions == map[] && e.hint == OpenHint
  {
    Entry(Doors.DoorId(axis, n), "door", DoorKind, Doors.Zone(axis, seg.line, seg.door.value), None, None,
          OpenHint, Some(DoorData(axis, seg.line, seg.door.value)), map[], None)
  }

  /** The door objects of one axis, numbered from `start`. */
  function DoorEntries(segs: seq<Segment>, axis: Axis, start: nat): (r: seq<Entry>)
    ensures |r| == |OperableSegments(segs, axis)|
    ensures forall i :: 0 <= i < |r| ==> r[i] == DoorEntry(axis, OperableSegments(segs, axis)[i], start + i)
  {
    var ops := OperableSegments(segs, axis);
    seq(|ops|, i requires 0 <= i < |ops| => DoorEntry(axis, ops[i], start + i))
  }

  /** Entry `e` is the door object numbered `n`: a door whose zone is the
      door's interaction zone and whose id carries its axis and number. */
  predicate DoorObject(e: Entry, n: nat) {
    && e.kind == DoorKind && e.door.Some?
    && e.id == Doors.DoorId(e.door.value.axis, n)
    && e.zone == Doors.Zone(e.door.value.axis, e.door.value.line, e.door.value.span)
    && e.zone != {} && e.snapPosition.None? && e.positions == map[]
  }

  /** `buildDoorRegistry`: vertical doors, then horizontal, one counter. */
  function DoorRegistry(ws: WallSegments): (r: seq<Entry>)
    ensures |r| == |OperableSegments(ws.vertical, V)| + |OperableSegments(ws.horizontal, H)|
    ensures forall i :: 0 <= i < |r| ==> DoorObject(r[i], i)
    ensures forall i :: 0 <= i < |r| ==> r[i].door.Some? && (r[i].door.value.axis == V <==> i < |OperableSegments(ws.vertical, V)|)
  {
    var vs := DoorEntries(ws.vertical, V, 0);
    var hs := DoorEntries(ws.horizontal, H, |vs|);
    var r := vs + hs;
    forall i | 0 <= i < |r|
      ensures DoorObject(r[i], i) && (r[i].door.value.axis == V <==> i < |vs|)
    {
      if i < |vs| {
        assert r[i] == vs[i];
      } else {
        assert r[i] == hs[i - |vs|];
      }
    }
    r
  }

  /** The furniture that is registered, in order. */
  function Interactive(fs: seq<GameConfig.Furniture>): (r: seq<GameConfig.Furniture>)
    ensures forall f :: f in r <==> f in fs && f.kind in SitTypes + SleepTypes
    ensures forall i :: 0 <= i < |r| ==> r[i].kind in SitTypes + SleepTypes
    ensures |r| <= |fs|
  {
    if fs == [] then []
    else
      var rest := Interactive(fs[1..]);
      assert forall f :: f in fs <==> f == fs[0] || f in fs[1..];
      if fs[0].kind in SitTypes + SleepTypes then [fs[0]] + rest else rest
  }

  /** The object for an interactive piece of furniture. */
  function FurnitureEntry(f: GameConfig.Furniture, n: nat): (e: Entry)
    requires f.kind in SitTypes + SleepTypes
    ensures e.id == ObjId(n) && e.furnitureType == f.kind && e.door.None?
    ensures (e.kind == Sit <==> f.kind in SitTypes) && (e.kind == Sleep <==> f.kind !in SitTypes)
    ensures e.snapPosition.Some?
  {
    var kind := if f.kind in SitTypes then Sit else Sleep;
    var zone := GameConfig.Footprint(f);
    var snap := if f.kind in InteractionSnap then Some(InteractionSnap[f.kind]) else None;
    var snapPosition := if snap.Some? then Tile(snap.value.x, snap.value.y) else Tile(f.x, f.y);
    Entry(ObjId(n), f.kind, kind, zone, Some(snapPosition),
          Some(if kind == Sit then "sitting" else "sleeping"),
          if kind == Sit then "Press X to Sit" else "Press X to Sleep",
          None, map t | t in zone :: t, snap)
  }

  /** A furniture object is used from every tile of its footprint (a zero
      extent counting as one), each tile mapping to itself; it snaps to its
      explicit snap tile when it has one and to its origin otherwise, and
      its hint and animation follow its kind. */
  lemma FurnitureEntryShape(f: GameConfig.Furniture, n: nat)
    requires f.kind in SitTypes + SleepTypes
    ensures var e := FurnitureEntry(f, n);
      && e.hint == (if e.kind == Sit then "Press X to Sit" else "Press X to Sleep")
      && e.animation == Some(if e.kind == Sit then "sitting" else "sleeping")
      && (forall t :: t in e.zone <==>
            f.x <= t.x < f.x + GameConfig.OrOne(f.w) && f.y <= t.y < f.y + GameConfig.OrOne(f.h))
      && e.positions.Keys == e.zone && (forall t :: t in e.positions ==> e.positions[t] == t)
      && (f.kind in InteractionSnap ==>
            e.snap == Some(InteractionSnap[f.kind])
            && e.snapPosition.value == Tile(InteractionSnap[f.kind].x, InteractionSnap[f.kind].y))
      && (f.kind !in InteractionSnap ==> e.snap.None? && e.snapPosition.value == Tile(f.x, f.y))
  {
  }

  /** The furniture objects, numbered from `start`. */
  function FurnitureEntries(fs: seq<GameConfig.Furniture>, start: nat): (r: seq<Entry>)
    ensures |r| == |Interactive(fs)|
    ensures forall i :: 0 <= i < |r| ==> r[i] == FurnitureEntry(Interactive(fs)[i], start + i)
  {
    var items := Interactive(fs);
    seq(|items|, i requires 0 <= i < |items| => FurnitureEntry(items[i], start + i))
  }

  /** `buildObjectRegistry`: the doors first, then the furniture objects. */
  function BuildObjectRegistry(ws: WallSegments, fs: seq<GameConfig.Furniture>): (r: seq<Entry>)
    ensures |r| == |DoorRegistry(ws)| + |Interactive(fs)|
    ensures forall i :: 0 <= i < |DoorRegistry(ws)| ==> r[i] == DoorRegistry(ws)[i]
    ensures forall j :: 0 <= j < |Interactive(fs)| ==>
      r[|DoorRegistry(ws)| + j] == FurnitureEntry(Interactive(fs)[j], j)
  {
    var ds := DoorRegistry(ws);
    var fe := FurnitureEntries(fs, 0);
    seq(|ds| + |fe|, k requires 0 <= k < |ds| + |fe| => if k < |ds| then ds[k] else fe[k - |ds|])
  }

  /** Door objects come before every furniture object, and only they are doors. */
  lemma DoorsFirst(ws: WallSegments, fs: seq<GameConfig.Furniture>, i: int)
    requires 0 <= i < |BuildObjectRegistry(ws, fs)|
    ensures BuildObjectRegistry(ws, fs)[i].kind == DoorKind <==> i < |DoorRegistry(ws)|
    ensures BuildObjectRegistry(ws, fs)[i].door.Some? <==> i < |DoorRegistry(ws)|
  {
    var nd := |DoorRegistry(ws)|;
    if i >= nd {
      var j := i - nd;
      assert BuildObjectRegistry(ws, fs)[nd + j] == FurnitureEntry(Interactive(fs)[j], j);
    }
  }

  /** No two objects share an id. */
  lemma RegistryIdsUnique(ws: WallSegments, fs: seq<GameConfig.Furniture>, i: int, j: int)
    requires 0 <= i < j < |BuildObjectRegistry(ws, fs)|
    ensures BuildObjectRegistry(ws, fs)[i].id != BuildObjectRegistry(ws, fs)[j].id
  {
    var a := RegistryId(ws, fs, i);
    var b := RegistryId(ws, fs, j);
    NumberedIdInjective(|DoorRegistry(ws)|, i, a, j, b);
  }

  /** The id of the object at position `k` when the first `nd` objects are doors. */
  function NumberedId(nd: nat, k: nat, axis: Axis): string {
    if k < nd then Doors.DoorId(axis, k) else ObjId(k - nd)
  }

  lemma NumberedIdInjective(nd: nat, i: nat, a: Axis, j: nat, b: Axis)
    requires i < j
    ensures NumberedId(nd, i, a) != NumberedId(nd, j, b)
  {
    if j < nd {
      Doors.DoorIdInjective(a, i, b, j);
    } else if i < nd {
      DoorIdIsNotObjId(a, i, j - nd);
    } else {
      ObjIdInjective(i - nd, j - nd);
    }
  }

  /** Door objects are numbered `door_<axis>_<n>` by position, furniture
      objects `obj_<n>` from zero after the doors. */
  lemma RegistryId(ws: WallSegments, fs: seq<GameConfig.Furniture>, k: nat) returns (axis: Axis)
    requires k < |BuildObjectRegistry(ws, fs)|
    ensures BuildObjectRegistry(ws, fs)[k].id == NumberedId(|DoorRegistry(ws)|, k, axis)
  {
    var nd := |DoorRegistry(ws)|;
    axis := V;
    if k < nd {
      var e := DoorRegistry(ws)[k];
      assert DoorObject(e, k);
      axis := e.door.value.axis;
    } else {
      FurnitureId(ws, fs, k - nd);
    }
  }

  lemma DoorIdIsNotObjId(a: Axis, n: nat, m: nat)
    ensures Doors.DoorId(a, n) != ObjId(m)
  {
    assert Doors.DoorId(a, n)[0] == 'd';
    assert ObjId(m)[0] == 'o';
  }

  lemma ObjIdInjective(a: nat, b: nat)
    ensures ObjId(a) == ObjId(b) <==> a == b
  {
    assert ObjId(a)[4..] == Decimal.IntToString(a);
    assert ObjId(b)[4..] == Decimal.IntToString(b);
    Decimal.IntToStringInjective(a, b);
  }

  lemma FurnitureId(ws: WallSegments, fs: seq<GameConfig.Furniture>, k: int)
    requires 0 <= k < |Interactive(fs)|
    ensures BuildObjectRegistry(ws, fs)[|DoorRegistry(ws)| + k].id == ObjId(k)
  {
    assert BuildObjectRegistry(ws, fs)[|DoorRegistry(ws)| + k] == FurnitureEntry(Interactive(fs)[k], k);
  }
}

=== FILE: relay.dfy ===
/** The relay as a whole: the commands a connected socket can send, routed
    to the handler groups the server registers (room, movement, zone, watch,
    focus and video-call signalling; the chat group is defined but not
    registered), plus the two events that come from the process itself: a
    focus loop firing, and a store key expiring. */
module Relay {
  import opened Common
  import opened RelayState
  import StoreKeys
  import Focus
  import Watch
  import Zones
  import Movement
  import Signaling
  import Rooms
  import Couples

  datatype Command =
    | JoinRoom(roomId: RoomId, fault: Rooms.JoinFault)
    | Disconnect
    | Move(x: Movement.JsValue, y: Movement.JsValue, direction: Option<string>)
    | EnterZone(zone: string)
    | LeaveZone
    | WatchLoad(url: string)
    | WatchPlay(playAt: int)
    | WatchPause(pauseAt: int)
    | WatchSeek(seekTo: int)
    | WatchSync
    | WatchEnd
    | FocusStart(duration: Option<int>)
    | FocusPause
    | FocusResume
    | FocusCancel
    | FocusSync
    | Webrtc(signal: Signal)

  /** Routes one command of connection `c`; `db` is the membership store
      the join gate reads. */
  function Handle(s: Relay, c: Connection, db: Couples.Db, cmd: Command): (st: Step)
    ensures st.conn.sid == c.sid && st.conn.user == c.user
    ensures !cmd.JoinRoom? ==> st.conn == c
    ensures !(cmd.FocusStart? || cmd.FocusCancel?) ==> st.relay.timers == s.timers && st.relay.loops == s.loops
    ensures !(cmd.EnterZone? || cmd.LeaveZone?) ==> KeepsZones(s, st.relay)
    ensures cmd.JoinRoom? || cmd.WatchSync? || cmd.FocusSync? || cmd.Webrtc? ==> st.relay == s
  {
    match cmd
    case JoinRoom(roomId, fault) => Rooms.Join(s, c, roomId, db, fault)
    case Disconnect => Rooms.Disconnect(s, c)
    case Move(x, y, direction) => Movement.Move(s, c, x, y, direction)
    case EnterZone(zone) => Zones.Enter(s, c, zone)
    case LeaveZone => Zones.Leave(s, c)
    case WatchLoad(url) => Watch.Load(s, c, url)
    case WatchPlay(t) => Watch.Play(s, c, t)
    case WatchPause(t) => Watch.Pause(s, c, t)
    case WatchSeek(t) => Watch.Seek(s, c, t)
    case WatchSync => Watch.Sync(s, c)
    case WatchEnd => Watch.End(s, c)
    case FocusStart(duration) => Focus.Start(s, c, duration)
    case FocusPause => Focus.Pause(s, c)
    case FocusResume => Focus.Resume(s, c)
    case FocusCancel => Focus.Cancel(s, c)
    case FocusSync => Focus.Sync(s, c)
    case Webrtc(signal) => Signaling.Forward(s, c, Channel.Webrtc, signal)
  }

  /** One firing of the focus loop of room `r`; a room without a scheduled
      loop has nothing that could fire. */
  function FireLoop(s: Relay, r: RoomId, sessionSaved: bool): (o: Focus.TickOutcome)
    ensures r !in s.loops ==> o == Focus.TickOutcome(s, [], None)
    ensures r in s.loops ==> o == Focus.Tick(s, r, sessionSaved)
  {
    if r in s.loops then Focus.Tick(s, r, sessionSaved) else Focus.TickOutcome(s, [], None)
  }

  /** The store drops key `key` when its expiry runs out. Only the value
      under that key disappears; the loop registry lives in the process and
      is not affected. */
  function Expire(s: Relay, key: string): (s': Relay)
    ensures s'.timers == s.timers && s'.loops == s.loops
    ensures StoreKeys.ParseKey(key).None? ==> s' == s
    ensures StoreKeys.ParseKey(key).Some? ==>
      var r := StoreKeys.ParseKey(key).value.roomId;
      var room := RoomOf(s, r);
      && RoomOf(s', r) == (match StoreKeys.ParseKey(key).value.purpose
                           case Positions => room.(positions := map[])
                           case ActiveZone => room.(zones := map[])
                           case Watch => room.(watch := None)
                           case Focus => room.(focus := None))
      && forall q :: q != r ==> RoomOf(s', q) == RoomOf(s, q)
  {
    match StoreKeys.ParseKey(key)
    case None => s
    case Some(parts) =>
      var room := RoomOf(s, parts.roomId);
      var room' := match parts.purpose
        case Positions => room.(positions := map[])
        case ActiveZone => room.(zones := map[])
        case Watch => room.(watch := None)
        case Focus => room.(focus := None);
      WithRoom(s, parts.roomId, room')
  }

  /** Expiring a room's focus key deletes that room's countdown and nothing
      else, whatever the room id; the next firing of its loop then stops the
      loop. */
  lemma ExpiredFocusStopsLoop(s: Relay, r: RoomId)
    requires r in s.timers
    ensures var s' := Expire(s, StoreKeys.FocusStateKey(r));
      && RoomOf(s', r).focus.None?
      && RoomOf(s', r).watch == RoomOf(s, r).watch
      && RoomOf(s', r).positions == RoomOf(s, r).positions
      && r !in Focus.Tick(s', r, true).relay.timers
  {
  }

  /** Every stored zone is one of the accepted zone names. */
  ghost predicate ZonesValid(s: Relay) {
    forall r, u :: u in RoomOf(s, r).zones ==> RoomOf(s, r).zones[u] in Zones.ValidZones
  }

  /** The relay invariant: one loop per registered room, a loop behind every
      countdown, well-formed countdowns, and only accepted zone names. */
  ghost predicate Inv(s: Relay) {
    Focus.FocusInv(s) && ZonesValid(s)
  }

  lemma EmptyRelayIsValid()
    ensures Inv(EmptyRelay)
  {
  }

  /** Frame conditions carry the invariant over. */
  lemma FramedKeepsInv(s: Relay, s': Relay)
    requires Inv(s) && KeepsFocus(s, s') && KeepsZones(s, s')
    ensures Inv(s')
  {
    assert forall r :: s'.loops[r] == s.loops[r];
    forall r | RoomOf(s', r).focus.Some?
      ensures r in s'.timers && Focus.WellFormed(RoomOf(s', r).focus.value)
    {
      assert RoomOf(s', r).focus == RoomOf(s, r).focus;
    }
    forall r, u | u in RoomOf(s', r).zones
      ensures RoomOf(s', r).zones[u] in Zones.ValidZones
    {
      assert RoomOf(s', r).zones == RoomOf(s, r).zones;
    }
  }

  lemma FocusStepKeepsInv(s: Relay, s': Relay)
    requires Inv(s) && Focus.FocusInv(s') && KeepsZones(s, s')
    ensures Inv(s')
  {
    forall r, u | u in RoomOf(s', r).zones
      ensures RoomOf(s', r).zones[u] in Zones.ValidZones
    {
      assert RoomOf(s', r).zones == RoomOf(s, r).zones;
    }
  }

  lemma ZoneEnterKeepsInv(s: Relay, c: Connection, zone: string)
    requires Inv(s)
    ensures Inv(Zones.Enter(s, c, zone).relay)
  {
    var s' := Zones.Enter(s, c, zone).relay;
    FramedFocus(s, s');
    forall r, u | u in RoomOf(s', r).zones
      ensures RoomOf(s', r).zones[u] in Zones.ValidZones
    {
      if InRoom(c) && zone in Zones.ValidZones && r == CurrentRoom(c) && u != c.user.id {
        assert u in RoomOf(s, r).zones;
      }
    }
  }

  lemma ZoneLeaveKeepsInv(s: Relay, c: Connection)
    requires Inv(s)
    ensures Inv(Zones.Leave(s, c).relay)
  {
    var s' := Zones.Leave(s, c).relay;
    FramedFocus(s, s');
    forall r, u | u in RoomOf(s', r).zones
      ensures RoomOf(s', r).zones[u] in Zones.ValidZones
    {
      if InRoom(c) && r == CurrentRoom(c) {
        assert u in RoomOf(s, r).zones;
      }
    }
  }

  lemma FramedFocus(s: Relay, s': Relay)
    requires Focus.FocusInv(s) && KeepsFocus(s, s')
    ensures Focus.FocusInv(s')
  {
    forall r | RoomOf(s', r).focus.Some?
      ensures r in s'.timers && Focus.WellFormed(RoomOf(s', r).focus.value)
    {
      assert RoomOf(s', r).focus == RoomOf(s, r).focus;
    }
  }

  /** Every routed command keeps the relay invariant. */
  lemma HandleKeepsInv(s: Relay, c: Connection, db: Couples.Db, cmd: Command)
    requires Inv(s)
    ensures Inv(Handle(s, c, db, cmd).relay)
  {
    var s' := Handle(s, c, db, cmd).relay;
    match cmd
    case JoinRoom(_, _) =>
    case Disconnect => FramedKeepsInv(s, s');
    case Move(_, _, _) => FramedKeepsInv(s, s');
    case EnterZone(zone) => ZoneEnterKeepsInv(s, c, zone);
    case LeaveZone => ZoneLeaveKeepsInv(s, c);
    case WatchLoad(_) => FramedKeepsInv(s, s');
    case WatchPlay(_) => FramedKeepsInv(s, s');
    case WatchPause(_) => FramedKeepsInv(s, s');
    case WatchSeek(_) => FramedKeepsInv(s, s');
    case WatchSync =>
    case WatchEnd => FramedKeepsInv(s, s');
    case FocusStart(d) => Focus.StartKeepsInv(s, c, d); FocusStepKeepsInv(s, s');
    case FocusPause => Focus.PauseKeepsInv(s, c); FocusStepKeepsInv(s, s');
    case FocusResume => Focus.ResumeKeepsInv(s, c); FocusStepKeepsInv(s, s');
    case FocusCancel => Focus.CancelKeepsInv(s, c); FocusStepKeepsInv(s, s');
    case FocusSync =>
    case Webrtc(_) =>
  }

  /** A loop firing keeps the relay invariant. */
  lemma FireLoopKeepsInv(s: Relay, r: RoomId, sessionSaved: bool)
    requires Inv(s)
    ensures Inv(FireLoop(s, r, sessionSaved).relay)
  {
    if r in s.loops {
      Focus.TickKeepsInv(s, r, sessionSaved);
      FocusStepKeepsInv(s, FireLoop(s, r, sessionSaved).relay);
    }
  }

  /** A key expiring keeps the relay invariant. */
  lemma ExpireKeepsInv(s: Relay, key: string)
    requires Inv(s)
    ensures Inv(Expire(s, key))
  {
    var s' := Expire(s, key);
    if StoreKeys.ParseKey(key).Some? {
      var r := StoreKeys.ParseKey(key).value.roomId;
      forall q | RoomOf(s', q).focus.Some?
        ensures q in s'.timers && Focus.WellFormed(RoomOf(s', q).focus.value)
      {
        assert RoomOf(s', q).focus == RoomOf(s, q).focus;
      }
      forall q, u | u in RoomOf(s', q).zones
        ensures RoomOf(s', q).zones[u] in Zones.ValidZones
      {
        assert u in RoomOf(s, q).zones && RoomOf(s', q).zones[u] == RoomOf(s, q).zones[u];
      }
    }
  }

  /** Under the invariant no room ever has two focus loops. */
  lemma AtMostOneLoop(s: Relay, r: RoomId)
    requires Inv(s)
    ensures s.loops[r] <= 1
  {
  }

  /** A connection that has not joined a room can change nothing and reach
      nobody with any command but a join; the syncs answer with an error. */
  lemma OutsideRoomIsInert(s: Relay, c: Connection, db: Couples.Db, cmd: Command)
    requires !InRoom(c) && !cmd.JoinRoom?
    ensures Handle(s, c, db, cmd).relay == s
    ensures Handle(s, c, db, cmd).emits == []
    ensures Handle(s, c, db, cmd).conn == c
    ensures cmd == WatchSync || cmd == FocusSync || cmd.EnterZone? <==>
      Handle(s, c, db, cmd).reply == ErrorReply("Not in a room")
  {
  }

  /** Who hears what: commands echo to the sender exactly for the events the
      server addresses to the whole room (start, pause, resume, cancel of the
      timer, load and end of a video, zone state); moves, zone leaves, watch
      controls and call signals go to the others only. */
  lemma AudienceOfCommands(s: Relay, c: Connection, db: Couples.Db, cmd: Command)
    requires InRoom(c)
    ensures var st := Handle(s, c, db, cmd);
      forall i :: 0 <= i < |st.emits| ==>
        st.emits[i].to.room == CurrentRoom(c)
        && (st.emits[i].to.All? <==> cmd.WatchLoad? || cmd.WatchEnd? || cmd.EnterZone? || cmd.FocusStart? || cmd.FocusPause? || cmd.FocusResume? || cmd.FocusCancel?)
        && (st.emits[i].to.Others? ==> st.emits[i].to.except == c.sid)
  {
  }
}

=== FILE: relay_state.dfy ===
/** Shared vocabulary of the socket relay: the authenticated connection,
    the per-room ephemeral state (presence hash, zone-occupancy hash, watch
    and focus state, chat ring buffer), the process-wide focus loop
    registry, and the audience-tagged events a handler emits.

    A handler is an atomic transition from (relay state, connection,
    command) to a `Step`: the new relay state, the new connection, the
    emitted events and the reply handed to the acknowledgement callback. */
module RelayState {
  import opened Common

  type UserId = string
  type RoomId = string
  type SocketId = string

  /** The user record bound by the connection authenticator. */
  datatype User = User(id: UserId, email: Option<string>, name: Option<string>)

  /** One socket: its identity, `socket.roomId`, and the broadcast groups
      (`socket.join`) it belongs to. */
  datatype Connection = Connection(sid: SocketId, user: User, roomId: Option<RoomId>, groups: set<RoomId>)

  /** `if (!socket.roomId)`: an unset or empty room id counts as "not in a room". */
  predicate InRoom(c: Connection) {
    Truthy(c.roomId)
  }

  function CurrentRoom(c: Connection): RoomId
    requires InRoom(c)
  {
    c.roomId.value
  }

  /** A stored presence entry (timestamps are not modelled). */
  datatype Position = Position(userId: UserId, name: Option<string>, x: int, y: int, direction: string)

  datatype WatchState = WatchState(url: string, playing: bool, time: int)

  datatype FocusState = FocusState(remaining: int, total: int, running: bool)

  datatype ChatMessage = ChatMessage(id: string, userId: UserId, userName: string, text: string, ts: int)

  /** Everything the relay keeps for one room. A TTL field records the
      expiry (seconds) last set on the corresponding store key. */
  datatype RoomState = RoomState(
    positions: map<UserId, Position>,
    positionsTtl: int,
    zones: map<UserId, string>,
    zonesTtl: int,
    watch: Option<WatchState>,
    watchTtl: int,
    focus: Option<FocusState>,
    focusTtl: int,
    chat: seq<ChatMessage>)

  const EmptyRoom := RoomState(map[], 0, map[], 0, None, 0, None, 0, [])

  /** The whole relay: per-room state, the focus loop registry (`timers`)
      and the multiset of interval loops that are still scheduled. */
  datatype Relay = Relay(rooms: map<RoomId, RoomState>, timers: set<RoomId>, loops: multiset<RoomId>)

  const EmptyRelay := Relay(map[], {}, multiset{})

  function RoomOf(s: Relay, r: RoomId): RoomState {
    if r in s.rooms then s.rooms[r] else EmptyRoom
  }

  function WithRoom(s: Relay, r: RoomId, rs: RoomState): (s': Relay)
    ensures RoomOf(s', r) == rs
    ensures forall q :: q != r ==> RoomOf(s', q) == RoomOf(s, q)
    ensures s'.timers == s.timers && s'.loops == s.loops
  {
    s.(rooms := s.rooms[r := rs])
  }

  /** Frame conditions: the focus timers (state and loops) are untouched. */
  ghost predicate KeepsFocus(s: Relay, s': Relay) {
    && s'.timers == s.timers && s'.loops == s.loops
    && forall q :: RoomOf(s', q).focus == RoomOf(s, q).focus
  }

  /** Frame conditions: every room's zone-occupancy hash is untouched. */
  ghost predicate KeepsZones(s: Relay, s': Relay) {
    forall q :: RoomOf(s', q).zones == RoomOf(s, q).zones
  }

  /** Frame conditions on one room: a handler that writes only one store
      key of the room leaves every other component of the room's state as
      it was. Each predicate holds when `b` agrees with `a` everywhere but
      in the named components. */
  predicate PositionsOnly(a: RoomState, b: RoomState) {
    b == a.(positions := b.positions, positionsTtl := b.positionsTtl)
  }

  predicate ZonesOnly(a: RoomState, b: RoomState) {
    b == a.(zones := b.zones, zonesTtl := b.zonesTtl)
  }

  predicate WatchOnly(a: RoomState, b: RoomState) {
    b == a.(watch := b.watch, watchTtl := b.watchTtl)
  }

  predicate FocusOnly(a: RoomState, b: RoomState) {
    b == a.(focus := b.focus, focusTtl := b.focusTtl)
  }

  predicate ChatOnly(a: RoomState, b: RoomState) {
    b == a.(chat := b.chat)
  }

  /** `io.to(room)` reaches every socket in the group; `socket.to(room)`
      reaches every socket in the group except the sending one. */
  datatype Audience = All(room: RoomId) | Others(room: RoomId, except: SocketId)

  datatype Channel = Webrtc | Screen

  /** Opaque signalling blobs; `None` when the payload field was absent. */
  type Payload = Option<string>

  datatype Signal = Offer(offer: Payload) | Answer(answer: Payload) | Candidate(candidate: Payload) | Hangup

  datatype Event =
    | AvatarMove(userId: UserId, name: Option<string>, x: int, y: int, direction: string)
    | AvatarLeft(userId: UserId)
    | ZoneStateEvent(zone: string, userId: UserId, active: bool, membersInZone: map<UserId, string>)
    | ZoneLeft(userId: UserId)
    | WatchLoaded(url: string, userId: UserId)
    | WatchPlayed(time: int, userId: UserId)
    | WatchPaused(time: int, userId: UserId)
    | WatchSeeked(time: int, userId: UserId)
    | WatchEnded(userId: UserId)
    | FocusStarted(remaining: int, total: int)
    | FocusTicked(remaining: int)
    | FocusCompleted(total: int)
    | FocusPaused(remaining: int)
    | FocusResumed(remaining: int)
    | FocusCancelled
    | ChatPosted(msg: ChatMessage)
    | ChatReacted(userId: UserId, emoji: string)
    | Signalled(channel: Channel, signal: Signal, from: UserId)

  datatype Emit = Emit(to: Audience, event: Event)

  /** What the acknowledgement callback receives, if anything. */
  datatype Reply =
    | NoReply
    | ErrorReply(message: string)
    | Joined(positions: map<UserId, Position>)
    | ZoneEntered(active: bool)
    | WatchSnapshot(watch: Option<WatchState>)
    | FocusSnapshot(focus: Option<FocusState>)
    | HistoryPage(messages: seq<ChatMessage>)

  datatype Step = Step(relay: Relay, conn: Connection, emits: seq<Emit>, reply: Reply)

  /** A handler that returns early: nothing changes, nothing is emitted. */
  function Ignore(s: Relay, c: Connection): Step {
    Step(s, c, [], NoReply)
  }

  /** Socket `c` receives emit `e`: it is in the target group and, for
      `socket.to`, is not the sender. */
  predicate Receives(c: Connection, e: Emit) {
    e.to.room in c.groups && (e.to.Others? ==> c.sid != e.to.except)
  }

  /** Every emit of `emits` goes to the other sockets of `room` only. */
  predicate ToOthersOnly(emits: seq<Emit>, room: RoomId, c: Connection) {
    forall i :: 0 <= i < |emits| ==> emits[i].to == Others(room, c.sid)
  }

  /** An emit addressed with `socket.to` never reaches the sending socket. */
  lemma OthersNeverEcho(c: Connection, e: Emit)
    requires e.to == Others(e.to.room, c.sid)
    ensures !Receives(c, e)
  {
  }

  /** An emit addressed with `io.to` reaches the sender whenever it is in the group. */
  lemma AllIncludesSender(c: Connection, e: Emit)
    requires e.to.All? && e.to.room in c.groups
    ensures Receives(c, e)
  {
  }
}

=== FILE: rooms.dfy ===
/** Joining and leaving a room over the socket. A join is granted only to a
    member of the couple that owns the room; it subscribes the socket to the
    room's broadcast group, records the room on the connection and hands
    back the room's presence hash. A disconnect drops the user's presence
    entry and tells the others. */
module Rooms {
  import opened Common
  import opened RelayState
  import Couples

  /** A thrown error during a join: in a lookup (before anything changes)
      or in the presence read (after the socket has joined). */
  datatype JoinFault = NoFault | LookupFails(message: string) | HydrateFails(message: string)

  /** `getRoomById`, reduced to what the join reads of it: the couple that
      owns the first room row with that id. */
  function RoomById(rs: seq<Couples.RoomRow>, id: RoomId): (owner: Option<string>)
    ensures owner.Some? ==> Couples.RoomRow(id, owner.value) in rs
    ensures owner.None? <==> forall i :: 0 <= i < |rs| ==> rs[i].id != id
  {
    if rs == [] then None
    else if rs[0].id == id then Some(rs[0].coupleId)
    else RoomById(rs[1..], id)
  }

  /** The join gate: the room exists and the caller is among its couple's members. */
  predicate MayJoin(db: Couples.Db, u: UserId, roomId: RoomId) {
    && RoomById(db.rooms, roomId).Some?
    && u in Couples.CoupleMembers(db.members, RoomById(db.rooms, roomId).value)
  }

  /** The connection after a granted join: subscribed and pointing at the room. */
  function Entered(c: Connection, roomId: RoomId): Connection {
    c.(roomId := Some(roomId), groups := c.groups + {roomId})
  }

  /** `room:join`. The relay state is never changed by a join. */
  function Join(s: Relay, c: Connection, roomId: RoomId, db: Couples.Db, fault: JoinFault): (st: Step)
    ensures st.relay == s && st.emits == []
    ensures fault.LookupFails? ==> st.conn == c && st.reply == ErrorReply(fault.message)
    ensures !fault.LookupFails? && RoomById(db.rooms, roomId).None? ==> st.conn == c && st.reply == ErrorReply("Room not found")
    ensures !fault.LookupFails? && RoomById(db.rooms, roomId).Some? && !MayJoin(db, c.user.id, roomId) ==>
      st.conn == c && st.reply == ErrorReply("Not a member of this couple")
    ensures !fault.LookupFails? && MayJoin(db, c.user.id, roomId) ==>
      && st.conn == Entered(c, roomId)
      && st.reply == (if fault.HydrateFails? then ErrorReply(fault.message) else Joined(RoomOf(s, roomId).positions))
  {
    if fault.LookupFails? then Step(s, c, [], ErrorReply(fault.message))
    else
      match RoomById(db.rooms, roomId)
      case None => Step(s, c, [], ErrorReply("Room not found"))
      case Some(coupleId) =>
        if c.user.id !in Couples.CoupleMembers(db.members, coupleId) then Step(s, c, [], ErrorReply("Not a member of this couple"))
        else if fault.HydrateFails? then Step(s, Entered(c, roomId), [], ErrorReply(fault.message))
        else Step(s, Entered(c, roomId), [], Joined(RoomOf(s, roomId).positions))
  }

  /** A join is acknowledged with the presence hash exactly when the caller
      may join and nothing throws; a refused join leaves the connection as it was. */
  lemma JoinGranted(s: Relay, c: Connection, roomId: RoomId, db: Couples.Db, fault: JoinFault)
    ensures Join(s, c, roomId, db, fault).reply.Joined? <==> MayJoin(db, c.user.id, roomId) && fault.NoFault?
    ensures !MayJoin(db, c.user.id, roomId) ==> Join(s, c, roomId, db, fault).conn == c
    ensures MayJoin(db, c.user.id, roomId) && !fault.LookupFails? ==>
      var c' := Join(s, c, roomId, db, fault).conn;
      InRoom(c') == (roomId != "") && roomId in c'.groups
  {
  }

  /** A second join moves `roomId` but never leaves the first room's
      group: the socket still receives the first room's broadcasts. */
  lemma RejoinKeepsEarlierGroup(s: Relay, c: Connection, r1: RoomId, r2: RoomId, db: Couples.Db, e: Emit)
    requires MayJoin(db, c.user.id, r1) && MayJoin(db, c.user.id, r2)
    requires e.to == All(r1)
    ensures var c2 := Join(s, Join(s, c, r1, db, NoFault).conn, r2, db, NoFault).conn;
      c2.roomId == Some(r2) && r1 in c2.groups && Receives(c2, e)
  {
  }

  /** `disconnect`: drops the user's presence entry and tells the others. */
  function Disconnect(s: Relay, c: Connection): (st: Step)
    ensures st.conn == c && st.reply == NoReply
    ensures KeepsFocus(s, st.relay) && KeepsZones(s, st.relay)
    ensures !InRoom(c) ==> st == Ignore(s, c)
    ensures InRoom(c) ==>
      var r := CurrentRoom(c);
      && RoomOf(st.relay, r).positions == RoomOf(s, r).positions - {c.user.id}
      && RoomOf(st.relay, r).positionsTtl == RoomOf(s, r).positionsTtl
      && PositionsOnly(RoomOf(s, r), RoomOf(st.relay, r))
      && st.emits == [Emit(Others(r, c.sid), AvatarLeft(c.user.id))]
    ensures forall q :: !(InRoom(c) && q == CurrentRoom(c)) ==> RoomOf(st.relay, q) == RoomOf(s, q)
  {
    if !InRoom(c) then Ignore(s, c)
    else
      var r := CurrentRoom(c);
      var room := RoomOf(s, r);
      Step(WithRoom(s, r, room.(positions := room.positions - {c.user.id})), c, [Emit(Others(r, c.sid), AvatarLeft(c.user.id))], NoReply)
  }

  /** A member who joins sees the presence entry another member's last move
      wrote, and no longer sees it once that member disconnects. */
  lemma JoinSeesPresence(s: Relay, mover: Connection, joiner: Connection, db: Couples.Db, p: Position)
    requires InRoom(mover) && MayJoin(db, joiner.user.id, CurrentRoom(mover))
    requires mover.user.id in RoomOf(s, CurrentRoom(mover)).positions
    requires RoomOf(s, CurrentRoom(mover)).positions[mover.user.id] == p
    ensures var reply := Join(s, joiner, CurrentRoom(mover), db, NoFault).reply;
      reply.Joined? && reply.positions[mover.user.id] == p
    ensures var reply := Join(Disconnect(s, mover).relay, joiner, CurrentRoom(mover), db, NoFault).reply;
      reply.Joined? && mover.user.id !in reply.positions
  {
  }
}

=== FILE: scene.dfy ===
/** The room scene's grid logic, without drawing: the collision map built
    from furniture and the scene's own wall edges, the spawn search, the
    legality of a one-tile step, the local player's movement per frame with
    the events it sends, zone detection, and the bookkeeping of the other
    avatars. The scene keeps its own wall edges, with every doorway always
    passable; it does not consult the door states of the collision manager. */
module Scene {
  import opened Common
  import opened Grid
  import opened GameConfig
  import Walls
  import Zones
  import Characters

  /** A wall segment as the scene lists it, with any number of doorways. */
  datatype SceneSegment = SceneSegment(line: int, lo: int, hi: int, doors: seq<Walls.Span>)

  const SceneVertical: seq<SceneSegment> := [
    SceneSegment(5, 0, 5, [Walls.Span(2, 5)]),
    SceneSegment(14, 0, 5, [Walls.Span(1, 5)]),
    SceneSegment(19, 0, 4, [Walls.Span(1, 4)]),
    SceneSegment(6, 9, 17, [Walls.Span(10, 15)]),
    SceneSegment(22, 9, 17, [Walls.Span(10, 15)])
  ]

  const SceneHorizontal: seq<SceneSegment> := [
    SceneSegment(6, 0, 18, [Walls.Span(2, 18)]),
    SceneSegment(9, 0, 5, [Walls.Span(2, 5)]),
    SceneSegment(9, 22, 25, [Walls.Span(22, 25)])
  ]

  /** Position `c` along the segment lies in one of its doorways. */
  predicate InDoorway(seg: SceneSegment, c: int) {
    exists k :: 0 <= k < |seg.doors| && seg.doors[k].lo <= c <= seg.doors[k].hi
  }

  /** The edge entries of one segment: every position outside its doorways. */
  function SegmentEdges(seg: SceneSegment, axis: Walls.Axis): (r: set<Tile>)
    ensures forall t :: t in r <==> t in Run(axis == Walls.V, seg.line, seg.lo, seg.hi) && !InDoorway(seg, Walls.Along(t, axis))
  {
    set t | t in Run(axis == Walls.V, seg.line, seg.lo, seg.hi) && !InDoorway(seg, Walls.Along(t, axis))
  }

  /** The edge set of a list of segments on one axis. */
  function Edges(segs: seq<SceneSegment>, axis: Walls.Axis): (r: set<Tile>)
    ensures forall t :: t in r <==> exists i :: 0 <= i < |segs| && t in SegmentEdges(segs[i], axis)
    decreases |segs|
  {
    if segs == [] then {}
    else
      var init := segs[..|segs| - 1];
      assert forall i :: 0 <= i < |init| ==> init[i] == segs[i];
      Edges(init, axis) + SegmentEdges(segs[|segs| - 1], axis)
  }

  /** A scene segment with one doorway, as a collision-manager segment. */
  function AsManaged(seg: SceneSegment): Walls.Segment
    requires |seg.doors| == 1
  {
    Walls.Segment(seg.line, seg.lo, seg.hi, Some(seg.doors[0]))
  }

  function AllAsManaged(segs: seq<SceneSegment>): (r: seq<Walls.Segment>)
    requires forall i :: 0 <= i < |segs| ==> |segs[i].doors| == 1
    ensures |r| == |segs| && forall i :: 0 <= i < |segs| ==> r[i] == AsManaged(segs[i])
  {
    seq(|segs|, i requires 0 <= i < |segs| => AsManaged(segs[i]))
  }

  /** One-doorway segments give the scene exactly the wall set the
      collision manager builds for them with every door in its initial,
      open state: the scene's edges are the manager's with doors open. */
  lemma EdgesAreOpenDoorWalls(segs: seq<SceneSegment>, axis: Walls.Axis)
    requires forall i :: 0 <= i < |segs| ==> |segs[i].doors| == 1
    ensures Edges(segs, axis) == Walls.WallTiles(map[], AllAsManaged(segs), axis)
  {
    var managed := AllAsManaged(segs);
    forall t ensures t in Edges(segs, axis) <==> t in Walls.WallTiles(map[], managed, axis) {
      if t in Edges(segs, axis) {
        var i :| 0 <= i < |segs| && t in SegmentEdges(segs[i], axis);
        SegmentEdgesAsManaged(segs[i], axis, t);
      }
      if t in Walls.WallTiles(map[], managed, axis) {
        var i :| 0 <= i < |managed| && t in Walls.SegmentTiles(managed[i], axis)
          && !(Walls.InDoor(managed[i], Walls.Along(t, axis)) && Walls.DoorOpen(map[], managed[i], axis));
        SegmentEdgesAsManaged(segs[i], axis, t);
      }
    }
  }

  lemma SegmentEdgesAsManaged(seg: SceneSegment, axis: Walls.Axis, t: Tile)
    requires |seg.doors| == 1
    ensures var m := AsManaged(seg);
      t in SegmentEdges(seg, axis) <==>
        t in Walls.SegmentTiles(m, axis) && !(Walls.InDoor(m, Walls.Along(t, axis)) && Walls.DoorOpen(map[], m, axis))
  {
    var m := AsManaged(seg);
    assert Walls.DoorOpen(map[], m, axis);
    assert InDoorway(seg, Walls.Along(t, axis)) <==> Walls.InDoor(m, Walls.Along(t, axis));
  }

  /** Every segment of the scene's table has exactly one doorway. */
  lemma SceneSegmentsHaveOneDoorway()
    ensures forall i :: 0 <= i < |SceneVertical| ==> |SceneVertical[i].doors| == 1
    ensures forall i :: 0 <= i < |SceneHorizontal| ==> |SceneHorizontal[i].doors| == 1
  {
    forall i | 0 <= i < |SceneVertical| ensures |SceneVertical[i].doors| == 1 {
      assert i in {0, 1, 2, 3, 4};
    }
    forall i | 0 <= i < |SceneHorizontal| ensures |SceneHorizontal[i].doors| == 1 {
      assert i in {0, 1, 2};
    }
  }

  /** The scene's two edge sets are the collision manager's wall sets for
      the scene's own segments with every door open. */
  lemma SceneWallsAreOpenDoorWalls()
    ensures && (forall i :: 0 <= i < |SceneVertical| ==> |SceneVertical[i].doors| == 1)
            && Edges(SceneVertical, Walls.V) == Walls.WallTiles(map[], AllAsManaged(SceneVertical), Walls.V)
    ensures && (forall i :: 0 <= i < |SceneHorizontal| ==> |SceneHorizontal[i].doors| == 1)
            && Edges(SceneHorizontal, Walls.H) == Walls.WallTiles(map[], AllAsManaged(SceneHorizontal), Walls.H)
  {
    SceneSegmentsHaveOneDoorway();
    EdgesAreOpenDoorWalls(SceneVertical, Walls.V);
    EdgesAreOpenDoorWalls(SceneHorizontal, Walls.H);
  }

  /** The scene's segment table is not the collision manager's: the scene
      has a wall edge at (5, 0), which the manager's table, drawn on a
      larger grid, does not have whatever the door states. */
  lemma SceneWallsDifferFromManager(states: Walls.DoorStates)
    ensures Tile(5, 0) in Edges(SceneVertical, Walls.V)
    ensures Tile(5, 0) !in Walls.WallTiles(states, Walls.RoomWalls.vertical, Walls.V)
  {
    SceneEdgeAtFiveZero();
    ManagerWallNotAtFiveZero(states);
  }

  lemma SceneEdgeAtFiveZero()
    ensures Tile(5, 0) in Edges(SceneVertical, Walls.V)
  {
    assert Tile(5, 0) in SegmentEdges(SceneVertical[0], Walls.V);
  }

  lemma ManagerWallNotAtFiveZero(states: Walls.DoorStates)
    ensures Tile(5, 0) !in Walls.WallTiles(states, Walls.RoomWalls.vertical, Walls.V)
  {
    forall i | 0 <= i < |Walls.RoomWalls.vertical| ensures Walls.RoomWalls.vertical[i].line != 5 {
      assert i in {0, 1, 2, 3, 4};
    }
  }

  /** The non-passable furniture's footprint tiles inside the map. */
  function Blocked(fs: seq<Furniture>): (r: set<Tile>)
    ensures forall t :: t in r <==>
      InMap(t) && exists i :: 0 <= i < |fs| && fs[i].kind !in PassableFurniture && t in Footprint(fs[i])
    decreases |fs|
  {
    if fs == [] then {}
    else
      var init := fs[..|fs| - 1];
      var last := fs[|fs| - 1];
      assert forall i :: 0 <= i < |init| ==> init[i] == fs[i];
      Blocked(init) + (if last.kind in PassableFurniture then {} else set t | t in Footprint(last) && InMap(t))
  }

  /** The collision map: blocked tiles and the two edge sets. */
  datatype Collision = Collision(blocked: set<Tile>, vWall: set<Tile>, hWall: set<Tile>)

  /** `buildCollisionMap`. */
  function BuildCollisionMap(): (c: Collision)
    ensures c.blocked == Blocked(FurnitureList)
    ensures forall t :: t in c.vWall <==> exists i :: 0 <= i < |SceneVertical| && t in SegmentEdges(SceneVertical[i], Walls.V)
    ensures forall t :: t in c.hWall <==> exists i :: 0 <= i < |SceneHorizontal| && t in SegmentEdges(SceneHorizontal[i], Walls.H)
  {
    Collision(Blocked(FurnitureList), Edges(SceneVertical, Walls.V), Edges(SceneHorizontal, Walls.H))
  }

  /** The blocked map holds only tiles of the map. */
  lemma BlockedInMap(fs: seq<Furniture>, t: Tile)
    requires t in Blocked(fs)
    ensures InMap(t)
  {
  }

  /** A tile of the map that is not blocked. */
  predicate Free(blocked: set<Tile>, t: Tile) {
    InMap(t) && t !in blocked
  }

  /** The search radius: rings 1 to 25 around the preferred tile. */
  const SearchRadius := 25

  /** In the spawn search around `p`, tile `a` is met no later than `b`:
      a nearer ring first, then row by row, then left to right. */
  predicate SearchedFirst(p: Tile, a: Tile, b: Tile) {
    || Chebyshev(a, p) < Chebyshev(b, p)
    || (Chebyshev(a, p) == Chebyshev(b, p) && (a.y < b.y || (a.y == b.y && a.x <= b.x)))
  }

  /** `findSpawnTile`: the preferred tile unless it is blocked, else the
      first free tile of the ring search, else the preferred tile anyway. */
  method FindSpawnTile(blocked: set<Tile>, p: Tile) returns (t: Tile)
    ensures !(InMap(p) && p in blocked) ==> t == p
    ensures InMap(p) && p in blocked && t != p ==>
      && Free(blocked, t) && Chebyshev(t, p) <= SearchRadius
      && forall u :: Free(blocked, u) && Chebyshev(u, p) <= SearchRadius ==> SearchedFirst(p, t, u)
    ensures InMap(p) && p in blocked && t == p ==>
      forall u :: Free(blocked, u) ==> Chebyshev(u, p) > SearchRadius
  {
    if !(InMap(p) && p in blocked) {
      return p;
    }
    var r := 1;
    while r < Max(MapWidth, MapHeight)
      invariant 1 <= r <= SearchRadius + 1
      invariant forall u :: Free(blocked, u) ==> Chebyshev(u, p) >= r
    {
      var dy := -r;
      while dy <= r
        invariant -r <= dy <= r + 1
        invariant forall u :: Free(blocked, u) && Chebyshev(u, p) <= r ==> u.y >= p.y + dy
      {
        var dx := -r;
        while dx <= r
          invariant -r <= dx <= r + 1
          invariant forall u :: Free(blocked, u) && Chebyshev(u, p) <= r ==>
            u.y > p.y + dy || (u.y == p.y + dy && u.x >= p.x + dx)
        {
          var c := Tile(p.x + dx, p.y + dy);
          if InMap(c) && c !in blocked {
            return c;
          }
          dx := dx + 1;
        }
        dy := dy + 1;
      }
      r := r + 1;
    }
    return p;
  }

  /** Pixel centre of grid coordinate `n`. */
  function Centre(n: int): int {
    n * TileSize + TileSize / 2
  }

  /** One coordinate of `getGridPosition`: the tile under a pixel
      coordinate, clamped into `0 .. size - 1`. */
  function GridCoord(px: int, size: int): (n: int)
    requires size >= 1
    ensures 0 <= n < size
    ensures 0 <= px < size * TileSize ==> n * TileSize <= px < (n + 1) * TileSize
  {
    Clamp(px / TileSize, 0, size - 1)
  }

  /** The tile of a centre is the tile itself. */
  lemma CentreRoundTrip(n: int, size: int)
    requires 0 <= n < size
    ensures GridCoord(Centre(n), size) == n
  {
  }

  /** Another avatar as the scene keeps it: palette, caption and facing. */
  datatype Avatar = Avatar(palette: string, caption: string, facing: string)

  datatype Scene = Scene(
    myUserId: string,
    collision: Collision,
    avatars: map<string, Avatar>,
    gridPos: map<string, Tile>,
    px: int, py: int,
    direction: string,
    lastMove: int,
    currentZone: Option<string>)

  /** The local player's tile. */
  function GridPosition(s: Scene): (t: Tile)
    ensures InMap(t)
  {
    Tile(GridCoord(s.px, MapWidth), GridCoord(s.py, MapHeight))
  }

  /** A one-tile step from `a` to `b` crosses a wall edge in its direction
      of travel. */
  predicate WallBetween(c: Collision, a: Tile, b: Tile) {
    || (b.x - a.x == 1 && Tile(b.x, a.y) in c.vWall)
    || (b.x - a.x == -1 && Tile(a.x, a.y) in c.vWall)
    || (b.y - a.y == 1 && Tile(a.x, b.y) in c.hWall)
    || (b.y - a.y == -1 && Tile(a.x, a.y) in c.hWall)
  }

  predicate Adjacent(a: Tile, b: Tile) {
    (Abs(a.x - b.x) == 1 && a.y == b.y) || (a.x == b.x && Abs(a.y - b.y) == 1)
  }

  /** Between neighbouring tiles a wall blocks both directions alike: it is
      the entry for the larger column (or row) of the two. */
  lemma WallBetweenSymmetric(c: Collision, a: Tile, b: Tile)
    requires Adjacent(a, b)
    ensures WallBetween(c, a, b) == WallBetween(c, b, a)
    ensures a.y == b.y ==> (WallBetween(c, a, b) <==> Tile(Max(a.x, b.x), a.y) in c.vWall)
    ensures a.x == b.x ==> (WallBetween(c, a, b) <==> Tile(a.x, Max(a.y, b.y)) in c.hWall)
  {
  }

  /** `canMoveTo`. */
  function CanMoveTo(s: Scene, from: Tile, to: Tile): (ok: bool)
    ensures ok <==> Free(s.collision.blocked, to) && !WallBetween(s.collision, from, to) && to !in s.gridPos.Values
  {
    if !InMap(to) then false
    else if to in s.collision.blocked then false
    else
      var dx := to.x - from.x;
      var dy := to.y - from.y;
      if dx == 1 && Tile(to.x, from.y) in s.collision.vWall then false
      else if dx == -1 && Tile(from.x, from.y) in s.collision.vWall then false
      else if dy == 1 && Tile(from.x, to.y) in s.collision.hWall then false
      else if dy == -1 && Tile(from.x, from.y) in s.collision.hWall then false
      else to !in s.gridPos.Values
  }

  /** The arrow and WASD keys held this frame, each pair already combined. */
  datatype Keys = Keys(left: bool, right: bool, up: bool, down: bool)

  /** The step the keys ask for: left, then right, then up, then down. */
  function Heading(k: Keys): (d: (int, int))
    ensures Abs(d.0) + Abs(d.1) <= 1
    ensures k.left ==> d == (-1, 0)
    ensures !k.left && k.right ==> d == (1, 0)
    ensures !k.left && !k.right && k.up ==> d == (0, -1)
    ensures !k.left && !k.right && !k.up && k.down ==> d == (0, 1)
    ensures d == (0, 0) <==> !(k.left || k.right || k.up || k.down)
  {
    if k.left then (-1, 0)
    else if k.right then (1, 0)
    else if k.up then (0, -1)
    else if k.down then (0, 1)
    else (0, 0)
  }

  function DirectionName(dx: int, dy: int): string {
    if dy < 0 then "up" else if dy > 0 then "down" else if dx < 0 then "left" else "right"
  }

  /** Minimum time between two steps. */
  const MoveThrottle := 80

  /** What the scene sends on its socket. */
  datatype ClientEmit = MoveEmit(x: int, y: int, direction: string) | ZoneLeaveEmit(zone: string) | ZoneEnterEmit(zone: string)

  datatype Frame = Frame(scene: Scene, emits: seq<ClientEmit>)

  /** Index of the first zone that holds `t`. */
  function FirstZone(zs: seq<ZoneRect>, t: Tile): (r: Option<nat>)
    ensures r.None? <==> forall i :: 0 <= i < |zs| ==> !InZone(zs[i], t)
    ensures r.Some? ==> r.value < |zs| && InZone(zs[r.value], t) && forall i :: 0 <= i < r.value ==> !InZone(zs[i], t)
  {
    if zs == [] then None
    else if InZone(zs[0], t) then Some(0)
    else
      var rest := FirstZone(zs[1..], t);
      assert forall i :: 1 <= i < |zs| ==> zs[i] == zs[1..][i - 1];
      if rest.None? then None else Some(rest.value + 1)
  }

  /** The zone of a tile, if any. */
  function ZoneAt(t: Tile): (z: Option<string>)
    ensures z.Some? ==> z.value in Zones.ValidZones
    ensures z.None? <==> forall i :: 0 <= i < |RoomZones| ==> !InZone(RoomZones[i], t)
    ensures forall i :: 0 <= i < |RoomZones| && InZone(RoomZones[i], t) ==> z == Some(RoomZones[i].id)
  {
    ZoneIdsAreRelayZones();
    ZonesInsideAndDisjoint();
    var i := FirstZone(RoomZones, t);
    if i.None? then None else Some(RoomZones[i.value].id)
  }

  /** `checkZone`: on a change of zone, leave the old one and enter the new
      one, each only when there is one and there is a socket. */
  function CheckZone(s: Scene, t: Tile, hasSocket: bool): (f: Frame)
    ensures f.scene == s.(currentZone := ZoneAt(t))
    ensures ZoneAt(t) == s.currentZone ==> f.emits == []
    ensures !hasSocket ==> f.emits == []
    ensures hasSocket && ZoneAt(t) != s.currentZone ==>
      f.emits == (if s.currentZone.Some? then [ZoneLeaveEmit(s.currentZone.value)] else [])
               + (if ZoneAt(t).Some? then [ZoneEnterEmit(ZoneAt(t).value)] else [])
  {
    var z := ZoneAt(t);
    if z == s.currentZone then Frame(s, [])
    else
      var leave := if s.currentZone.Some? && hasSocket then [ZoneLeaveEmit(s.currentZone.value)] else [];
      var enter := if z.Some? && hasSocket then [ZoneEnterEmit(z.value)] else [];
      Frame(s.(currentZone := z), leave + enter)
  }

  /** A zone change announced twice at the same tile is announced once:
      the second check sends nothing. */
  lemma CheckZoneIdempotent(s: Scene, t: Tile, hasSocket: bool)
    ensures var f := CheckZone(s, t, hasSocket);
      CheckZone(f.scene, t, hasSocket) == Frame(f.scene, [])
  {
  }

  /** Every zone the scene enters is one the relay accepts, and the zone it
      leaves is the one it was in. */
  lemma CheckZoneSendsValidZones(s: Scene, t: Tile, hasSocket: bool)
    ensures var f := CheckZone(s, t, hasSocket);
      forall k :: 0 <= k < |f.emits| ==>
        (f.emits[k].ZoneEnterEmit? ==> f.emits[k].zone in Zones.ValidZones && k == |f.emits| - 1)
        && (f.emits[k].ZoneLeaveEmit? ==> Some(f.emits[k].zone) == s.currentZone && k == 0)
        && !f.emits[k].MoveEmit?
  {
  }

  /** `update` for one frame: turn to the held direction, then, unless the
      last step was under 80 ms ago, step one tile if `canMoveTo` allows,
      send the move and check the zone. */
  function Update(s: Scene, k: Keys, time: int, hasSocket: bool): (f: Frame)
    ensures f.scene.collision == s.collision && f.scene.avatars == s.avatars && f.scene.gridPos == s.gridPos
    ensures !(k.left || k.right || k.up || k.down) ==> f == Frame(s, [])
    ensures k.left ==> f.scene.direction == "left"
    ensures !k.left && k.right ==> f.scene.direction == "right"
    ensures !k.left && !k.right && k.up ==> f.scene.direction == "up"
    ensures !k.left && !k.right && !k.up && k.down ==> f.scene.direction == "down"
    ensures time - s.lastMove < MoveThrottle ==> f.emits == [] && GridPosition(f.scene) == GridPosition(s)
    ensures GridPosition(f.scene) != GridPosition(s) ==>
      && time - s.lastMove >= MoveThrottle
      && Adjacent(GridPosition(s), GridPosition(f.scene))
      && CanMoveTo(s, GridPosition(s), GridPosition(f.scene))
    ensures f.emits != [] ==> hasSocket && f.scene.lastMove == time
    ensures (f.emits != [] && f.emits[0].MoveEmit?) <==> hasSocket && GridPosition(f.scene) != GridPosition(s)
    ensures f.emits != [] && f.emits[0].MoveEmit? ==>
      f.emits[0] == MoveEmit(GridPosition(f.scene).x, GridPosition(f.scene).y, f.scene.direction)
    ensures var g := GridPosition(s);
      var d := Heading(k);
      var n := Tile(g.x + d.0, g.y + d.1);
      d != (0, 0) && time - s.lastMove >= MoveThrottle ==>
        && f.scene.lastMove == time
        && (GridPosition(f.scene) == n <==> CanMoveTo(s, g, n))
        && (CanMoveTo(s, g, n) ==>
              && f.scene.px == Centre(n.x) && f.scene.py == Centre(n.y)
              && f.scene.currentZone == ZoneAt(n)
              && f.emits == (if hasSocket then [MoveEmit(n.x, n.y, f.scene.direction)] else [])
                            + CheckZone(f.scene.(currentZone := s.currentZone), n, hasSocket).emits)
        && (!CanMoveTo(s, g, n) ==> GridPosition(f.scene) == g && f.emits == [])
    ensures GridPosition(f.scene) == GridPosition(s) ==> f.scene.currentZone == s.currentZone
  {
    var (dx, dy) := Heading(k);
    if dx == 0 && dy == 0 then Frame(s, [])
    else Walk(s, dx, dy, time, hasSocket)
  }

  /** The part of `update` once a direction is held: face it, then step
      unless throttled. */
  function Walk(s: Scene, dx: int, dy: int, time: int, hasSocket: bool): (f: Frame)
    requires (dx == 0) != (dy == 0) && -1 <= dx <= 1 && -1 <= dy <= 1
    ensures f.scene.collision == s.collision && f.scene.avatars == s.avatars && f.scene.gridPos == s.gridPos
    ensures f.scene.direction == DirectionName(dx, dy)
    ensures time - s.lastMove < MoveThrottle ==> f.emits == [] && GridPosition(f.scene) == GridPosition(s)
    ensures GridPosition(f.scene) != GridPosition(s) ==>
      && time - s.lastMove >= MoveThrottle
      && Adjacent(GridPosition(s), GridPosition(f.scene))
      && CanMoveTo(s, GridPosition(s), GridPosition(f.scene))
    ensures f.emits != [] ==> hasSocket && f.scene.lastMove == time
    ensures (f.emits != [] && f.emits[0].MoveEmit?) <==> hasSocket && GridPosition(f.scene) != GridPosition(s)
    ensures f.emits != [] && f.emits[0].MoveEmit? ==>
      f.emits[0] == MoveEmit(GridPosition(f.scene).x, GridPosition(f.scene).y, f.scene.direction)
    ensures var g := GridPosition(s);
      var n := Tile(g.x + dx, g.y + dy);
      time - s.lastMove >= MoveThrottle ==>
        && f.scene.lastMove == time
        && (GridPosition(f.scene) == n <==> CanMoveTo(s, g, n))
        && (CanMoveTo(s, g, n) ==>
              && f.scene.px == Centre(n.x) && f.scene.py == Centre(n.y)
              && f.scene.currentZone == ZoneAt(n)
              && f.emits == (if hasSocket then [MoveEmit(n.x, n.y, f.scene.direction)] else [])
                            + CheckZone(f.scene.(currentZone := s.currentZone), n, hasSocket).emits)
        && (!CanMoveTo(s, g, n) ==> GridPosition(f.scene) == g && f.emits == [])
    ensures GridPosition(f.scene) == GridPosition(s) ==> f.scene.currentZone == s.currentZone
  {
    var turned := s.(direction := DirectionName(dx, dy));
    var g := GridPosition(s);
    assert GridPosition(turned) == g;
    if time - s.lastMove < MoveThrottle then Frame(turned, [])
    else
      var timed := turned.(lastMove := time);
      assert GridPosition(timed) == g;
      var n := Tile(g.x + dx, g.y + dy);
      assert n != g;
      if !CanMoveTo(s, g, n) then Frame(timed, [])
      else StepTo(timed, n, hasSocket)
  }

  /** The step itself: the player moves to the centre of `n`, the move is
      sent, then the zone is checked at `n`. */
  function StepTo(s: Scene, n: Tile, hasSocket: bool): (f: Frame)
    requires InMap(n)
    ensures GridPosition(f.scene) == n
    ensures f.scene == s.(px := Centre(n.x), py := Centre(n.y), currentZone := ZoneAt(n))
    ensures f.emits == (if hasSocket then [MoveEmit(n.x, n.y, s.direction)] else []) + CheckZone(s, n, hasSocket).emits
    ensures !hasSocket ==> f.emits == []
    ensures hasSocket ==> f.emits != [] && f.emits[0] == MoveEmit(n.x, n.y, s.direction)
  {
    CentreRoundTrip(n.x, MapWidth);
    CentreRoundTrip(n.y, MapHeight);
    var z := CheckZone(s.(px := Centre(n.x), py := Centre(n.y)), n, hasSocket);
    Frame(z.scene, (if hasSocket then [MoveEmit(n.x, n.y, s.direction)] else []) + z.emits)
  }

  /** The player never walks onto a blocked tile or another avatar: a free,
      unoccupied tile stays free and unoccupied after any frame. */
  lemma UpdateKeepsPlayerFree(s: Scene, k: Keys, time: int, hasSocket: bool)
    requires Free(s.collision.blocked, GridPosition(s)) && GridPosition(s) !in s.gridPos.Values
    ensures var f := Update(s, k, time, hasSocket);
      Free(f.scene.collision.blocked, GridPosition(f.scene)) && GridPosition(f.scene) !in f.scene.gridPos.Values
  {
  }

  /** The palettes handed to other avatars: all but amber, in order. */
  function WithoutAmber(keys: seq<string>): (r: seq<string>)
    ensures forall k :: k in r <==> k in keys && k != "amber"
    ensures |r| <= |keys|
  {
    if keys == [] then []
    else
      var rest := WithoutAmber(keys[1..]);
      assert forall k :: k in keys <==> k == keys[0] || k in keys[1..];
      if keys[0] == "amber" then rest else [keys[0]] + rest
  }

  const RemotePalettes := WithoutAmber(Characters.CharacterPalettes)

  lemma RemotePalettesValue()
    ensures RemotePalettes == ["rose", "teal", "violet", "sage", "coral"]
  {
  }

  /** `updateOrCreateAvatar`: the local user is skipped; a new avatar takes
      the next non-amber palette by the current avatar count; the grid
      position is recorded and a given facing applied. */
  function UpdateOrCreateAvatar(s: Scene, userId: string, name: string, x: int, y: int, direction: string): (r: Scene)
    ensures userId == s.myUserId ==> r == s
    ensures userId != s.myUserId ==>
      && r == s.(avatars := r.avatars, gridPos := s.gridPos[userId := Tile(x, y)])
      && r.avatars.Keys == s.avatars.Keys + {userId}
      && (forall u :: u in s.avatars && u != userId ==> r.avatars[u] == s.avatars[u])
      && (userId in s.avatars ==>
            r.avatars[userId].palette == s.avatars[userId].palette && r.avatars[userId].caption == s.avatars[userId].caption)
      && (userId !in s.avatars ==> r.avatars[userId].caption == (if name == "" then "Partner" else name))
      && r.avatars[userId].facing == (if direction != "" then direction
                                      else if userId in s.avatars then s.avatars[userId].facing else "down")
  {
    if userId == s.myUserId then s
    else
      RemotePalettesValue();
      var avatar := if userId in s.avatars then s.avatars[userId]
                    else Avatar(RemotePalettes[|s.avatars| % |RemotePalettes|], if name == "" then "Partner" else name, "down");
      var faced := if direction != "" then avatar.(facing := direction) else avatar;
      s.(avatars := s.avatars[userId := faced], gridPos := s.gridPos[userId := Tile(x, y)])
  }

  /** A new avatar takes the palettes other than the local player's amber
      in turn, by how many avatars the scene already shows. */
  lemma NewAvatarPalette(s: Scene, userId: string, name: string, x: int, y: int, direction: string)
    requires userId != s.myUserId && userId !in s.avatars
    ensures var p := UpdateOrCreateAvatar(s, userId, name, x, y, direction).avatars[userId].palette;
      && |RemotePalettes| == 5 && p == RemotePalettes[|s.avatars| % 5]
      && p in Characters.Palettes && p != "amber"
  {
    RemotePalettesValue();
  }

  /** `removeAvatar`: forget the avatar and its grid position. */
  function RemoveAvatar(s: Scene, userId: string): (r: Scene)
    ensures userId !in r.avatars && userId !in r.gridPos
    ensures r.avatars.Keys == s.avatars.Keys - {userId} && r.gridPos.Keys == s.gridPos.Keys - {userId}
    ensures forall u :: u in r.gridPos ==> r.gridPos[u] == s.gridPos[u]
    ensures forall u :: u in r.avatars ==> r.avatars[u] == s.avatars[u]
    ensures r == s.(avatars := r.avatars, gridPos := r.gridPos)
  {
    s.(avatars := s.avatars - {userId}, gridPos := s.gridPos - {userId})
  }

  /** A user who left no longer blocks any tile, and the other avatars are
      as they were before that user arrived. */
  lemma RemoveUndoesCreate(s: Scene, userId: string, name: string, x: int, y: int, direction: string)
    requires userId != s.myUserId && userId !in s.avatars && userId !in s.gridPos
    ensures RemoveAvatar(UpdateOrCreateAvatar(s, userId, name, x, y, direction), userId) == s
  {
    var c := UpdateOrCreateAvatar(s, userId, name, x, y, direction);
    assert c.avatars == s.avatars[userId := c.avatars[userId]];
    DropPut(s.avatars, userId, c.avatars[userId]);
    DropPut(s.gridPos, userId, Tile(x, y));
  }

  lemma DropPut<K, V>(m: map<K, V>, k: K, v: V)
    requires k !in m
    ensures m[k := v] - {k} == m
  {
  }

  /** A remote position as restored on entry; `None` is an entry that does
      not parse and is skipped. */
  datatype Remote = Remote(name: string, x: int, y: int, direction: string)

  /** The last parsable entry stored for user `u`, if any. */
  function LastParsed(entries: seq<(string, Option<Remote>)>, u: string): (d: Option<Remote>)
    ensures d.None? <==> forall i :: 0 <= i < |entries| && entries[i].0 == u ==> entries[i].1.None?
    ensures d.Some? ==> exists i :: 0 <= i < |entries| && entries[i] == (u, d)
    decreases |entries|
  {
    if entries == [] then None
    else
      var init := entries[..|entries| - 1];
      assert forall i :: 0 <= i < |init| ==> init[i] == entries[i];
      var last := entries[|entries| - 1];
      if last.0 == u && last.1.Some? then last.1 else LastParsed(init, u)
  }

  /** `restorePositions`: apply every parsable entry in order. Each other
      user with a parsable entry ends with an avatar on the tile of its last
      one; every other user's avatar and tile are left as they were. */
  function RestorePositions(s: Scene, entries: seq<(string, Option<Remote>)>): (r: Scene)
    ensures r.myUserId == s.myUserId && r.collision == s.collision && r.px == s.px && r.py == s.py
    ensures r.currentZone == s.currentZone && r.direction == s.direction && r.lastMove == s.lastMove
    ensures s.myUserId !in s.gridPos ==> s.myUserId !in r.gridPos
    ensures forall u :: u != s.myUserId && LastParsed(entries, u).Some? ==>
      && u in r.avatars && u in r.gridPos
      && r.gridPos[u] == Tile(LastParsed(entries, u).value.x, LastParsed(entries, u).value.y)
    ensures forall u :: u == s.myUserId || LastParsed(entries, u).None? ==>
      && (u in r.avatars <==> u in s.avatars) && (u in r.avatars ==> r.avatars[u] == s.avatars[u])
      && (u in r.gridPos <==> u in s.gridPos) && (u in r.gridPos ==> r.gridPos[u] == s.gridPos[u])
    decreases |entries|
  {
    if entries == [] then s
    else
      var init := entries[..|entries| - 1];
      assert forall i :: 0 <= i < |init| ==> init[i] == entries[i];
      RestoreEntry(RestorePositions(s, init), entries[|entries| - 1])
  }

  /** One step of `restorePositions`: an unparsable entry is skipped. */
  function RestoreEntry(s: Scene, entry: (string, Option<Remote>)): (r: Scene)
    ensures r == s.(avatars := r.avatars, gridPos := r.gridPos)
    ensures entry.1.Some? && entry.0 != s.myUserId ==>
      entry.0 in r.avatars && entry.0 in r.gridPos && r.gridPos[entry.0] == Tile(entry.1.value.x, entry.1.value.y)
    ensures forall u :: u != entry.0 || entry.1.None? || u == s.myUserId ==>
      && (u in r.avatars <==> u in s.avatars) && (u in r.avatars ==> r.avatars[u] == s.avatars[u])
      && (u in r.gridPos <==> u in s.gridPos) && (u in r.gridPos ==> r.gridPos[u] == s.gridPos[u])
  {
    var (userId, data) := entry;
    if data.None? then s
    else UpdateOrCreateAvatar(s, userId, data.value.name, data.value.x, data.value.y, data.value.direction)
  }

  /** `RestorePositions` unfolded once at its last entry. */
  lemma RestoreLast(s: Scene, entries: seq<(string, Option<Remote>)>)
    requires entries != []
    ensures RestorePositions(s, entries) == RestoreEntry(RestorePositions(s, entries[..|entries| - 1]), entries[|entries| - 1])
  {
  }

  /** Restoring two runs of entries one after the other is restoring them
      in one go. */
  lemma {:induction false} RestoreAppend(s: Scene, a: seq<(string, Option<Remote>)>, b: seq<(string, Option<Remote>)>)
    ensures RestorePositions(s, a + b) == RestorePositions(RestorePositions(s, a), b)
    decreases |b|
  {
    if b == [] {
      assert a + b == a;
    } else {
      var ab, init := a + b, b[..|b| - 1];
      assert ab[..|ab| - 1] == a + init;
      assert ab[|ab| - 1] == b[|b| - 1];
      calc {
        RestorePositions(s, ab);
        { RestoreLast(s, ab); }
        RestoreEntry(RestorePositions(s, a + init), b[|b| - 1]);
        { RestoreAppend(s, a, init); }
        RestoreEntry(RestorePositions(RestorePositions(s, a), init), b[|b| - 1]);
        RestorePositions(RestorePositions(s, a), b);
      }
    }
  }

  /** On the shipped map the preferred spawn tile (13, 7) is free, so the
      spawn search keeps it. */
  lemma SpawnTileFree()
    ensures Free(BuildCollisionMap().blocked, Tile(13, 7))
  {
    var fs := FurnitureList;
    assert forall i :: 0 <= i < |fs| ==> Tile(13, 7) !in Footprint(fs[i]);
  }

  /** `create`: build the collision map, spawn on (13, 7) facing down,
      then place the avatars already in the room on an empty scene. */
  method Create(myUserId: string, entries: seq<(string, Option<Remote>)>) returns (s: Scene)
    ensures s.collision == BuildCollisionMap()
    ensures s.direction == "down" && s.lastMove == 0 && s.currentZone.None?
    ensures myUserId !in s.gridPos
    ensures Free(s.collision.blocked, GridPosition(s)) && GridPosition(s) == Tile(13, 7)
    ensures s.px == Centre(13) && s.py == Centre(7)
    ensures s == RestorePositions(s.(avatars := map[], gridPos := map[]), entries)
  {
    var collision := BuildCollisionMap();
    SpawnTileFree();
    var spawn := FindSpawnTile(collision.blocked, Tile(13, 7));
    CentreRoundTrip(spawn.x, MapWidth);
    CentreRoundTrip(spawn.y, MapHeight);
    var empty := Scene(myUserId, collision, map[], map[], Centre(spawn.x), Centre(spawn.y), "down", 0, None);
    s := RestorePositions(empty, entries);
  }
}

=== FILE: signaling.dfy ===
/** Peer-to-peer signalling relay for video calls and screen sharing: the
    relay forwards each offer, answer, candidate or hangup to the other
    members of the sender's room, tagged with the sender, and stores nothing. */
module Signaling {
  import opened Common
  import opened RelayState

  /** Forwards one signal on `channel` (`webrtc:*` or `screen:*`). */
  function Forward(s: Relay, c: Connection, channel: Channel, signal: Signal): (st: Step)
    ensures st.relay == s && st.conn == c && st.reply == NoReply
    ensures !InRoom(c) ==> st.emits == []
    ensures InRoom(c) ==> st.emits == [Emit(Others(CurrentRoom(c), c.sid), Signalled(channel, signal, c.user.id))]
  {
    if !InRoom(c) then Ignore(s, c)
    else Step(s, c, [Emit(Others(CurrentRoom(c), c.sid), Signalled(channel, signal, c.user.id))], NoReply)
  }

  /** A forwarded signal reaches exactly the sockets of the sender's room
      other than the sender, unchanged and attributed to the sender. */
  lemma ForwardReachesExactlyPeers(s: Relay, c: Connection, channel: Channel, signal: Signal, peer: Connection)
    requires InRoom(c)
    ensures var e := Forward(s, c, channel, signal).emits[0];
      && (Receives(peer, e) <==> CurrentRoom(c) in peer.groups && peer.sid != c.sid)
      && e.event.signal == signal && e.event.from == c.user.id
  {
  }

  /** A socket outside any room sends nothing anywhere. */
  lemma ForwardOutsideRoomIsSilent(s: Relay, c: Connection, channel: Channel, signal: Signal, peer: Connection)
    requires !InRoom(c)
    ensures forall i :: 0 <= i < |Forward(s, c, channel, signal).emits| ==> !Receives(peer, Forward(s, c, channel, signal).emits[i])
  {
  }
}

=== FILE: socket_auth.dfy ===
/** The connection authenticator: a socket is admitted only with a token
    that verifies and names a stored user, and it is then bound to that
    stored user record. Token verification and the user lookup are foreign
    calls and enter as parameters. */
module SocketAuth {
  import opened Common
  import opened RelayState

  /** The token fields a client may send at connection time. */
  datatype Handshake = Handshake(authToken: Option<string>, queryToken: Option<string>)

  /** Outcome of looking up a user id: a record, no record, or a thrown error. */
  datatype Lookup = Found(user: User) | NotFound | LookupFails

  datatype Admission = Admitted(conn: Connection) | Refused(reason: string)

  /** `handshake.auth?.token || handshake.query?.token`. */
  function Token(h: Handshake): (t: Option<string>)
    ensures Truthy(h.authToken) ==> t == h.authToken
    ensures !Truthy(h.authToken) ==> t == h.queryToken
  {
    if Truthy(h.authToken) then h.authToken else h.queryToken
  }

  /** Decides the connection of socket `sid`. `verify` yields the token's
      user id, or `None` where the library throws; `lookup` is the store. */
  function Authenticate(h: Handshake, sid: SocketId, verify: string -> Option<UserId>, lookup: UserId -> Lookup): (a: Admission)
    ensures !Truthy(Token(h)) ==> a == Refused("Authentication required")
    ensures Truthy(Token(h)) && verify(Token(h).value).None? ==> a == Refused("Invalid token")
    ensures Truthy(Token(h)) && verify(Token(h).value).Some? ==>
      match lookup(verify(Token(h).value).value)
      case Found(u) => a == Admitted(Connection(sid, u, None, {}))
      case NotFound => a == Refused("User not found")
      case LookupFails => a == Refused("Invalid token")
  {
    var token := Token(h);
    if !Truthy(token) then Refused("Authentication required")
    else
      match verify(token.value)
      case None => Refused("Invalid token")
      case Some(id) =>
        match lookup(id)
        case Found(u) => Admitted(Connection(sid, u, None, {}))
        case NotFound => Refused("User not found")
        case LookupFails => Refused("Invalid token")
  }

  /** A socket is admitted exactly when a non-empty token verifies to an id
      with a stored user, and then it carries that stored record, starts
      outside any room and belongs to no group. */
  lemma AdmittedIffVerifiedAndFound(h: Handshake, sid: SocketId, verify: string -> Option<UserId>, lookup: UserId -> Lookup)
    ensures Authenticate(h, sid, verify, lookup).Admitted? <==>
      Truthy(Token(h)) && verify(Token(h).value).Some? && lookup(verify(Token(h).value).value).Found?
    ensures Authenticate(h, sid, verify, lookup).Admitted? ==>
      var conn := Authenticate(h, sid, verify, lookup).conn;
      && conn.user == lookup(verify(Token(h).value).value).user
      && conn.sid == sid && !InRoom(conn) && conn.groups == {}
  {
  }

  /** The query token is consulted only when the auth token is missing or empty. */
  lemma AuthTokenTakesPrecedence(t: string, q: Option<string>, sid: SocketId, verify: string -> Option<UserId>, lookup: UserId -> Lookup)
    requires t != ""
    ensures Authenticate(Handshake(Some(t), q), sid, verify, lookup) == Authenticate(Handshake(Some(t), None), sid, verify, lookup)
  {
  }
}

=== FILE: store_keys.dfy ===
/** Key namespacing of the ephemeral store: every room-scoped value lives
    under `room:<roomId>:<purpose>`, one purpose per relay component.
    `ParseKey` reads a key back into its purpose and room, which shows that
    the four builders never collide, for equal or different rooms. */
module StoreKeys {
  import opened Common

  datatype Purpose = Positions | ActiveZone | Watch | Focus

  datatype KeyParts = KeyParts(purpose: Purpose, roomId: string)

  const Prefix := "room:"

  function Suffix(p: Purpose): string {
    match p
    case Positions => ":positions"
    case ActiveZone => ":active_zone"
    case Watch => ":watch"
    case Focus => ":focus"
  }

  /** Recovers purpose and room from a key; the suffixes are tried longest first. */
  function ParseKey(k: string): Option<KeyParts> {
    if !StartsWith(k, Prefix) then None
    else if |k| >= |Prefix| + 12 && EndsWith(k, Suffix(ActiveZone)) then Some(KeyParts(ActiveZone, k[5..|k| - 12]))
    else if |k| >= |Prefix| + 10 && EndsWith(k, Suffix(Positions)) then Some(KeyParts(Positions, k[5..|k| - 10]))
    else if |k| >= |Prefix| + 6 && EndsWith(k, Suffix(Watch)) then Some(KeyParts(Watch, k[5..|k| - 6]))
    else if |k| >= |Prefix| + 6 && EndsWith(k, Suffix(Focus)) then Some(KeyParts(Focus, k[5..|k| - 6]))
    else None
  }

  /** The shared shape of the four builders. */
  function RoomKey(p: Purpose, roomId: string): (k: string)
    ensures ParseKey(k) == Some(KeyParts(p, roomId))
  {
    var k := Prefix + roomId + Suffix(p);
    assert StartsWith(k, Prefix);
    assert k[5..|k| - |Suffix(p)|] == roomId;
    assert EndsWith(k, Suffix(p));
    SuffixesDistinct(k, p);
    k
  }

  /** No purpose suffix ends with another one, so a key carrying `Suffix(p)`
      is never mistaken for a key of an earlier-tried purpose. */
  lemma SuffixesDistinct(k: string, p: Purpose)
    requires EndsWith(k, Suffix(p))
    ensures p != ActiveZone ==> !EndsWith(k, Suffix(ActiveZone))
    ensures p != Positions ==> !EndsWith(k, Suffix(Positions))
    ensures p != Watch ==> !EndsWith(k, Suffix(Watch))
  {
    forall q | q != p && q != Focus && EndsWith(k, Suffix(q))
      ensures false
    {
      if |Suffix(q)| <= |Suffix(p)| {
        EndsWithNested(k, Suffix(q), Suffix(p));
      } else {
        EndsWithNested(k, Suffix(p), Suffix(q));
      }
    }
  }

  /** `roomPositionsKey`: presence hash of a room. */
  function RoomPositionsKey(roomId: string): (k: string)
    ensures ParseKey(k) == Some(KeyParts(Positions, roomId))
  {
    RoomKey(Positions, roomId)
  }

  /** `activeZoneKey`: zone-occupancy hash of a room. */
  function ActiveZoneKey(roomId: string): (k: string)
    ensures ParseKey(k) == Some(KeyParts(ActiveZone, roomId))
  {
    RoomKey(ActiveZone, roomId)
  }

  /** `watchStateKey`: shared playback state of a room. */
  function WatchStateKey(roomId: string): (k: string)
    ensures ParseKey(k) == Some(KeyParts(Watch, roomId))
  {
    RoomKey(Watch, roomId)
  }

  /** `focusStateKey`: focus timer state of a room. */
  function FocusStateKey(roomId: string): (k: string)
    ensures ParseKey(k) == Some(KeyParts(Focus, roomId))
  {
    RoomKey(Focus, roomId)
  }

  /** Two keys coincide exactly when purpose and room coincide: each builder
      is injective and no two builders share a key. */
  lemma KeysCollideOnlyWhenEqual(p: Purpose, r: string, q: Purpose, s: string)
    ensures RoomKey(p, r) == RoomKey(q, s) <==> p == q && r == s
  {
    if RoomKey(p, r) == RoomKey(q, s) {
      assert Some(KeyParts(p, r)) == ParseKey(RoomKey(p, r)) == Some(KeyParts(q, s));
    }
  }
}

=== FILE: walls.dfy ===
/** The wall layer of the client: straight wall segments, each optionally
    holding one door interval, and a record of which doors are shut. A door
    nobody has touched is open. The layer yields the edge sets the movement
    check consults and the tile lists used to rebuild collision. Segments are
    a parameter: the shipped table reaches past the 26 x 18 map. */
module Walls {
  import opened Common
  import opened Grid
  import Decimal

  datatype Axis = V | H

  datatype Span = Span(lo: int, hi: int)

  /** On a vertical wall `line` is the column and `lo..hi` the rows; on a
      horizontal wall `line` is the row and `lo..hi` the columns. The door
      interval is measured along the same coordinate as `lo..hi`. */
  datatype Segment = Segment(line: int, lo: int, hi: int, door: Option<Span>)

  datatype WallSegments = WallSegments(vertical: seq<Segment>, horizontal: seq<Segment>)

  /** The segment table the client ships. */
  const RoomWalls := WallSegments(
    [ Segment(8, 0, 6, Some(Span(3, 6))),
      Segment(19, 0, 6, Some(Span(2, 6))),
      Segment(21, 0, 6, Some(Span(2, 6))),
      Segment(7, 10, 23, Some(Span(13, 16))),
      Segment(33, 10, 23, Some(Span(13, 16))) ],
    [ Segment(7, 0, 20, Some(Span(3, 20))),
      Segment(10, 0, 6, Some(Span(2, 6))),
      Segment(10, 33, 37, Some(Span(33, 37))) ])

  /** Recorded door states by door key; a key with no entry is an open door. */
  type DoorStates = map<string, bool>

  /** The door key `v_<x>_<y1>_<y2>` or `h_<y>_<x1>_<x2>`. */
  function DoorKey(axis: Axis, line: int, span: Span): string {
    (if axis == V then "v_" else "h_") + Fields(line, span.lo, span.hi)
  }

  /** Three integers joined by underscores. */
  function Fields(a: int, b: int, c: int): string {
    Decimal.IntToString(a) + "_" + (Decimal.IntToString(b) + "_" + Decimal.IntToString(c))
  }

  lemma FieldsInjective(a1: int, b1: int, c1: int, a2: int, b2: int, c2: int)
    requires Fields(a1, b1, c1) == Fields(a2, b2, c2)
    ensures a1 == a2 && b1 == b2 && c1 == c2
  {
    var t1 := Decimal.IntToString(b1) + "_" + Decimal.IntToString(c1);
    var t2 := Decimal.IntToString(b2) + "_" + Decimal.IntToString(c2);
    Decimal.NotInRendering(a1, '_');
    Decimal.NotInRendering(a2, '_');
    Decimal.NotInRendering(b1, '_');
    Decimal.NotInRendering(b2, '_');
    SplitUnique(Decimal.IntToString(a1), t1, Decimal.IntToString(a2), t2, '_');
    SplitUnique(Decimal.IntToString(b1), Decimal.IntToString(c1), Decimal.IntToString(b2), Decimal.IntToString(c2), '_');
    Decimal.IntToStringInjective(a1, a2);
    Decimal.IntToStringInjective(b1, b2);
    Decimal.IntToStringInjective(c1, c2);
  }

  /** Door keys name a door by axis, wall line and interval, and by nothing
      else: a vertical and a horizontal door never share state. */
  lemma DoorKeyInjective(a1: Axis, l1: int, s1: Span, a2: Axis, l2: int, s2: Span)
    ensures DoorKey(a1, l1, s1) == DoorKey(a2, l2, s2) <==> a1 == a2 && l1 == l2 && s1 == s2
  {
    var k1, k2 := DoorKey(a1, l1, s1), DoorKey(a2, l2, s2);
    if k1 == k2 {
      assert k1[0] == (if a1 == V then 'v' else 'h');
      assert k2[0] == (if a2 == V then 'v' else 'h');
      assert k1[2..] == Fields(l1, s1.lo, s1.hi);
      assert k2[2..] == Fields(l2, s2.lo, s2.hi);
      FieldsInjective(l1, s1.lo, s1.hi, l2, s2.lo, s2.hi);
    }
  }

  /** `doorStates.get(key) !== false`. */
  predicate OpenAt(states: DoorStates, key: string) {
    key !in states || states[key]
  }

  /** `isDoorOpen` as written: reading the key of a segment without a door
      throws, modelled as `None`. */
  function IsDoorOpen(states: DoorStates, seg: Segment, axis: Axis): (r: Option<bool>)
    ensures r.None? <==> seg.door.None?
    ensures r.Some? ==> (r.value <==> OpenAt(states, DoorKey(axis, seg.line, seg.door.value)))
  {
    if seg.door.None? then None else Some(OpenAt(states, DoorKey(axis, seg.line, seg.door.value)))
  }

  /** Whether the door interval of `seg` is currently passable; a segment
      without a door has nothing to pass. */
  predicate DoorOpen(states: DoorStates, seg: Segment, axis: Axis) {
    seg.door.Some? && OpenAt(states, DoorKey(axis, seg.line, seg.door.value))
  }

  datatype Toggled = Toggled(states: DoorStates, open: bool)

  /** `toggleDoor`: records and returns the negation of the door's openness. */
  function ToggleDoor(states: DoorStates, seg: Segment, axis: Axis): (r: Option<Toggled>)
    ensures r.None? <==> seg.door.None?
    ensures r.Some? ==>
      && r.value.open == !DoorOpen(states, seg, axis)
      && DoorOpen(r.value.states, seg, axis) == r.value.open
      && forall k :: k != DoorKey(axis, seg.line, seg.door.value) ==>
           (k in r.value.states <==> k in states) && (k in states ==> r.value.states[k] == states[k])
  {
    if seg.door.None? then None else Some(Flip(states, DoorKey(axis, seg.line, seg.door.value)))
  }

  /** Records the negation of the openness under `key`. */
  function Flip(states: DoorStates, key: string): (r: Toggled)
    ensures r.open == !OpenAt(states, key) && OpenAt(r.states, key) == r.open
    ensures forall k :: k != key ==> (k in r.states <==> k in states) && (k in states ==> r.states[k] == states[k])
  {
    var next := !OpenAt(states, key);
    Toggled(states[key := next], next)
  }

  /** Toggling the same door twice restores the openness of every door. */
  lemma ToggleTwiceRestores(states: DoorStates, seg: Segment, axis: Axis)
    requires seg.door.Some?
    ensures var once := ToggleDoor(states, seg, axis).value.states;
      forall k :: OpenAt(ToggleDoor(once, seg, axis).value.states, k) == OpenAt(states, k)
  {
  }

  /** Position along the wall: the row of a vertical wall tile, the column
      of a horizontal one. */
  function Along(t: Tile, axis: Axis): int {
    if axis == V then t.y else t.x
  }

  predicate InDoor(seg: Segment, c: int) {
    seg.door.Some? && seg.door.value.lo <= c <= seg.door.value.hi
  }

  /** Every tile of the segment, door or not. */
  function SegmentTiles(seg: Segment, axis: Axis): set<Tile> {
    Run(axis == V, seg.line, seg.lo, seg.hi)
  }

  /** The tiles of the segment that stand as wall, given whether its door
      interval is passable. */
  function Standing(seg: Segment, axis: Axis, doorOpen: bool): (r: set<Tile>)
    ensures r <= SegmentTiles(seg, axis)
    ensures forall t :: t in r <==> t in SegmentTiles(seg, axis) && !(doorOpen && InDoor(seg, Along(t, axis)))
  {
    set t | t in SegmentTiles(seg, axis) && !(doorOpen && InDoor(seg, Along(t, axis)))
  }

  /** The wall tiles of a list of segments on one axis under the current door states. */
  function WallTiles(states: DoorStates, segs: seq<Segment>, axis: Axis): (r: set<Tile>)
    ensures forall t :: t in r <==>
      exists i :: 0 <= i < |segs| && t in SegmentTiles(segs[i], axis)
                  && !(InDoor(segs[i], Along(t, axis)) && DoorOpen(states, segs[i], axis))
    decreases |segs|
  {
    if segs == [] then {}
    else
      var last := segs[|segs| - 1];
      var r := WallTiles(states, segs[..|segs| - 1], axis) + Standing(last, axis, DoorOpen(states, last, axis));
      assert forall i :: 0 <= i < |segs| - 1 ==> segs[..|segs| - 1][i] == segs[i];
      r
  }

  /** Every tile of every segment on one axis. */
  function AllTiles(segs: seq<Segment>, axis: Axis): (r: set<Tile>)
    ensures forall t :: t in r <==> exists i :: 0 <= i < |segs| && t in SegmentTiles(segs[i], axis)
    decreases |segs|
  {
    if segs == [] then {}
    else
      var r := AllTiles(segs[..|segs| - 1], axis) + SegmentTiles(segs[|segs| - 1], axis);
      assert forall i :: 0 <= i < |segs| - 1 ==> segs[..|segs| - 1][i] == segs[i];
      r
  }

  /** The two edge sets: `v` blocks crossing into column x at row y from
      the left, `h` crossing into row y at column x from above. */
  datatype WallSets = WallSets(v: set<Tile>, h: set<Tile>)

  /** `buildWallSets`, with the door state consulted only for segments
      that have a door. */
  function BuildWallSets(states: DoorStates, ws: WallSegments): (r: WallSets)
    ensures r.v <= AllTiles(ws.vertical, V) && r.h <= AllTiles(ws.horizontal, H)
  {
    WallSets(WallTiles(states, ws.vertical, V), WallTiles(states, ws.horizontal, H))
  }

  /** True when the door state is read for every segment without throwing. */
  predicate AllHaveDoors(segs: seq<Segment>) {
    forall i :: 0 <= i < |segs| ==> segs[i].door.Some?
  }

  /** `buildWallSets` as written: it asks `isDoorOpen` for every segment,
      which throws on the first segment without a door. */
  function BuildWallSetsAsWritten(states: DoorStates, ws: WallSegments): Option<WallSets> {
    if AllHaveDoors(ws.vertical) && AllHaveDoors(ws.horizontal) then Some(BuildWallSets(states, ws))
    else None
  }

  /** As written, a single doorless segment makes the whole build fail,
      although its tiles plainly should all stand as wall. */
  lemma DoorlessSegmentBreaksBuild()
    ensures var ws := WallSegments([Segment(0, 0, 2, None)], []);
      && BuildWallSetsAsWritten(map[], ws).None?
      && BuildWallSets(map[], ws).v == {Tile(0, 0), Tile(0, 1), Tile(0, 2)}
  {
    var ws := WallSegments([Segment(0, 0, 2, None)], []);
    var v := BuildWallSets(map[], ws).v;
    assert v == SegmentTiles(ws.vertical[0], V);
    assert v == {Tile(0, 0), Tile(0, 1), Tile(0, 2)} by {
      assert forall t :: t in v <==> t.x == 0 && 0 <= t.y <= 2;
      assert forall t :: t in v <==> t == Tile(0, 0) || t == Tile(0, 1) || t == Tile(0, 2) by {
        forall t ensures t in v <==> t == Tile(0, 0) || t == Tile(0, 1) || t == Tile(0, 2) {
          if t.x == 0 && 0 <= t.y <= 2 {
            assert t.y == 0 || t.y == 1 || t.y == 2;
          }
        }
      }
    }
  }

  /** Every segment of the shipped table has a door. */
  lemma ShippedSegmentsHaveDoors()
    ensures AllHaveDoors(RoomWalls.vertical) && AllHaveDoors(RoomWalls.horizontal)
  {
    forall i | 0 <= i < |RoomWalls.vertical| ensures RoomWalls.vertical[i].door.Some? {
      assert i in {0, 1, 2, 3, 4};
    }
    forall i | 0 <= i < |RoomWalls.horizontal| ensures RoomWalls.horizontal[i].door.Some? {
      assert i in {0, 1, 2};
    }
  }

  /** Where every segment has a door, as the shipped table does, the
      written and the corrected build agree. */
  lemma AsWrittenAgreesOnShippedTable(states: DoorStates)
    ensures BuildWallSetsAsWritten(states, RoomWalls) == Some(BuildWallSets(states, RoomWalls))
  {
    ShippedSegmentsHaveDoors();
  }

  /** Appends, in order along the wall, the tiles of `seg` that stand when
      the door interval is skipped exactly if `skipDoor`. */
  method AppendStanding(coords: seq<Tile>, seg: Segment, axis: Axis, skipDoor: bool) returns (out: seq<Tile>)
    ensures forall t :: t in out <==> t in coords || t in Standing(seg, axis, skipDoor)
    ensures |coords| <= |out| && out[..|coords|] == coords
  {
    out := coords;
    var c := seg.lo;
    while c <= seg.hi
      invariant seg.lo <= c || seg.lo > seg.hi
      invariant c <= seg.hi + 1 || seg.lo > seg.hi
      invariant |coords| <= |out| && out[..|coords|] == coords
      invariant forall t :: t in out <==> t in coords || (t in Standing(seg, axis, skipDoor) && Along(t, axis) < c)
    {
      var inDoor := InDoor(seg, c);
      if !(inDoor && skipDoor) {
        var t := if axis == V then Tile(seg.line, c) else Tile(c, seg.line);
        assert Along(t, axis) == c && t in SegmentTiles(seg, axis);
        out := out + [t];
      }
      c := c + 1;
    }
  }

  /** The wall tiles of the segments of one axis, in segment order, each
      door interval skipped when `respectDoors` and the door is open. */
  method CollectWalls(states: DoorStates, segs: seq<Segment>, axis: Axis, respectDoors: bool) returns (coords: seq<Tile>)
    ensures respectDoors ==> forall t :: t in coords <==> t in WallTiles(states, segs, axis)
    ensures !respectDoors ==> forall t :: t in coords <==> t in AllTiles(segs, axis)
  {
    coords := [];
    var i := 0;
    while i < |segs|
      invariant 0 <= i <= |segs|
      invariant respectDoors ==> forall t :: t in coords <==> t in WallTiles(states, segs[..i], axis)
      invariant !respectDoors ==> forall t :: t in coords <==> t in AllTiles(segs[..i], axis)
    {
      var seg := segs[i];
      coords := AppendStanding(coords, seg, axis, respectDoors && DoorOpen(states, seg, axis));
      PrefixStep(states, segs, axis, i);
      i := i + 1;
    }
    assert segs[..i] == segs;
  }

  /** One more segment adds its standing tiles to both tile sets. */
  lemma PrefixStep(states: DoorStates, segs: seq<Segment>, axis: Axis, i: int)
    requires 0 <= i < |segs|
    ensures WallTiles(states, segs[..i + 1], axis) == WallTiles(states, segs[..i], axis) + Standing(segs[i], axis, DoorOpen(states, segs[i], axis))
    ensures AllTiles(segs[..i + 1], axis) == AllTiles(segs[..i], axis) + Standing(segs[i], axis, false)
  {
    assert segs[..i + 1][..i] == segs[..i];
    assert Standing(segs[i], axis, false) == SegmentTiles(segs[i], axis);
  }

  /** `getWallBlockedTiles`: exactly the tiles of the two wall sets. */
  method WallBlockedTiles(states: DoorStates, ws: WallSegments) returns (coords: seq<Tile>)
    ensures forall t :: t in coords <==> t in BuildWallSets(states, ws).v || t in BuildWallSets(states, ws).h
  {
    var vs := CollectWalls(states, ws.vertical, V, true);
    var hs := CollectWalls(states, ws.horizontal, H, true);
    coords := vs + hs;
  }

  /** `getWallBlockedTiles` as written: like `buildWallSets` it asks
      `isDoorOpen` for every segment, so the first segment without a door
      throws (`None`). Otherwise it lists the tiles of the two wall sets;
      `WallBlockedTiles` is the corrected listing the model uses. */
  method WallBlockedTilesAsWritten(states: DoorStates, ws: WallSegments) returns (coords: Option<seq<Tile>>)
    ensures coords.None? <==> BuildWallSetsAsWritten(states, ws).None?
    ensures coords.None? <==>
      (exists i :: 0 <= i < |ws.vertical| && ws.vertical[i].door.None?)
      || (exists i :: 0 <= i < |ws.horizontal| && ws.horizontal[i].door.None?)
    ensures coords.Some? ==> forall t :: t in coords.value <==> t in BuildWallSets(states, ws).v || t in BuildWallSets(states, ws).h
  {
    if !(AllHaveDoors(ws.vertical) && AllHaveDoors(ws.horizontal)) {
      return None;
    }
    var listed := WallBlockedTiles(states, ws);
    coords := Some(listed);
  }

  /** `getAllWallTileCoords`: every segment tile, whatever the doors. */
  method AllWallTileCoords(ws: WallSegments) returns (coords: seq<Tile>)
    ensures forall t :: t in coords <==> t in AllTiles(ws.vertical, V) || t in AllTiles(ws.horizontal, H)
  {
    var vs := CollectWalls(map[], ws.vertical, V, false);
    var hs := CollectWalls(map[], ws.horizontal, H, false);
    coords := vs + hs;
  }

  /** The blocked tiles are always among the segment tiles. */
  lemma BlockedWithinAll(states: DoorStates, ws: WallSegments, t: Tile)
    requires t in BuildWallSets(states, ws).v || t in BuildWallSets(states, ws).h
    ensures t in AllTiles(ws.vertical, V) || t in AllTiles(ws.horizontal, H)
  {
  }

  /** Closing a door only adds wall tiles, and each added tile lies in that
      door's interval on that door's wall line. */
  lemma {:induction false} CloseAddsOnlyDoorTiles(states: DoorStates, segs: seq<Segment>, axis: Axis, line: int, span: Span)
    ensures var closed := states[DoorKey(axis, line, span) := false];
      && WallTiles(states, segs, axis) <= WallTiles(closed, segs, axis)
      && forall t :: t in WallTiles(closed, segs, axis) - WallTiles(states, segs, axis) ==>
           (if axis == V then t.x else t.y) == line && span.lo <= Along(t, axis) <= span.hi
    decreases |segs|
  {
    var key := DoorKey(axis, line, span);
    var closed := states[key := false];
    if segs != [] {
      var init := segs[..|segs| - 1];
      var last := segs[|segs| - 1];
      CloseAddsOnlyDoorTiles(states, init, axis, line, span);
      if last.door.Some? {
        DoorKeyInjective(axis, last.line, last.door.value, axis, line, span);
      }
      assert DoorOpen(closed, last, axis) ==> DoorOpen(states, last, axis);
      forall t | t in Standing(last, axis, DoorOpen(closed, last, axis)) - Standing(last, axis, DoorOpen(states, last, axis))
        ensures (if axis == V then t.x else t.y) == line && span.lo <= Along(t, axis) <= span.hi
      {
      }
    }
  }

  /** Closing a door of one axis leaves the other axis' wall set as it was. */
  lemma {:induction false} CloseLeavesOtherAxis(states: DoorStates, segs: seq<Segment>, axis: Axis, other: Axis, line: int, span: Span)
    requires axis != other
    ensures WallTiles(states[DoorKey(axis, line, span) := false], segs, other) == WallTiles(states, segs, other)
    decreases |segs|
  {
    if segs != [] {
      var last := segs[|segs| - 1];
      CloseLeavesOtherAxis(states, segs[..|segs| - 1], axis, other, line, span);
      if last.door.Some? {
        DoorKeyInjective(axis, line, span, other, last.line, last.door.value);
      }
      assert DoorOpen(states[DoorKey(axis, line, span) := false], last, other) == DoorOpen(states, last, other);
    }
  }
}

=== FILE: watch.dfy ===
/** Watch-together: one shared playback state per room. Loading a video
    replaces the state and tells everyone (the loader included); play, pause
    and seek update an existing state and tell everyone else; sync reads it
    back; end deletes it. Every write refreshes a one-hour expiry. */
module Watch {
  import opened Common
  import opened RelayState

  const WatchTtl := 3600

  datatype Control = PlayAt | PauseAt | SeekTo

  /** The stored state after a control: the time is replaced, the playing
      flag is set by play and pause and kept by seek, the url is kept. */
  function Apply(w: WatchState, k: Control, time: int): (w': WatchState)
    ensures w'.url == w.url && w'.time == time
    ensures w'.playing == (k == PlayAt || (k == SeekTo && w.playing))
  {
    match k
    case PlayAt => w.(playing := true, time := time)
    case PauseAt => w.(playing := false, time := time)
    case SeekTo => w.(time := time)
  }

  function ControlEvent(k: Control, time: int, userId: UserId): Event {
    match k
    case PlayAt => WatchPlayed(time, userId)
    case PauseAt => WatchPaused(time, userId)
    case SeekTo => WatchSeeked(time, userId)
  }

  /** `watch:load`: a fresh, paused state at time zero, announced to the whole room. */
  function Load(s: Relay, c: Connection, url: string): (st: Step)
    ensures st.conn == c && st.reply == NoReply
    ensures st.relay.timers == s.timers && st.relay.loops == s.loops
    ensures !InRoom(c) ==> st == Ignore(s, c)
    ensures InRoom(c) ==>
      var r := CurrentRoom(c);
      && RoomOf(st.relay, r).watch == Some(WatchState(url, false, 0))
      && RoomOf(st.relay, r).watchTtl == WatchTtl
      && WatchOnly(RoomOf(s, r), RoomOf(st.relay, r))
      && st.emits == [Emit(All(r), WatchLoaded(url, c.user.id))]
    ensures forall q :: !(InRoom(c) && q == CurrentRoom(c)) ==> RoomOf(st.relay, q) == RoomOf(s, q)
    ensures KeepsFocus(s, st.relay) && KeepsZones(s, st.relay)
  {
    if !InRoom(c) then Ignore(s, c)
    else
      var r := CurrentRoom(c);
      var room := RoomOf(s, r).(watch := Some(WatchState(url, false, 0)), watchTtl := WatchTtl);
      Step(WithRoom(s, r, room), c, [Emit(All(r), WatchLoaded(url, c.user.id))], NoReply)
  }

  /** Shared body of `watch:play`, `watch:pause` and `watch:seek`: only an
      existing state is updated, and the sender is not told. */
  function Update(s: Relay, c: Connection, k: Control, time: int): (st: Step)
    ensures st.conn == c && st.reply == NoReply
    ensures st.relay.timers == s.timers && st.relay.loops == s.loops
    ensures !InRoom(c) || RoomOf(s, CurrentRoom(c)).watch.None? ==> st == Ignore(s, c)
    ensures InRoom(c) && RoomOf(s, CurrentRoom(c)).watch.Some? ==>
      var r := CurrentRoom(c);
      && RoomOf(st.relay, r).watch == Some(Apply(RoomOf(s, r).watch.value, k, time))
      && RoomOf(st.relay, r).watchTtl == WatchTtl
      && WatchOnly(RoomOf(s, r), RoomOf(st.relay, r))
      && st.emits == [Emit(Others(r, c.sid), ControlEvent(k, time, c.user.id))]
    ensures forall q :: !(InRoom(c) && q == CurrentRoom(c)) ==> RoomOf(st.relay, q) == RoomOf(s, q)
    ensures KeepsFocus(s, st.relay) && KeepsZones(s, st.relay)
  {
    if !InRoom(c) then Ignore(s, c)
    else
      var r := CurrentRoom(c);
      var room := RoomOf(s, r);
      if room.watch.None? then Ignore(s, c)
      else
        var room' := room.(watch := Some(Apply(room.watch.value, k, time)), watchTtl := WatchTtl);
        Step(WithRoom(s, r, room'), c, [Emit(Others(r, c.sid), ControlEvent(k, time, c.user.id))], NoReply)
  }

  /** `watch:play`. */
  function Play(s: Relay, c: Connection, time: int): (st: Step)
    ensures InRoom(c) && RoomOf(s, CurrentRoom(c)).watch.Some? ==>
      var w := RoomOf(st.relay, CurrentRoom(c)).watch;
      && w.Some? && w.value.playing && w.value.time == time
      && w.value.url == RoomOf(s, CurrentRoom(c)).watch.value.url
      && RoomOf(st.relay, CurrentRoom(c)).watchTtl == WatchTtl
      && WatchOnly(RoomOf(s, CurrentRoom(c)), RoomOf(st.relay, CurrentRoom(c)))
      && ToOthersOnly(st.emits, CurrentRoom(c), c)
    ensures !InRoom(c) || RoomOf(s, CurrentRoom(c)).watch.None? ==> st == Ignore(s, c)
    ensures st.conn == c && st.reply == NoReply
    ensures forall q :: !(InRoom(c) && q == CurrentRoom(c)) ==> RoomOf(st.relay, q) == RoomOf(s, q)
    ensures KeepsFocus(s, st.relay) && KeepsZones(s, st.relay)
  {
    Update(s, c, PlayAt, time)
  }

  /** `watch:pause`. */
  function Pause(s: Relay, c: Connection, time: int): (st: Step)
    ensures InRoom(c) && RoomOf(s, CurrentRoom(c)).watch.Some? ==>
      var w := RoomOf(st.relay, CurrentRoom(c)).watch;
      && w.Some? && !w.value.playing && w.value.time == time
      && w.value.url == RoomOf(s, CurrentRoom(c)).watch.value.url
      && RoomOf(st.relay, CurrentRoom(c)).watchTtl == WatchTtl
      && WatchOnly(RoomOf(s, CurrentRoom(c)), RoomOf(st.relay, CurrentRoom(c)))
      && ToOthersOnly(st.emits, CurrentRoom(c), c)
    ensures !InRoom(c) || RoomOf(s, CurrentRoom(c)).watch.None? ==> st == Ignore(s, c)
    ensures st.conn == c && st.reply == NoReply
    ensures forall q :: !(InRoom(c) && q == CurrentRoom(c)) ==> RoomOf(st.relay, q) == RoomOf(s, q)
    ensures KeepsFocus(s, st.relay) && KeepsZones(s, st.relay)
  {
    Update(s, c, PauseAt, time)
  }

  /** `watch:seek`: moves the time, keeps the playing flag. */
  function Seek(s: Relay, c: Connection, time: int): (st: Step)
    ensures InRoom(c) && RoomOf(s, CurrentRoom(c)).watch.Some? ==>
      var w := RoomOf(st.relay, CurrentRoom(c)).watch;
      var w0 := RoomOf(s, CurrentRoom(c)).watch.value;
      && w.Some? && w.value.playing == w0.playing && w.value.time == time && w.value.url == w0.url
      && RoomOf(st.relay, CurrentRoom(c)).watchTtl == WatchTtl
      && WatchOnly(RoomOf(s, CurrentRoom(c)), RoomOf(st.relay, CurrentRoom(c)))
      && ToOthersOnly(st.emits, CurrentRoom(c), c)
    ensures !InRoom(c) || RoomOf(s, CurrentRoom(c)).watch.None? ==> st == Ignore(s, c)
    ensures st.conn == c && st.reply == NoReply
    ensures forall q :: !(InRoom(c) && q == CurrentRoom(c)) ==> RoomOf(st.relay, q) == RoomOf(s, q)
    ensures KeepsFocus(s, st.relay) && KeepsZones(s, st.relay)
  {
    Update(s, c, SeekTo, time)
  }

  /** `watch:sync`: the stored state of the caller's room, or an error. */
  function Sync(s: Relay, c: Connection): (st: Step)
    ensures st.relay == s && st.conn == c && st.emits == []
    ensures !InRoom(c) <==> st.reply == ErrorReply("Not in a room")
    ensures InRoom(c) ==> st.reply == WatchSnapshot(RoomOf(s, CurrentRoom(c)).watch)
  {
    if !InRoom(c) then Step(s, c, [], ErrorReply("Not in a room"))
    else Step(s, c, [], WatchSnapshot(RoomOf(s, CurrentRoom(c)).watch))
  }

  /** `watch:end`: deletes the state and tells the whole room. */
  function End(s: Relay, c: Connection): (st: Step)
    ensures st.conn == c && st.reply == NoReply
    ensures st.relay.timers == s.timers && st.relay.loops == s.loops
    ensures !InRoom(c) ==> st == Ignore(s, c)
    ensures InRoom(c) ==>
      && RoomOf(st.relay, CurrentRoom(c)).watch.None?
      && WatchOnly(RoomOf(s, CurrentRoom(c)), RoomOf(st.relay, CurrentRoom(c)))
      && st.emits == [Emit(All(CurrentRoom(c)), WatchEnded(c.user.id))]
    ensures forall q :: !(InRoom(c) && q == CurrentRoom(c)) ==> RoomOf(st.relay, q) == RoomOf(s, q)
    ensures KeepsFocus(s, st.relay) && KeepsZones(s, st.relay)
  {
    if !InRoom(c) then Ignore(s, c)
    else
      var r := CurrentRoom(c);
      Step(WithRoom(s, r, RoomOf(s, r).(watch := None)), c, [Emit(All(r), WatchEnded(c.user.id))], NoReply)
  }

  /** A member who syncs after a load sees the loaded video, paused at zero;
      after an end, sees nothing. */
  lemma SyncAfterLoadOrEnd(s: Relay, c: Connection, d: Connection, url: string)
    requires InRoom(c) && InRoom(d) && CurrentRoom(c) == CurrentRoom(d)
    ensures Sync(Load(s, c, url).relay, d).reply == WatchSnapshot(Some(WatchState(url, false, 0)))
    ensures Sync(End(s, c).relay, d).reply == WatchSnapshot(None)
  {
  }

  /** Controls never create a session: without a load, play, pause and seek
      leave a room with no shared state. */
  lemma NoControlWithoutLoad(s: Relay, c: Connection, k: Control, time: int)
    requires InRoom(c) && RoomOf(s, CurrentRoom(c)).watch.None?
    ensures RoomOf(Update(s, c, k, time).relay, CurrentRoom(c)).watch.None?
    ensures Update(s, c, k, time).emits == []
  {
  }

  /** The last control wins: whatever sequence of controls follows a load,
      the stored time is the last one sent and the url is the loaded one. */
  lemma {:induction false} LastControlWins(s: Relay, c: Connection, url: string, ks: seq<(Control, int)>)
    requires InRoom(c) && ks != []
    ensures var w := RoomOf(RunControls(Load(s, c, url).relay, c, ks), CurrentRoom(c)).watch;
      w.Some? && w.value.url == url && w.value.time == ks[|ks| - 1].1
    decreases |ks|
  {
    var s1 := Load(s, c, url).relay;
    ControlsKeepUrl(s1, c, url, ks);
  }

  /** Applies a sequence of controls from one connection, in order. */
  function RunControls(s: Relay, c: Connection, ks: seq<(Control, int)>): Relay
    decreases |ks|
  {
    if ks == [] then s
    else RunControls(Update(s, c, ks[0].0, ks[0].1).relay, c, ks[1..])
  }

  lemma {:induction false} ControlsKeepUrl(s: Relay, c: Connection, url: string, ks: seq<(Control, int)>)
    requires InRoom(c)
    requires RoomOf(s, CurrentRoom(c)).watch.Some? && RoomOf(s, CurrentRoom(c)).watch.value.url == url
    ensures var w := RoomOf(RunControls(s, c, ks), CurrentRoom(c)).watch;
      && w.Some? && w.value.url == url
      && (ks != [] ==> w.value.time == ks[|ks| - 1].1)
    decreases |ks|
  {
    if ks != [] {
      var s1 := Update(s, c, ks[0].0, ks[0].1).relay;
      ControlsKeepUrl(s1, c, url, ks[1..]);
      if |ks| > 1 {
        assert ks[1..][|ks[1..]| - 1] == ks[|ks| - 1];
      }
    }
  }
}

=== FILE: zones.dfy ===
/** Zone presence: each room keeps a hash from user to the named zone the
    user stands in. A zone is "active" for an entering user when at least
    two users, the entering one included, are recorded in it. */
module Zones {
  import opened Common
  import opened RelayState

  /** The zones the relay accepts. */
  const ValidZones: seq<string> := ["kitchen", "lounge", "garden", "bedroom", "office"]

  /** Expiry (seconds) refreshed on the whole hash by every entry. */
  const ZoneTtl := 300

  /** The users recorded in zone `z`. */
  function Occupants(m: map<UserId, string>, z: string): set<UserId> {
    set u | u in m && m[u] == z
  }

  /** `zone:enter`: records the caller's zone, refreshes the expiry and
      broadcasts the whole hash with the activity flag, which is also the
      acknowledgement. */
  function Enter(s: Relay, c: Connection, zone: string): (st: Step)
    ensures st.conn == c && st.relay.timers == s.timers && st.relay.loops == s.loops
    ensures !InRoom(c) ==> st == Step(s, c, [], ErrorReply("Not in a room"))
    ensures InRoom(c) && zone !in ValidZones ==> st == Step(s, c, [], ErrorReply("Invalid zone"))
    ensures InRoom(c) && zone in ValidZones ==>
      var r := CurrentRoom(c);
      var zones := RoomOf(st.relay, r).zones;
      && zones == RoomOf(s, r).zones[c.user.id := zone]
      && RoomOf(st.relay, r).zonesTtl == ZoneTtl
      && ZonesOnly(RoomOf(s, r), RoomOf(st.relay, r))
      && st.reply.ZoneEntered?
      && st.emits == [Emit(All(r), ZoneStateEvent(zone, c.user.id, st.reply.active, zones))]
    ensures forall q :: !(InRoom(c) && zone in ValidZones && q == CurrentRoom(c)) ==> RoomOf(st.relay, q) == RoomOf(s, q)
    ensures KeepsFocus(s, st.relay)
  {
    if !InRoom(c) then Step(s, c, [], ErrorReply("Not in a room"))
    else if zone !in ValidZones then Step(s, c, [], ErrorReply("Invalid zone"))
    else
      var r := CurrentRoom(c);
      var room := RoomOf(s, r);
      var zones := room.zones[c.user.id := zone];
      var active := |Occupants(zones, zone)| >= 2;
      Step(WithRoom(s, r, room.(zones := zones, zonesTtl := ZoneTtl)), c,
           [Emit(All(r), ZoneStateEvent(zone, c.user.id, active, zones))], ZoneEntered(active))
  }

  /** The activity flag means exactly that some other user was already
      recorded in the zone being entered. */
  lemma EnterActiveIffCompany(s: Relay, c: Connection, zone: string)
    requires InRoom(c) && zone in ValidZones
    ensures var before := RoomOf(s, CurrentRoom(c)).zones;
      Enter(s, c, zone).reply.active <==>
        exists u :: u in before && u != c.user.id && before[u] == zone
  {
    var before := RoomOf(s, CurrentRoom(c)).zones;
    var zones := before[c.user.id := zone];
    var occ := Occupants(zones, zone);
    assert c.user.id in occ;
    if exists u :: u in before && u != c.user.id && before[u] == zone {
      var u :| u in before && u != c.user.id && before[u] == zone;
      assert {u, c.user.id} <= occ;
      assert |{u, c.user.id}| == 2;
      SubsetCard({u, c.user.id}, occ);
    } else {
      assert occ == {c.user.id};
    }
  }

  lemma SubsetCard<T>(a: set<T>, b: set<T>)
    requires a <= b
    ensures |a| <= |b|
  {
    assert b == a + (b - a);
  }

  /** `zone:leave`: forgets the caller's zone and tells the others; the
      expiry is left as it was. */
  function Leave(s: Relay, c: Connection): (st: Step)
    ensures st.conn == c && st.reply == NoReply
    ensures st.relay.timers == s.timers && st.relay.loops == s.loops
    ensures !InRoom(c) ==> st == Ignore(s, c)
    ensures InRoom(c) ==>
      var r := CurrentRoom(c);
      && RoomOf(st.relay, r).zones == RoomOf(s, r).zones - {c.user.id}
      && RoomOf(st.relay, r).zonesTtl == RoomOf(s, r).zonesTtl
      && ZonesOnly(RoomOf(s, r), RoomOf(st.relay, r))
      && st.emits == [Emit(Others(r, c.sid), ZoneLeft(c.user.id))]
    ensures forall q :: !(InRoom(c) && q == CurrentRoom(c)) ==> RoomOf(st.relay, q) == RoomOf(s, q)
    ensures KeepsFocus(s, st.relay)
  {
    if !InRoom(c) then Ignore(s, c)
    else
      var r := CurrentRoom(c);
      var room := RoomOf(s, r);
      Step(WithRoom(s, r, room.(zones := room.zones - {c.user.id})), c, [Emit(Others(r, c.sid), ZoneLeft(c.user.id))], NoReply)
  }

  /** Entering then leaving removes the caller from the hash and from every
      zone's occupants, and leaves every other user's zone as it was. */
  lemma LeaveUndoesEnter(s: Relay, c: Connection, zone: string)
    requires InRoom(c) && zone in ValidZones
    ensures var r := CurrentRoom(c);
      var after := RoomOf(Leave(Enter(s, c, zone).relay, c).relay, r).zones;
      && after == RoomOf(s, r).zones - {c.user.id}
      && forall z :: c.user.id !in Occupants(after, z)
  {
  }
}
